=== FILE: README.md ===
# CivLabs Radios — a verified model of the channel and radio-lifecycle core

CivLabs Radios is a Paper/Bukkit game plugin. Players place radios, tune them to a
transmit (TX) channel and a listen (RX) channel, and talk through a voice-chat
server to everyone listening on their channel. Each channel has at most one
transmitter. This project models the plugin's deterministic core as one sequential
state machine over a value `Plugin.State`, which holds:

- the radio store (`RadioStore.Store`): a map from radio id to radio record, plus the
  order in which `getAll` lists them;
- the channel registry (`FrequencyManager.Registry`): a map from channel number to the
  holding radio id, with a ceiling `maxFrequencies`;
- the voice bridge (`VoiceBridge.Bridge`): whether the voice API is ready, the
  per-channel group ids, and one speaker per receiving radio;
- the players' voice-chat group memberships, the radio mode (simple channel buttons or
  slider) and the configuration keys the core reads.

Every operation is a pure function from state to state. Two invariants recur
throughout the model:

- `Plugin.Consistent`: the registry is exactly what a rebuild from the store produces;
- `Plugin.ExclusiveTx`: no two enabled radios share a TX channel.

The proofs show which operations keep these invariants. Where the code breaks one, the
model records the discrepancy under "## Findings".

Modules follow the Java classes:

| module | Java class |
|---|---|
| `FrequencyManager` | core/FrequencyManager.java |
| `Plugin` | CivLabsRadiosPlugin.java |
| `OperatorGuard` | tasks/OperatorGuardTask.java |
| `RadioMath` | util/RadioMath.java |
| `AntennaUtil` | util/AntennaUtil.java |
| `Radios` | model/Radio.java |
| `RadioStore` | store/RadioStore.java |
| `VoiceBridge` | voice/VoiceBridge.java |
| `AnvilInput` | gui/AnvilInputGui.java |
| `TabCompleter` | command/RadioTabCompleter.java |
| `RadioGui` | gui/RadioGui.java |
| `SliderGui` | gui/SliderGui.java |
| `FrequencyOverview` | gui/FrequencyOverviewGui.java |

Support modules:

- `Basics`: options, ids, int32 bounds;
- `Worlds`: the block columns that the antenna scan reads;
- `Text`: the `String`/`Integer` library behaviour the commands depend on, namely
  trim, ASCII case folding, `parseInt`, `valueOf`, `compareTo` and sorting;
- `Paging`: per-player page numbers and page clamping.

Where the code and the plugin's design description differ, the model follows the code:

- The antenna scan counts consecutive lightning rods straight above the radio. It
  checks for no cap block and no particular structure shape.
- The once-per-second supervisor never checks that the operator is near the radio.
- Voice routing adds no distance-based delay, packet drop or noise.
- The fuel burn `ceil(1.002^x - 1)` is not strictly increasing in the range. It is
  monotone, but flat near zero: `RadioMath.BurnFlatNearZero` proves burn(1) = burn(2) = 1.

Integer formulas are exact:

- The maximum range `floor(sqrt(30000·a) + 4.687·y - 200)` is computed as
  `(isqrt(3·10^10·a) + 4687·y - 200000) div 1000`, clamped at 0. It has no upper
  clamp: the `(int)` cast's saturation at `Integer.MAX_VALUE` is left out (see "## Left out").
- The burn `ceil(1.002^x - 1)` is computed as `ceil((501^x - 500^x) / 500^x)`, saturated
  at `Integer.MAX_VALUE` as Java's `(int)` cast of a huge double is.

## Model

| member | source | states |
|---|---|---|
| FrequencyManager.NewRegistry | src/main/java/com/civlabs/radios/core/FrequencyManager.java:14-20 | a new registry has the given ceiling and no channel is in use by anyone |
| FrequencyManager.Claim | src/main/java/com/civlabs/radios/core/FrequencyManager.java:22-28 | a claim succeeds iff the channel is in [1, max] and free or already held by the same id; a refused claim leaves the registry unchanged; a granted one maps the channel to the id and touches no other channel |
| FrequencyManager.Release | src/main/java/com/civlabs/radios/core/FrequencyManager.java:30-33 | the entry is removed only when the channel is held by that id, otherwise the registry is unchanged; other channels are untouched |
| FrequencyManager.InUseIffClaimRefused | src/main/java/com/civlabs/radios/core/FrequencyManager.java:22-48 | for an in-range channel, isInUse(f, id) holds exactly when claim(f, id) is refused |
| FrequencyManager.ClaimIsExclusive | src/main/java/com/civlabs/radios/core/FrequencyManager.java:22-33 | after r1 claims f, a claim by a different r2 fails and changes nothing, r2 cannot release it, and once r1 releases it r2's claim succeeds |
| FrequencyManager.ClaimIsIdempotent | src/main/java/com/civlabs/radios/core/FrequencyManager.java:26-27 | repeating a successful claim by the holder succeeds and leaves the registry as it was |
| FrequencyManager.ReleaseUndoesFreshClaim | src/main/java/com/civlabs/radios/core/FrequencyManager.java:22-33 | releasing a channel that was just claimed from free restores the previous registry |
| FrequencyManager.Load | src/main/java/com/civlabs/radios/core/FrequencyManager.java:35-43 | the loaded channels are exactly the TX channels of enabled radios in [1, max], and each maps to the last such radio in list order |
| FrequencyManager.ClearAndLoad | src/main/java/com/civlabs/radios/core/FrequencyManager.java:35-43 | after a rebuild every key is in [1, max] and maps to an enabled radio transmitting on it, no stale entry survives, and every enabled in-range radio's channel is present |
| FrequencyManager.LoadReadsOnlyClaims | src/main/java/com/civlabs/radios/core/FrequencyManager.java:37-41 | the rebuild depends only on each radio's id, enabled flag and TX channel: lists that agree on those load the same registry |
| AntennaUtil.CountVerticalRodsAbove | src/main/java/com/civlabs/radios/util/AntennaUtil.java:12-27 | no location or no world yields 0; otherwise the n blocks above the radio are lightning rods, the next block is not, and the run stays inside the world's height |
| AntennaUtil.RunLengthUnique | src/main/java/com/civlabs/radios/util/AntennaUtil.java:20-25 | a rod run ended by a non-rod block has a unique length, so the scan's result is the only count satisfying its contract |
| AntennaUtil.OnlyColumnAboveMatters | src/main/java/com/civlabs/radios/util/AntennaUtil.java:16-24 | two worlds that agree on the radio's x,z column above y give the same count |
| AntennaUtil.NoRodAboveMeansZero | src/main/java/com/civlabs/radios/util/AntennaUtil.java:22-24 | when the block directly above is not a rod the count is 0 |
| Radios.NewRadio | src/main/java/com/civlabs/radios/model/Radio.java:25-40 | a new radio is disabled, has TX = RX = 0, no operator and no fuel, and takes its world, coordinates and dimension from the location when the location has a world |
| Radios.SetFuelSeconds | src/main/java/com/civlabs/radios/model/Radio.java:77 | stores max(0, v) and changes no other field |
| Radios.AddFuelSeconds | src/main/java/com/civlabs/radios/model/Radio.java:78 | a negative amount leaves the radio unchanged, a non-negative one adds exactly that amount, and no other field changes |
| Radios.GetLocation | src/main/java/com/civlabs/radios/model/Radio.java:82-86 | a location exists exactly when the radio names a world that is loaded, and it carries the stored coordinates |
| Radios.FuelNeverNegative | src/main/java/com/civlabs/radios/model/Radio.java:77-79 | fuel is never negative after either fuel operation, and hasFuel after setFuelSeconds(v) holds iff v > 0 |
| RadioMath.Isqrt | src/main/java/com/civlabs/radios/util/RadioMath.java:17 | the integer square root r satisfies r² ≤ n < (r+1)² |
| RadioMath.IsqrtMono | src/main/java/com/civlabs/radios/util/RadioMath.java:17 | the integer square root is monotone |
| RadioMath.RawRangeIsFloorOfFormula | src/main/java/com/civlabs/radios/util/RadioMath.java:17-18 | the integer range is the floor of sqrt(30000·a) + 4.687·y − 200: it satisfies the formula's bound and its successor does not |
| RadioMath.MaxRangeMonotoneInAltitude | src/main/java/com/civlabs/radios/util/RadioMath.java:17-19 | for a fixed antenna count the range never shrinks as altitude grows |
| RadioMath.MaxRangeMonotoneInAntennas | src/main/java/com/civlabs/radios/util/RadioMath.java:17-19 | at a fixed altitude the range never shrinks as rods are added |
| RadioMath.NoAntennaAtSeaFloorHasNoRange | src/main/java/com/civlabs/radios/util/RadioMath.java:17-19 | with no rods at altitude 0 the range is 0 |
| RadioMath.RecomputeAntennaAndRange | src/main/java/com/civlabs/radios/util/RadioMath.java:11-23 | the stored antenna count is exactly the scan result (0 without a location), the stored range is the clamped formula at the stored y and never negative, and no other field changes |
| RadioMath.CeilDiv | src/main/java/com/civlabs/radios/util/RadioMath.java:28-29 | the ceiling quotient c satisfies n ≤ c·d < n + d |
| RadioMath.BurnPerSecond | src/main/java/com/civlabs/radios/util/RadioMath.java:26-30 | burn is 0 for x ≤ 0; for x > 0 it is in [1, INT_MAX] and, below saturation, the least integer with burn·500^x ≥ 501^x − 500^x; it saturates at INT_MAX only when that least integer is at least INT_MAX |
| RadioMath.PowGrows | src/main/java/com/civlabs/radios/util/RadioMath.java:28-29 | 501^e > 500^e for e ≥ 1, so the burn of a positive range is at least 1 |
| RadioMath.RatioGrows | src/main/java/com/civlabs/radios/util/RadioMath.java:28-29 | (501/500)^x ≤ (501/500)^y whenever x ≤ y, stated without division |
| RadioMath.CeilDivMono | src/main/java/com/civlabs/radios/util/RadioMath.java:28-29 | the ceiling quotient is monotone in the fraction it rounds |
| RadioMath.BurnMonotone | src/main/java/com/civlabs/radios/util/RadioMath.java:26-30 | the burn is monotone non-decreasing in the range |
| RadioMath.BurnFlatNearZero | src/main/java/com/civlabs/radios/util/RadioMath.java:28-29 | burn(1) = burn(2) = 1: the burn is not strictly increasing |
| RadioStore.Get | src/main/java/com/civlabs/radios/store/RadioStore.java:44-46 | a radio is returned exactly when its id is stored, and it carries that id |
| RadioStore.Save | src/main/java/com/civlabs/radios/store/RadioStore.java:22-35 | afterwards get(r.id) is r and every other id is unchanged; saving a stored id keeps the count and listing order, saving a new id appends it |
| RadioStore.Delete | src/main/java/com/civlabs/radios/store/RadioStore.java:27-30 | afterwards get(id) is absent and every other id is unchanged |
| RadioStore.GetAll | src/main/java/com/civlabs/radios/store/RadioStore.java:48-50 | the listing holds exactly the stored radios, in listing order |
| RadioStore.GetAllSize | src/main/java/com/civlabs/radios/store/RadioStore.java:48-50 | the listing has one entry per stored radio |
| RadioStore.ListenersOn | src/main/java/com/civlabs/radios/store/RadioStore.java:52-56 | the result holds exactly the stored radios whose RX is f, enabled or not |
| RadioStore.ByOperator | src/main/java/com/civlabs/radios/store/RadioStore.java:36-41 | no operator gives nothing; otherwise the result is the first listed radio with that operator, and nothing is returned only when no radio has it |
| VoiceBridge.OnServerStarted | src/main/java/com/civlabs/radios/voice/VoiceBridge.java:27-43 | the API becomes ready and every channel 1..maxFreq gets a group id; other entries and the speakers are untouched |
| VoiceBridge.Deliver | src/main/java/com/civlabs/radios/voice/VoiceBridge.java:62-68 | the frame reaches exactly the listening radios whose location resolves; an existing speaker is kept as it was, and a new one is placed at the radio with the configured radius |
| VoiceBridge.TransmitterOf | src/main/java/com/civlabs/radios/voice/VoiceBridge.java:50-53 | the result is an enabled radio operated by the talker, and nothing is returned only when no such radio exists |
| VoiceBridge.OnMicPacket | src/main/java/com/civlabs/radios/voice/VoiceBridge.java:45-70 | nothing is delivered when the API is not ready, there is no talker, the talker operates no enabled radio, or its TX < 1; when all of these pass, the delivered ids are exactly the reachable listeners on the transmitter's channel; existing speakers are kept |
| VoiceBridge.SpeakersAreReused | src/main/java/com/civlabs/radios/voice/VoiceBridge.java:65-68 | a second identical packet creates no new speaker and replaces none |
| VoiceBridge.UpdateSpeakerFor | src/main/java/com/civlabs/radios/voice/VoiceBridge.java:96-100 | r's speaker is removed iff its RX < 1, and otherwise the speaker map is unchanged |
| VoiceBridge.RemoveSpeaker | src/main/java/com/civlabs/radios/voice/VoiceBridge.java:102-105 | removes exactly that id's speaker |
| VoiceBridge.ShutdownAllSpeakers | src/main/java/com/civlabs/radios/voice/VoiceBridge.java:107-110 | leaves no speaker |
| Plugin.Reload | src/main/java/com/civlabs/radios/core/FrequencyManager.java:35-43 | rebuilding the registry from the store makes the state consistent and changes nothing else |
| Plugin.MaxFrequenciesForMode | src/main/java/com/civlabs/radios/CivLabsRadiosPlugin.java:103-107 | simple mode uses the configured simple count; slider mode uses the configured maximum capped at 1024 |
| Plugin.OnEnable | src/main/java/com/civlabs/radios/CivLabsRadiosPlugin.java:52-83 | start-up yields a consistent registry sized for the mode, over the stored radios, with an empty voice bridge |
| Plugin.IsFrequencyLockedFor | src/main/java/com/civlabs/radios/CivLabsRadiosPlugin.java:230-237 | a channel is locked for id iff some other enabled radio transmits on it |
| Plugin.UnbindAfterBind | src/main/java/com/civlabs/radios/voice/VoiceBridge.java:72-94 | binding then unbinding an operator leaves them in no group and every other player's membership unchanged |
| Plugin.SwitchedOff | src/main/java/com/civlabs/radios/CivLabsRadiosPlugin.java:216-217 | a switched-off radio is disabled, has no operator, and keeps its id, channels and fuel |
| Plugin.Disable | src/main/java/com/civlabs/radios/CivLabsRadiosPlugin.java:205-228 | an already-disabled radio changes nothing; otherwise the radio is stored switched off, its speaker is removed, no registry entry names it, the state is consistent, its operator (if any) is unbound from the voice group, and no other radio or speaker changes |
| Plugin.DisableKeepsExclusive | src/main/java/com/civlabs/radios/CivLabsRadiosPlugin.java:205-228 | disabling keeps TX channels exclusive |
| Plugin.NothingRegisteredTo | src/main/java/com/civlabs/radios/core/FrequencyManager.java:35-43 | in a consistent state no channel is registered to a stored disabled radio |
| Plugin.EnableRefusalFor | src/main/java/com/civlabs/radios/CivLabsRadiosPlugin.java:160-189 | the dimension check comes first; enabling is allowed iff the dimension matches (when restricted), TX ≤ max, TX is not locked by another radio and the claim succeeds |
| Plugin.SwitchedOn | src/main/java/com/civlabs/radios/CivLabsRadiosPlugin.java:191-193 | a switched-on radio is enabled on the requested TX with the operator set, and keeps its id, RX and fuel |
| Plugin.Enable | src/main/java/com/civlabs/radios/CivLabsRadiosPlugin.java:157-203 | enabling succeeds iff no refusal applies; a refusal changes nothing; a success stores the switched-on radio, changes no other radio, leaves a consistent registry mapping TX to this radio, and binds the operator to the channel's voice group exactly as bindOperator does |
| Plugin.EnableKeepsExclusive | src/main/java/com/civlabs/radios/CivLabsRadiosPlugin.java:177-193 | enabling keeps TX channels exclusive |
| Plugin.LockMatchesRegistry | src/main/java/com/civlabs/radios/CivLabsRadiosPlugin.java:230-237 | in a consistent, exclusive state the store-based lock check and the registry's isInUse agree on every in-range channel |
| Plugin.DisableWhere | src/main/java/com/civlabs/radios/CivLabsRadiosPlugin.java:143-147 | disabling over a list of ids switches off exactly the listed enabled radios that meet the condition and closes exactly their speakers. With the voice server up, exactly their connected operators leave their groups; every other connection is kept. The state stays consistent |
| Plugin.SwitchOffKeepsExclusive | src/main/java/com/civlabs/radios/CivLabsRadiosPlugin.java:205-228 | switching radios off never breaks TX exclusivity |
| Plugin.RewriteKeepsExclusive | src/main/java/com/civlabs/radios/store/RadioStore.java:32-35 | saving a radio with the same id, enabled flag and TX keeps TX channels exclusive |
| Plugin.RetuneKeepsExclusive | src/main/java/com/civlabs/radios/gui/RadioGui.java:309-316 | retuning a radio to a channel that is not locked for it keeps TX channels exclusive |
| Plugin.ModeCeiling | src/main/java/com/civlabs/radios/CivLabsRadiosPlugin.java:134-139 | slider mode clamps the requested ceiling into [1, 1024]; simple mode uses the configured simple count |
| Plugin.SetRadioMode | src/main/java/com/civlabs/radios/CivLabsRadiosPlugin.java:130-151 | the new mode and clamped ceiling are recorded, exactly the enabled radios above the ceiling are switched off, every other radio is unchanged, and the registry is rebuilt consistent with the new ceiling. Exactly those radios' speakers are closed, and (with the voice server up) exactly their operators are unbound |
| Plugin.OnDisable | src/main/java/com/civlabs/radios/CivLabsRadiosPlugin.java:86-93 | shut-down leaves every radio disabled, no speaker, and (from a consistent state) an empty registry. With the voice server up, exactly the operators of the radios that were on are unbound, and every other connection is kept |
| Plugin.SubcommandOf | src/main/java/com/civlabs/radios/CivLabsRadiosPlugin.java:251-266 | no argument means help; a recognised subcommand is one whose lower-cased first argument is among the eight names, and each name selects its own subcommand (help, give, list, free, mode, coords, debug, reload) |
| Plugin.HolderOf | src/main/java/com/civlabs/radios/CivLabsRadiosPlugin.java:319-323 | returns an enabled radio transmitting on f, or nothing only when none exists |
| Plugin.FreeCommand | src/main/java/com/civlabs/radios/CivLabsRadiosPlugin.java:308-333 | each outcome (no permission, usage, invalid number, no transmitter, freed) occurs exactly under its condition; only "freed" changes state, and then no enabled radio is left on f, only radios on f are touched, each enabled one switched off. Exactly their speakers are closed, exactly their operators unbound, and consistency is kept |
| Plugin.ParseMode | src/main/java/com/civlabs/radios/CivLabsRadiosPlugin.java:345-355 | "simple" and "slider" are recognised case-insensitively and nothing else is |
| Plugin.ModeCommand | src/main/java/com/civlabs/radios/CivLabsRadiosPlugin.java:335-380 | each error outcome occurs exactly under its condition and changes nothing; a change records the parsed mode and ceiling, and writes the ceiling to the configuration in slider mode only. It switches off exactly the enabled radios whose TX is above the ceiling and leaves every other radio and the listing order unchanged. Exactly those radios' speakers are closed and their operators unbound. The state is left consistent, with no enabled radio above the ceiling |
| Plugin.SwitchCommand | src/main/java/com/civlabs/radios/CivLabsRadiosPlugin.java:382-419 | "on", "off" and "toggle" (any case) set, clear and flip the switch; anything else, or no permission, keeps it |
| Plugin.ToggleTwiceRestores | src/main/java/com/civlabs/radios/CivLabsRadiosPlugin.java:382-419 | toggling twice restores the switch |
| OperatorGuard.Drain | src/main/java/com/civlabs/radios/tasks/OperatorGuardTask.java:52-53 | the drain is max(1, burnPerSecond(finalRange)): the burn for a positive range and exactly 1 otherwise |
| OperatorGuard.DrainedFuel | src/main/java/com/civlabs/radios/tasks/OperatorGuardTask.java:51-55 | positive fuel strictly decreases by the drain, clamped at 0; non-positive fuel is left alone |
| OperatorGuard.TickRadio | src/main/java/com/civlabs/radios/tasks/OperatorGuardTask.java:37-60 | a disabled radio is untouched; a lost structure disables it for ADMIN with no drain; otherwise fuel is drained and an empty tank disables it for FUEL; at most one reason applies; other radios are untouched and consistency is kept |
| OperatorGuard.SaveThenDisable | src/main/java/com/civlabs/radios/CivLabsRadiosPlugin.java:205-228 | the updated radio is stored switched off and the state is consistent; no other radio changes |
| OperatorGuard.RewriteKeepsConsistent | src/main/java/com/civlabs/radios/tasks/OperatorGuardTask.java:41-54 | saving a radio with the same id, enabled flag and TX keeps the registry consistent |
| OperatorGuard.TickRadioIsTicked | src/main/java/com/civlabs/radios/tasks/OperatorGuardTask.java:37-60 | one tick leaves the radio as `Ticked` describes it, and reports the reason `TickReason` gives. Both depend only on the radio and the worlds: kept when off; switched off undrained for ADMIN when the rescan finds no structure; drained by max(1, burn) otherwise, and switched off for FUEL when that empties it |
| OperatorGuard.TickStep | src/main/java/com/civlabs/radios/tasks/OperatorGuardTask.java:37-60 | a step on an unstored id changes nothing; a step on a stored radio is exactly TickRadio on it. It leaves that radio as `Ticked` and reports its `TickReason` as the shutoff. It touches no other radio, a radio still on has positive and strictly lower fuel, and consistency is kept |
| OperatorGuard.Tick | src/main/java/com/civlabs/radios/tasks/OperatorGuardTask.java:37-60 | a pass touches only the listed radios, reports exactly the radios it switched off, and keeps consistency. Over distinct ids, each listed radio ends as its own tick (`Ticked`) makes it from its starting value, and the reports are exactly each radio's ADMIN/FUEL reason in list order |
| OperatorGuard.PassIsExact | src/main/java/com/civlabs/radios/tasks/OperatorGuardTask.java:35-60 | the pass over the store's listing leaves every stored radio as its own tick makes it, and reports exactly those ticks' reasons in listing order |
| Paging.TotalPages | src/main/java/com/civlabs/radios/gui/FrequencyOverviewGui.java:38 | at least one page, and exactly enough pages of the given size to hold n items |
| Paging.ClampPage | src/main/java/com/civlabs/radios/gui/FrequencyOverviewGui.java:39 | the page is clamped into [0, total−1], and a valid page is kept |
| Paging.NextThenPrev | src/main/java/com/civlabs/radios/gui/FrequencyOverviewGui.java:180-186 | next followed by prev returns to the page when a next page exists; at the last page next stays put |
| Paging.ArrowsShowWhenTheyMove | src/main/java/com/civlabs/radios/gui/RadioGui.java:119-120 | the prev arrow shows iff page > 0, which is exactly when prev moves; the next arrow shows iff a later page exists, which is exactly when next moves |
| Text.Trim | src/main/java/com/civlabs/radios/gui/AnvilInputGui.java:40 | the trimmed string is the middle of the input with only trimmable chars cut from both ends, empty iff the input is blank, and otherwise starts and ends with a non-trimmable char |
| Text.Lower | src/main/java/com/civlabs/radios/command/RadioTabCompleter.java:20-23 | lower-casing maps each char with ASCII case folding and keeps the length |
| Text.NatToString | src/main/java/com/civlabs/radios/command/RadioTabCompleter.java:63 | the decimal digits of n, non-empty and without a leading zero, whose value is n |
| Text.ParseInt | src/main/java/com/civlabs/radios/gui/AnvilInputGui.java:53-96 | a string parses iff it is an optional sign followed by one or more digits whose signed value fits in an int, and the result is that signed value ("+7" is 7, "-5" is −5); everything else is rejected |
| Text.ParseIntRoundTrip | src/main/java/com/civlabs/radios/command/RadioTabCompleter.java:63 | parseInt reads back every int32 that valueOf prints |
| Text.StrLeTotal | src/main/java/com/civlabs/radios/command/RadioTabCompleter.java:25 | the string order compares any two strings |
| Text.StrLeTrans | src/main/java/com/civlabs/radios/command/RadioTabCompleter.java:25 | the string order is transitive |
| Text.StrLeAntisym | src/main/java/com/civlabs/radios/command/RadioTabCompleter.java:25 | the string order is antisymmetric |
| Text.Insert | src/main/java/com/civlabs/radios/command/RadioTabCompleter.java:25 | inserting into a sorted list keeps it sorted and adds exactly that element |
| Text.Sort | src/main/java/com/civlabs/radios/command/RadioTabCompleter.java:25 | the result is a sorted permutation of the input |
| AnvilInput.Open | src/main/java/com/civlabs/radios/gui/AnvilInputGui.java:20-28 | opens a session for the player on that radio and direction, and leaves other players' sessions alone |
| AnvilInput.OnChat | src/main/java/com/civlabs/radios/gui/AnvilInputGui.java:31-97 | chat without a session is ignored; a session is consumed by the first message; blank, cancel, non-numeric, out-of-range, missing-plugin and missing-radio inputs change nothing, each outcome exactly under its condition; any line parseInt accepts (" 7", "+7", "007") with an in-range value on a stored radio sets RX, sets TX when the channel is unlocked, and reports a lock otherwise; a TX set rebuilds the registry and changes nothing else (corrected TX path, see Findings); an RX set updates that radio's speaker and changes nothing else; consistency and exclusivity are kept |
| AnvilInput.TypedChannelIsApplied | src/main/java/com/civlabs/radios/gui/AnvilInputGui.java:53-82 | typing a valid channel number sets RX, sets TX when the channel is free, and reports the lock when it is not |
| AnvilInput.CancelInAnyCase | src/main/java/com/civlabs/radios/gui/AnvilInputGui.java:48-51 | the upper-case "CANCEL" aborts with no change, consuming the session, as one instance of OnChat's case-insensitive cancel clause |
| AnvilInput.ChannelTextIsPlain | src/main/java/com/civlabs/radios/gui/AnvilInputGui.java:40-51 | a printed channel number survives trim and is not taken for cancel |
| AnvilInput.TrimKeeps | src/main/java/com/civlabs/radios/gui/AnvilInputGui.java:40 | trim leaves a string without trimmable ends unchanged |
| AnvilInput.TxApplyAsWritten | src/main/java/com/civlabs/radios/gui/AnvilInputGui.java:73-82 | the code as written stores the typed TX with no lock check and no registry rebuild |
| AnvilInput.TypedChannelBreaksExclusive | src/main/java/com/civlabs/radios/gui/AnvilInputGui.java:73-82 | typing another enabled radio's channel into an enabled radio, as written, leaves two enabled radios on one channel |
| TabCompleter.Filter | src/main/java/com/civlabs/radios/command/RadioTabCompleter.java:20-24 | keeps exactly the options that start with the typed text ignoring case (all of them for empty text), with their multiplicities |
| TabCompleter.Prefix | src/main/java/com/civlabs/radios/command/RadioTabCompleter.java:19-27 | the result is sorted and holds exactly the matching options with their multiplicities |
| TabCompleter.PrefixIgnoresOptionOrder | src/main/java/com/civlabs/radios/command/RadioTabCompleter.java:22-25 | the result depends only on the options as a multiset, so the set's iteration order does not matter |
| TabCompleter.Occupied | src/main/java/com/civlabs/radios/command/RadioTabCompleter.java:58-61 | the occupied list holds each TX ≥ 1 of an enabled radio exactly once |
| TabCompleter.FreeOptions | src/main/java/com/civlabs/radios/command/RadioTabCompleter.java:57-65 | the options are the printed occupied channels, or "&lt;freq&gt;" exactly when there are none |
| TabCompleter.CompletionFor | src/main/java/com/civlabs/radios/command/RadioTabCompleter.java:30-72 | selects the option list per argument position and subcommand: subcommands first, modes or slider counts for mode, on/off/toggle for coords and debug, occupied channels for free, nothing otherwise |
| TabCompleter.OnTabComplete | src/main/java/com/civlabs/radios/command/RadioTabCompleter.java:30-72 | the suggestions are sorted and are exactly the selected options matching the typed prefix, or none |
| TabCompleter.LowerKeepsLowercase | src/main/java/com/civlabs/radios/command/RadioTabCompleter.java:23 | lower-casing leaves a string without capitals unchanged |
| TabCompleter.SubcommandNamesAreLowercase | src/main/java/com/civlabs/radios/command/RadioTabCompleter.java:34 | the eight subcommand names have no capitals |
| TabCompleter.NameIsRecognised | src/main/java/com/civlabs/radios/CivLabsRadiosPlugin.java:251-266 | each subcommand name is recognised by the command dispatcher |
| TabCompleter.SuggestedSubcommandsAreRecognised | src/main/java/com/civlabs/radios/command/RadioTabCompleter.java:33-36 | every suggested first argument is a subcommand the dispatcher recognises |
| TabCompleter.CountsParse | src/main/java/com/civlabs/radios/command/RadioTabCompleter.java:45 | each suggested slider count parses to a ceiling in [1, 1024] |
| TabCompleter.CountAccepted | src/main/java/com/civlabs/radios/CivLabsRadiosPlugin.java:357-372 | "mode slider" with a suggested count changes the mode with exactly that ceiling |
| TabCompleter.SuggestedCountsAreAccepted | src/main/java/com/civlabs/radios/command/RadioTabCompleter.java:44-45 | every suggested third argument of "mode slider" is accepted by the mode command with that ceiling |
| TabCompleter.PrintedIsNotPlaceholder | src/main/java/com/civlabs/radios/command/RadioTabCompleter.java:63-64 | no printed number is the "&lt;freq&gt;" placeholder |
| TabCompleter.FreeingHeldChannel | src/main/java/com/civlabs/radios/CivLabsRadiosPlugin.java:308-333 | "free" on the printed channel of an enabled radio frees that channel |
| TabCompleter.FreeSuggestsHeldChannels | src/main/java/com/civlabs/radios/command/RadioTabCompleter.java:56-65 | with nothing typed every held channel is suggested; every suggested number is one the free command accepts and frees; the placeholder appears only when nothing is held |
| RadioGui.TotalPages | src/main/java/com/civlabs/radios/gui/RadioGui.java:86 | there is at least one page of channel buttons |
| RadioGui.WindowBounds | src/main/java/com/civlabs/radios/gui/RadioGui.java:98-99 | a valid page's window holds at most 9 channels, all within [1, maxFreq] |
| RadioGui.WindowsPartition | src/main/java/com/civlabs/radios/gui/RadioGui.java:86-99 | every channel in [1, maxFreq] lies in the window of exactly one valid page |
| RadioGui.Open | src/main/java/com/civlabs/radios/gui/RadioGui.java:84-138 | the viewer's page is clamped into range and recorded, other viewers' pages are kept, the radio is stored with its antenna and range recomputed, and consistency and exclusivity are kept |
| RadioGui.RangeStepAfter | src/main/java/com/civlabs/radios/gui/RadioGui.java:216-219 | left click raises the step up to 5, right click lowers it down to 1, other clicks keep it |
| RadioGui.RangeStepStaysInBounds | src/main/java/com/civlabs/radios/gui/RadioGui.java:216-219 | a left or right click always leaves the step in [1, 5] |
| RadioGui.RangeStepClicksUndo | src/main/java/com/civlabs/radios/gui/RadioGui.java:216-219 | away from the bounds, a left click followed by a right click (or the reverse) restores the step |
| RadioGui.CopperSeconds | src/main/java/com/civlabs/radios/gui/RadioGui.java:261-264 | only copper ingots and blocks give fuel, 3 and 27 seconds per item |
| RadioGui.BlockIsNineIngots | src/main/java/com/civlabs/radios/gui/RadioGui.java:264 | a copper block is worth nine ingots |
| RadioGui.Refuel | src/main/java/com/civlabs/radios/gui/RadioGui.java:265-266 | refuelling adds the seconds to fuel and to the lifetime counter and changes nothing else |
| RadioGui.RefuelKeepsInvariants | src/main/java/com/civlabs/radios/gui/RadioGui.java:265-267 | refuelling keeps consistency and exclusivity |
| RadioGui.RewriteKeepsInvariants | src/main/java/com/civlabs/radios/gui/RadioGui.java:219-232 | saving a radio with the same id, enabled flag and TX keeps consistency and exclusivity |
| RadioGui.HandleDrag | src/main/java/com/civlabs/radios/gui/RadioGui.java:361-450 | drags outside the top are ignored; only a single-slot drag of copper onto the fuel slot refuels; a single-slot drag of a real item onto the stash moves it; every other drag into the top is cancelled without change |
| RadioGui.MultiSlotDragCancelled | src/main/java/com/civlabs/radios/gui/RadioGui.java:364-371 | a drag over several slots touching the top is cancelled without change |
| RadioGui.ButtonNamesRoundTrip | src/main/java/com/civlabs/radios/gui/RadioGui.java:480-496 | the channel number printed on a TX or RX button is read back from its name |
| RadioGui.TxClick | src/main/java/com/civlabs/radios/gui/RadioGui.java:306-320 | a TX click on a locked channel changes nothing; otherwise only this radio's TX changes and the registry is rebuilt consistent; exclusivity is kept |
| RadioGui.TxClickAsWritten | src/main/java/com/civlabs/radios/gui/RadioGui.java:309-316 | the code as written checks the lock, then saves the new TX without rebuilding the registry |
| RadioGui.HolderIsRegistered | src/main/java/com/civlabs/radios/core/FrequencyManager.java:35-43 | in a consistent, exclusive state an enabled radio on an in-range channel holds that channel in the registry |
| RadioGui.ChannelLeftEmpty | src/main/java/com/civlabs/radios/gui/RadioGui.java:315-316 | after an enabled radio retunes away, no enabled radio is left on its old channel |
| RadioGui.StaleClaimBlocksFreeChannel | src/main/java/com/civlabs/radios/gui/RadioGui.java:315-316 | after the as-written retune, the old channel is free in the store, yet another radio's enable on it is refused by the stale claim |
| RadioGui.TxClickAsWrittenBreaksConsistent | src/main/java/com/civlabs/radios/gui/RadioGui.java:315-316 | the as-written retune of an enabled radio leaves the registry out of step with the store |
| RadioGui.RxClick | src/main/java/com/civlabs/radios/gui/RadioGui.java:322-331 | an RX click sets only this radio's RX and updates its speaker; consistency and exclusivity are kept |
| RadioGui.ControlClick | src/main/java/com/civlabs/radios/gui/RadioGui.java:198-303 | prev/next reopen one page over; the range slot steps the range; info rescans the antenna; fuel refuses non-copper and adds copper's seconds; the stash changes nothing; the registry is untouched and the invariants are kept |
| RadioGui.TxButton | src/main/java/com/civlabs/radios/gui/RadioGui.java:306-320 | (corrected TX path, see Findings) a locked channel is reported and changes nothing; otherwise TX is set, the registry is rebuilt, and the page is reopened; speakers and voice connections are untouched |
| RadioGui.RxButton | src/main/java/com/civlabs/radios/gui/RadioGui.java:322-331 | RX is set, its speaker updated, the registry and voice connections untouched, and the page reopened |
| RadioGui.ToggleButton | src/main/java/com/civlabs/radios/gui/RadioGui.java:334-350 | Enable tries to enable on the current TX only when TX > 0; Disable disables; the invariants are kept |
| RadioGui.NamedClick | src/main/java/com/civlabs/radios/gui/RadioGui.java:306-355 | (corrected TX path, see Findings) TX n and RX n buttons dispatch to their handlers (a malformed number changes nothing); Enable, Disable and Close do what their buttons say; any other name changes nothing; the invariants are kept |
| RadioGui.HandleClick | src/main/java/com/civlabs/radios/gui/RadioGui.java:184-356 | (corrected TX path, see Findings) a click on nothing is ignored; a control slot in the top goes to the control handler, anything else to the named-button handler; the invariants are kept |
| SliderGui.ButtonAt | src/main/java/com/civlabs/radios/gui/SliderGui.java:193-262 | slots 0, 1, 7, 8 are the TX steppers and 18, 19, 25, 26 the RX steppers, with deltas in {−10, −1, 1, 10}; only the listed slots are buttons |
| SliderGui.Step | src/main/java/com/civlabs/radios/gui/SliderGui.java:194-206 | a decrease yields max(1, f − d) and an increase min(maxFreq, f + d) |
| SliderGui.StepStaysInRange | src/main/java/com/civlabs/radios/gui/SliderGui.java:193-231 | from a channel in [1, maxFreq] every stepper keeps the channel in range |
| SliderGui.StepsUndo | src/main/java/com/civlabs/radios/gui/SliderGui.java:193-231 | away from the bounds, stepping by d and then by −d (or the reverse) restores the channel |
| SliderGui.TxStepAsWritten | src/main/java/com/civlabs/radios/gui/SliderGui.java:193-208 | the code as written steps TX and saves with no lock check |
| SliderGui.StepperBreaksExclusive | src/main/java/com/civlabs/radios/gui/SliderGui.java:201-204 | stepping an enabled radio onto a neighbour's channel, as written, leaves two enabled radios on one channel |
| SliderGui.TxStep | src/main/java/com/civlabs/radios/gui/SliderGui.java:193-208 | a TX stepper moves TX only onto a channel not locked for the radio, rebuilding the registry and changing nothing else; a locked target changes nothing |
| SliderGui.RxStep | src/main/java/com/civlabs/radios/gui/SliderGui.java:212-231 | an RX stepper sets only the stepped RX, updates that radio's speaker, changes nothing else, and keeps the invariants |
| SliderGui.HandleClick | src/main/java/com/civlabs/radios/gui/SliderGui.java:186-265 | (corrected TX path, see Findings) dispatches by slot: steppers as above; the toggle disables an enabled radio and tries enabling only when TX ≥ 1; the overview and close buttons change no state; a type-a-channel button changes no state and returns `TypeChannel(isTx)`, the cue for `AnvilInput.Open` to start a chat prompt; the invariants are kept |
| FrequencyOverview.ActiveFrequencies | src/main/java/com/civlabs/radios/gui/FrequencyOverviewGui.java:28-35 | the entries are in ascending channel order, their channels are exactly the TX values of enabled radios, and each shows the first enabled radio on its channel |
| FrequencyOverview.Overview | src/main/java/com/civlabs/radios/gui/FrequencyOverviewGui.java:27-37 | over the store: sorted entries of enabled radios on their own channels, covering every enabled radio's channel |
| FrequencyOverview.AvailableIsCeilingLessActive | src/main/java/com/civlabs/radios/gui/FrequencyOverviewGui.java:90-91 | the available count is the ceiling minus the number of distinct channels of enabled radios |
| FrequencyOverview.ShownPage | src/main/java/com/civlabs/radios/gui/FrequencyOverviewGui.java:38-39 | the shown page is a valid page whose first index is within the entries |
| FrequencyOverview.PageEntries | src/main/java/com/civlabs/radios/gui/FrequencyOverviewGui.java:49-56 | a page shows at most 45 entries, slot i holds entry page·45 + i, and every page before the last is full |
| FrequencyOverview.EveryEntryOnOnePage | src/main/java/com/civlabs/radios/gui/FrequencyOverviewGui.java:38-56 | entry k appears on page k div 45, in slot k mod 45 |
| FrequencyOverview.Click | src/main/java/com/civlabs/radios/gui/FrequencyOverviewGui.java:162-186 | a missing radio closes the view; slot 45 goes back, 48 and 50 reopen one page over, other slots do nothing |
| FrequencyOverview.PagesAfterClick | src/main/java/com/civlabs/radios/gui/FrequencyOverviewGui.java:168-186 | back forgets the viewer's page; prev/next record the re-clamped page; nothing else changes the pages |
| FrequencyOverview.NextThenPrevReturns | src/main/java/com/civlabs/radios/gui/FrequencyOverviewGui.java:180-186 | next followed by prev returns to the page when a next page exists |

## Findings

| source | as written | input that shows it | evidently intended | confidence | as-written member | corrected member |
|---|---|---|---|---|---|---|
| src/main/java/com/civlabs/radios/gui/RadioGui.java:315-316 | the TX button sets and saves the new channel but never rebuilds the channel registry | an enabled radio on channel 3 clicks TX 5; another radio then tries to enable on the now-empty channel 3 | retuning moves the radio's claim, so the old channel is free again | not executed | RadioGui.TxClickAsWritten, RadioGui.StaleClaimBlocksFreeChannel, RadioGui.TxClickAsWrittenBreaksConsistent | RadioGui.TxClick, RadioGui.TxButton, RadioGui.NamedClick, RadioGui.HandleClick |
| src/main/java/com/civlabs/radios/gui/SliderGui.java:193-208 | the TX steppers change the channel with no lock check and no registry rebuild | enabled radios on channels f and f+1; the first presses TX +1 | a stepper cannot move a radio onto a channel held by another enabled radio | not executed | SliderGui.TxStepAsWritten, SliderGui.StepperBreaksExclusive | SliderGui.TxStep, SliderGui.HandleClick |
| src/main/java/com/civlabs/radios/gui/AnvilInputGui.java:73-82 | a typed TX channel is applied with no lock check and no registry rebuild | enabled radios A on 2 and B on 7; A's operator types 7 in a TX session | typed channels obey the same lock as the TX buttons | not executed | AnvilInput.TxApplyAsWritten, AnvilInput.TypedChannelBreaksExclusive | AnvilInput.OnChat |

## Left out

- Interference.java: floating-point signal processing with random noise, and nothing in the core calls it.
- LocationalSpeaker.java, RadioVoicePlugin.java and the voice-chat library calls: only the speaker map and group table are modelled; a speaker is its position and radius.
- VoiceBridge.OnServerStarted: the library mints group ids, so the model takes the minting as an input function.
- RadioStore YAML `load`/`saveAll`: file I/O.
- `synchronized`, Bukkit scheduling, and the live status updater: every operation is one atomic sequential step. A follow-up task that the source schedules is a separate step. For example, the panel that AnvilInputGui.java:86-92 reopens after a typed channel is set is `RadioGui.Open` in simple mode, which rescans and saves the radio.
- The `plugin == null` early returns in the GUI listeners, for example FrequencyOverviewGui.java:159-160: the plugin instance is always present in the model.
- Item rendering, lore, messages and sounds in the GUI classes and SoundEffects.java.
- Floating-point display math: `fuelPerSecond` in RadioGui and the slider bar position.
- The listeners, FrequencyOverviewHolder.java, ItemUtil.java and build.gradle.kts: event plumbing and item creation.
- The `give`, `list` and `reload` subcommands and the help text: item creation, messages and configuration I/O.
- The `coords` and `debug` subcommands are modelled only as the switch value they compute; saving the configuration is I/O.
- World and player lookups: the loaded worlds are a map input, and a player is an id.
- `finalRangeBlocks` has no derivation in the code, so it is an input field of the radio.
- The plain setters of Radio.java are datatype updates (`r.(tx := f)`), and `getMaxFrequencies` is a field read.
- HashMap iteration order: the store lists radios in an explicit order (new ids appended). Every "first" or "last" claim is relative to that order.
- Radios.AddFuelSeconds: fuel is an unbounded integer; the source's 32-bit int can wrap around on an enormous refuel.
- Radios.SetFuelSeconds: fuel is an unbounded integer; no 32-bit wrap-around is modelled.
- RadioGui.Refuel: the lifetime counter and fuel are unbounded integers, so the source's 32-bit overflow is not modelled.
- RadioGui.CopperSeconds: 3·amount and 27·amount are exact; the source's int multiplication could wrap for huge stacks, which game stacks cannot reach.
- RadioMath.RecomputeAntennaAndRange: the range is the exact floor of the formula, an unbounded integer; the source's double rounding of the square root and the sum is not modelled, nor the `(int)` cast's saturation at Integer.MAX_VALUE, which no real antenna count or world height reaches.
- RadioMath.BurnPerSecond: the exact ceiling of (501/500)^x − 1; the source's double rounding of `pow` is not modelled.
- Text.Lower: case folding is ASCII only; Java's toLowerCase also folds other Unicode letters.
- Text.ParseInt: digits are ASCII only; Java's parseInt also accepts other Unicode decimal digits.
- Plugin.ParseMode: the mode name is matched with ASCII case folding. The source lower-cases and then upper-cases the name in the default locale before `RadioMode.valueOf`, so it also accepts names such as "ſimple" (long s). Under a Turkish locale it rejects "simple", because `i` upper-cases to a dotted `İ`. Neither locale nor non-ASCII folding is modelled.
- Text.StrLe: compares Dafny chars (Unicode scalar values), while String.compareTo compares UTF-16 code units, so supplementary characters could order differently; every completion option is ASCII, where the two agree.
- TabCompleter.Occupied: the TreeSet's order is not modelled; `TabCompleter.PrefixIgnoresOptionOrder` shows the suggestions do not depend on it.
- OperatorGuard.Tick: it runs over a given list of ids, one step each; the source iterates over a snapshot of getAll.

=== FILE: antenna.dfy ===
/**
 * The vertical lightning-rod scan (util/AntennaUtil.java): counting starts at
 * the block directly above the radio and stops at the first block in the same
 * x,z column that is not a lightning rod. There is no cap or terminator shape.
 */
module AntennaUtil {
  import opened Basics
  import opened Worlds

  /** Every block at heights [from, from + n) of column (x, z) is a lightning rod. */
  ghost predicate RodRun(w: World, x: int, z: int, from: int, n: nat) {
    forall k | from <= k < from + n :: BlockAt(w, x, k, z) == LightningRod
  }

  /**
   * The scan loop from height `h` upward. Above the build ceiling every block
   * is air, so the loop stops there at the latest.
   */
  function RodsFrom(w: World, x: int, h: int, z: int): (n: nat)
    ensures RodRun(w, x, z, h, n)
    ensures BlockAt(w, x, h + n, z) != LightningRod
    ensures h + n <= Max(h, w.maxHeight + 1)
    decreases w.maxHeight + 1 - h
  {
    if h > w.maxHeight || BlockAt(w, x, h, z) != LightningRod then 0
    else 1 + RodsFrom(w, x, h + 1, z)
  }

  /**
   * countVerticalRodsAbove: 0 for a missing location or world; otherwise the
   * length n of the unbroken run of rods at heights y+1 .. y+n, with the block
   * at y+n+1 not a rod.
   */
  function CountVerticalRodsAbove(loc: Option<Location>): (n: nat)
    ensures loc.None? || loc.value.world.None? ==> n == 0
    ensures loc.Some? && loc.value.world.Some? ==>
      var l := loc.value;
      && RodRun(l.world.value, l.x, l.z, l.y + 1, n)
      && BlockAt(l.world.value, l.x, l.y + 1 + n, l.z) != LightningRod
      && l.y + n <= Max(l.y, l.world.value.maxHeight)
  {
    if loc.None? then 0
    else if loc.value.world.None? then 0
    else RodsFrom(loc.value.world.value, loc.value.x, loc.value.y + 1, loc.value.z)
  }

  /** The run length is determined by the column: two run lengths that both stop at a non-rod are equal. */
  lemma RunLengthUnique(w: World, x: int, z: int, from: int, n1: nat, n2: nat)
    requires RodRun(w, x, z, from, n1) && BlockAt(w, x, from + n1, z) != LightningRod
    requires RodRun(w, x, z, from, n2) && BlockAt(w, x, from + n2, z) != LightningRod
    ensures n1 == n2
  {
    assert n1 < n2 ==> BlockAt(w, x, from + n1, z) == LightningRod;
    assert n2 < n1 ==> BlockAt(w, x, from + n2, z) == LightningRod;
  }

  /**
   * Only the radio's own column above it is inspected: two worlds that agree
   * on every block above the radio in that column give the same count.
   */
  lemma {:induction false} OnlyColumnAboveMatters(w1: World, w2: World, x: int, y: int, z: int)
    requires forall k | k > y :: BlockAt(w1, x, k, z) == BlockAt(w2, x, k, z)
    ensures CountVerticalRodsAbove(Some(Location(Some(w1), x, y, z)))
         == CountVerticalRodsAbove(Some(Location(Some(w2), x, y, z)))
  {
    var n1 := CountVerticalRodsAbove(Some(Location(Some(w1), x, y, z)));
    var n2 := CountVerticalRodsAbove(Some(Location(Some(w2), x, y, z)));
    assert RodRun(w2, x, z, y + 1, n1) by {
      forall k | y + 1 <= k < y + 1 + n1 ensures BlockAt(w2, x, k, z) == LightningRod {
        assert BlockAt(w1, x, k, z) == LightningRod;
      }
    }
    assert BlockAt(w1, x, y + 1 + n1, z) == BlockAt(w2, x, y + 1 + n1, z);
    RunLengthUnique(w2, x, z, y + 1, n1, n2);
  }

  /** No rod directly above the radio means no antenna. */
  lemma NoRodAboveMeansZero(w: World, x: int, y: int, z: int)
    requires BlockAt(w, x, y + 1, z) != LightningRod
    ensures CountVerticalRodsAbove(Some(Location(Some(w), x, y, z))) == 0
  {
    var n := CountVerticalRodsAbove(Some(Location(Some(w), x, y, z)));
    assert n > 0 ==> BlockAt(w, x, y + 1, z) == LightningRod;
  }
}

=== FILE: anvil_input.dfy ===
/**
 * Typing a channel into chat (gui/AnvilInputGui.java): a GUI button opens a
 * session for the player naming the radio and whether the transmit or the
 * listen channel is being set; the player's next chat line is consumed,
 * checked, and applied.
 *
 * The code applies a typed transmit channel with a bare setter and a save:
 * no lock check and no registry rebuild. `TxApplyAsWritten` models that and
 * `TypedChannelBreaksExclusive` shows what it lets through; `OnChat` applies
 * the channel through the TX button's checked path instead.
 */
module AnvilInput {
  import opened Basics
  import opened Radios
  import opened RadioStore
  import opened FrequencyManager
  import opened VoiceBridge
  import opened Text
  import opened Plugin
  import RadioGui

  /** An open prompt: which radio, and whether its transmit (true) or listen channel is being typed. */
  datatype Session = Session(radioId: RadioId, isTx: bool)

  type Sessions = map<PlayerId, Session>

  /** open: the player's prompt replaces any earlier one of theirs; everyone else's is kept. */
  function Open(sessions: Sessions, player: PlayerId, r: Radio, isTx: bool): (sessions': Sessions)
    ensures player in sessions' && sessions'[player] == Session(r.id, isTx)
    ensures forall p | p != player :: (p in sessions' <==> p in sessions) && (p in sessions ==> sessions'[p] == sessions[p])
  {
    sessions[player := Session(r.id, isTx)]
  }

  datatype ChatOutcome =
    | NoSession
    | Blank
    | Cancelled
    | NotANumber
    | PluginMissing
    | ChannelOutOfRange(f: int)
    | RadioNotFound
    | ChannelLocked(f: int)
    | TxSet(f: int)
    | RxSet(f: int)

  /** The keyword that abandons a prompt, in any letter case. */
  const CANCEL: string := "cancel"

  /**
   * The transmit half of the typed channel as the code writes it: the radio
   * is retuned and saved whether or not it is on air and whether or not
   * another enabled radio transmits there; the registry is not touched.
   */
  function TxApplyAsWritten(s: State, r: Radio, f: int): (s': State)
    ensures Get(s'.store, r.id) == Some(r.(tx := f))
    ensures forall k | k != r.id :: Get(s'.store, k) == Get(s.store, k)
    ensures s' == s.(store := s'.store)
  {
    s.(store := Save(s.store, r.(tx := f)))
  }

  /**
   * What the missing lock check lets through: an enabled radio typed onto
   * the channel another enabled radio transmits on ends up sharing it.
   */
  lemma TypedChannelBreaksExclusive(s: State, r: Radio, b: Radio)
    requires Get(s.store, r.id) == Some(r) && Get(s.store, b.id) == Some(b)
    requires r.enabled && b.enabled && b.id != r.id
    ensures IsFrequencyLockedFor(s.store, b.tx, r.id)
    ensures !ExclusiveTx(TxApplyAsWritten(s, r, b.tx).store)
  {
    assert b in s.store.radios.Values by { assert s.store.radios[b.id] == b; }
    var st' := TxApplyAsWritten(s, r, b.tx).store;
    assert st'.radios[r.id].enabled && st'.radios[r.id].tx == b.tx;
    assert st'.radios[b.id] == b;
  }

  /**
   * onChat for `player` with chat line `message`; `pluginLoaded` stands for
   * the plugin lookup succeeding. Without a prompt the line is chat and
   * nothing happens. Otherwise the prompt is always used up, and the
   * trimmed line is refused when blank, when it is "cancel" in any case,
   * when it is not a 32-bit decimal int, when the plugin is missing, when it
   * lies outside 1..maxFrequencies, or when the radio is no longer stored.
   * A listen channel is then set and the speaker updated; a transmit channel
   * is set through the TX button's lock check and registry rebuild.
   */
  function OnChat(s: State, sessions: Sessions, pluginLoaded: bool, player: PlayerId, message: string)
    : (res: (State, Sessions, ChatOutcome))
    ensures player !in sessions <==> res.2 == NoSession
    ensures player !in sessions ==> res.0 == s && res.1 == sessions
    ensures player in sessions ==> res.1 == sessions - {player}
    ensures !(res.2.TxSet? || res.2.RxSet?) ==> res.0 == s
    ensures player in sessions && AllTrimmable(message) ==> res.2 == Blank
    ensures player in sessions && EqualsIgnoreCase(Trim(message), CANCEL) ==> res.2 == Cancelled
    ensures res.2.ChannelOutOfRange? ==> !(1 <= res.2.f <= s.freq.maxFrequencies)
    ensures res.2 == NotANumber <==>
      player in sessions && !AllTrimmable(message) && !EqualsIgnoreCase(Trim(message), CANCEL)
      && ParseInt(Trim(message)).None?
    ensures res.2 == PluginMissing <==> player in sessions && ParseInt(Trim(message)).Some? && !pluginLoaded
    ensures res.2.ChannelOutOfRange? <==>
      player in sessions && pluginLoaded && ParseInt(Trim(message)).Some?
      && !(1 <= ParseInt(Trim(message)).value <= s.freq.maxFrequencies)
    ensures res.2 == RadioNotFound <==>
      player in sessions && pluginLoaded && ParseInt(Trim(message)).Some?
      && 1 <= ParseInt(Trim(message)).value <= s.freq.maxFrequencies
      && Get(s.store, sessions[player].radioId).None?
    ensures player in sessions && pluginLoaded && ParseInt(Trim(message)).Some?
            && 1 <= ParseInt(Trim(message)).value <= s.freq.maxFrequencies
            && Get(s.store, sessions[player].radioId).Some? ==>
      var f := ParseInt(Trim(message)).value;
      var sess := sessions[player];
      && (!sess.isTx ==> res.2 == RxSet(f))
      && (sess.isTx && !IsFrequencyLockedFor(s.store, f, sess.radioId) ==> res.2 == TxSet(f))
      && (sess.isTx && IsFrequencyLockedFor(s.store, f, sess.radioId) ==> res.2 == ChannelLocked(f))
    ensures res.2.TxSet? || res.2.RxSet? || res.2.ChannelLocked? ==>
      && pluginLoaded && 1 <= res.2.f <= s.freq.maxFrequencies
      && ParseInt(Trim(message)) == Some(res.2.f)
      && var sess := sessions[player];
      && Get(s.store, sess.radioId).Some?
      && var r := Get(s.store, sess.radioId).value;
      && (res.2.TxSet? ==> sess.isTx && Get(res.0.store, r.id) == Some(r.(tx := res.2.f)) && Consistent(res.0))
      && (res.2.ChannelLocked? ==> sess.isTx && IsFrequencyLockedFor(s.store, res.2.f, r.id))
      && (res.2.TxSet? ==> res.0 == s.(store := res.0.store, freq := res.0.freq))
      && (res.2.RxSet? ==> !sess.isTx && Get(res.0.store, r.id) == Some(r.(rx := res.2.f)))
      && (res.2.RxSet? ==> res.0.voice == UpdateSpeakerFor(s.voice, r.(rx := res.2.f)))
      && (res.2.RxSet? ==> res.0 == s.(store := res.0.store, voice := res.0.voice))
    ensures res.2.TxSet? || res.2.RxSet? ==>
      forall k | k != sessions[player].radioId :: Get(res.0.store, k) == Get(s.store, k)
    ensures Consistent(s) ==> Consistent(res.0)
    ensures ExclusiveTx(s.store) ==> ExclusiveTx(res.0.store)
    ensures res.0.freq.maxFrequencies == s.freq.maxFrequencies && res.0.mode == s.mode && res.0.config == s.config
  {
    if player !in sessions then (s, sessions, NoSession)
    else
      var sess := sessions[player];
      var rest := sessions - {player};
      var input := Trim(message);
      NumeralIsNotCancel(input);
      if input == [] then (s, rest, Blank)
      else if EqualsIgnoreCase(input, CANCEL) then (s, rest, Cancelled)
      else
        match ParseInt(input)
        case None => (s, rest, NotANumber)
        case Some(f) =>
          if !pluginLoaded then (s, rest, PluginMissing)
          else if f < 1 || f > s.freq.maxFrequencies then (s, rest, ChannelOutOfRange(f))
          else
            match Get(s.store, sess.radioId)
            case None => (s, rest, RadioNotFound)
            case Some(r) =>
              if sess.isTx then
                var t := RadioGui.TxClick(s, r, f);
                if t.1 then (t.0, rest, TxSet(f)) else (s, rest, ChannelLocked(f))
              else
                (RadioGui.RxClick(s, r, f), rest, RxSet(f))
  }

  /** A line parseInt accepts is neither blank nor the cancel keyword, so the number branch is reached. */
  lemma NumeralIsNotCancel(t: string)
    ensures ParseInt(t).Some? ==> t != [] && !EqualsIgnoreCase(t, CANCEL)
  {
    if ParseInt(t).Some? {
      assert Lower(t)[0] == t[0];
      assert Lower(CANCEL)[0] == 'c';
    }
  }

  /** A line whose ends are not blank is its own trim. */
  lemma TrimKeeps(t: string)
    requires t != [] && !IsTrimmable(t[0]) && !IsTrimmable(t[|t| - 1])
    ensures Trim(t) == t
  {
    var i, j :| 0 <= i <= j <= |t| && Trim(t) == t[i..j] && AllTrimmable(t[..i]) && AllTrimmable(t[j..]);
    if i > 0 {
      assert t[..i][0] == t[0];
    }
    if j < |t| {
      assert t[j..][|t| - 1 - j] == t[|t| - 1];
    }
  }

  /** A printed channel number is not blank at either end and is not the cancel keyword. */
  lemma ChannelTextIsPlain(f: int)
    requires f >= 1
    ensures Trim(IntToString(f)) == IntToString(f)
    ensures !EqualsIgnoreCase(IntToString(f), CANCEL)
  {
    var t := IntToString(f);
    assert IsDigit(t[0]) && IsDigit(t[|t| - 1]);
    TrimKeeps(t);
    assert Lower(t)[0] == t[0];
    assert Lower(CANCEL)[0] == 'c';
  }

  /**
   * The prompt completes: with a prompt open on a stored radio, typing the
   * printed form of any channel in 1..maxFrequencies sets exactly that
   * channel, unless another enabled radio holds it for transmitting.
   */
  lemma TypedChannelIsApplied(s: State, sessions: Sessions, player: PlayerId, f: int)
    requires player in sessions && Get(s.store, sessions[player].radioId).Some?
    requires 1 <= f <= s.freq.maxFrequencies && f <= INT_MAX
    ensures var res := OnChat(s, sessions, true, player, IntToString(f));
      var r := Get(s.store, sessions[player].radioId).value;
      && res.1 == sessions - {player}
      && (!sessions[player].isTx ==> res.2 == RxSet(f) && Get(res.0.store, r.id) == Some(r.(rx := f)))
      && (sessions[player].isTx && !IsFrequencyLockedFor(s.store, f, r.id) ==>
            res.2 == TxSet(f) && Get(res.0.store, r.id) == Some(r.(tx := f)))
      && (sessions[player].isTx && IsFrequencyLockedFor(s.store, f, r.id) ==> res == (s, sessions - {player}, ChannelLocked(f)))
  {
    ChannelTextIsPlain(f);
    ParseIntRoundTrip(f);
  }

  /** "CANCEL" has nothing to trim. */
  lemma UpperCancelTrims()
    ensures Trim("CANCEL") == "CANCEL"
  {
    TrimKeeps("CANCEL");
  }

  /** "CANCEL" is the cancel keyword up to letter case. */
  lemma UpperCancelMatches()
    ensures EqualsIgnoreCase("CANCEL", CANCEL)
  {
    var u := Lower("CANCEL");
    assert u[0] == 'c' && u[1] == 'a' && u[2] == 'n' && u[3] == 'c' && u[4] == 'e' && u[5] == 'l';
  }

  /**
   * The upper-case spelling "CANCEL" abandons the prompt and leaves the state
   * untouched: one instance of OnChat's case-insensitive cancel clause.
   */
  lemma CancelInAnyCase(s: State, sessions: Sessions, pluginLoaded: bool, player: PlayerId, message: string)
    requires player in sessions && message == "CANCEL"
    ensures OnChat(s, sessions, pluginLoaded, player, message) == (s, sessions - {player}, Cancelled)
  {
    UpperCancelTrims();
    UpperCancelMatches();
  }
}

=== FILE: basics.dfy ===
/**
 * Shared vocabulary of the radio model: optional values (Java's nullable
 * references and java.util.Optional), opaque identifiers (java.util.UUID) and
 * the bounds of a Java `int`.
 */
module Basics {

  /** A value that may be missing; stands for a Java `null` or an empty Optional. */
  datatype Option<+T> = None | Some(value: T)

  /** A java.util.UUID, kept opaque: only equality is ever used on it. */
  type Uuid = nat

  const INT_MIN: int := -0x8000_0000
  const INT_MAX: int := 0x7fff_ffff

  /** True iff `v` fits in a Java `int`. */
  predicate InInt32(v: int) {
    INT_MIN <= v <= INT_MAX
  }

  /** Math.max on ints. */
  function Max(a: int, b: int): int {
    if a >= b then a else b
  }

  /** Math.min on ints. */
  function Min(a: int, b: int): int {
    if a <= b then a else b
  }
}

=== FILE: frequency_manager.dfy ===
/**
 * The transmit-channel registry (core/FrequencyManager.java): an exclusive map
 * from channel number to the id of the radio holding it, bounded by a channel
 * ceiling fixed at construction. Every operation is one atomic step; the
 * source's `synchronized` is the reason that is sound.
 */
module FrequencyManager {
  import opened Basics
  import opened Radios

  datatype Registry = Registry(maxFrequencies: int, active: map<int, RadioId>)

  /** A fresh registry with the given ceiling: no channel is in use by anyone. */
  function NewRegistry(maxFrequencies: int): (reg: Registry)
    ensures reg.maxFrequencies == maxFrequencies
    ensures forall f, id :: !IsInUse(reg, f, id)
  {
    Registry(maxFrequencies, map[])
  }

  /** getMaxFrequencies. */
  function MaxFrequencies(reg: Registry): int {
    reg.maxFrequencies
  }

  /** Every held channel lies in [1, ceiling]. */
  ghost predicate KeysInRange(reg: Registry) {
    forall f | f in reg.active :: 1 <= f <= reg.maxFrequencies
  }

  /**
   * claim(f, id): refused, with nothing changed, when f is outside
   * [1, ceiling] or held by another radio; otherwise f is recorded as held
   * by `id` (already held by `id` is a success too).
   */
  function Claim(reg: Registry, f: int, id: RadioId): (res: (bool, Registry))
    ensures res.1.maxFrequencies == reg.maxFrequencies
    ensures res.0 <==> 1 <= f <= reg.maxFrequencies && (f !in reg.active || reg.active[f] == id)
    ensures !res.0 ==> res.1 == reg
    ensures res.0 ==> f in res.1.active && res.1.active[f] == id
    ensures res.0 ==> forall g | g != f :: (g in res.1.active <==> g in reg.active)
    ensures res.0 ==> forall g | g != f && g in reg.active :: res.1.active[g] == reg.active[g]
    ensures KeysInRange(reg) ==> KeysInRange(res.1)
  {
    if f < 1 || f > reg.maxFrequencies then (false, reg)
    else if f in reg.active && reg.active[f] != id then (false, reg)
    else (true, reg.(active := reg.active[f := id]))
  }

  /** release(f, id): drops f only when `id` holds it; otherwise nothing changes. */
  function Release(reg: Registry, f: int, id: RadioId): (reg': Registry)
    ensures f in reg.active && reg.active[f] == id ==> f !in reg'.active
    ensures !(f in reg.active && reg.active[f] == id) ==> reg' == reg
    ensures reg'.maxFrequencies == reg.maxFrequencies
    ensures forall g | g != f :: (g in reg'.active <==> g in reg.active)
    ensures forall g | g != f && g in reg.active :: reg'.active[g] == reg.active[g]
  {
    if f in reg.active && reg.active[f] == id then reg.(active := reg.active - {f}) else reg
  }

  /** isInUse(f, requester): f is held, and by someone other than the requester. */
  function IsInUse(reg: Registry, f: int, requester: RadioId): (used: bool)
    ensures used <==> f in reg.active && reg.active[f] != requester
  {
    f in reg.active && reg.active[f] != requester
  }

  /**
   * The query and the claim agree: inside [1, ceiling], a channel is in use
   * for a radio exactly when that radio's claim on it would be refused.
   */
  lemma InUseIffClaimRefused(reg: Registry, f: int, id: RadioId)
    requires 1 <= f <= reg.maxFrequencies
    ensures IsInUse(reg, f, id) <==> !Claim(reg, f, id).0
  {
  }

  /** A radio the rebuild registers: enabled, with a transmit channel in [1, max]. */
  predicate Eligible(r: Radio, max: int) {
    r.enabled && 1 <= r.tx <= max
  }

  /** `rs[i]` is eligible for channel f and no later radio in `rs` is. */
  ghost predicate LastClaimant(rs: seq<Radio>, max: int, f: int, i: int) {
    && 0 <= i < |rs|
    && Eligible(rs[i], max) && rs[i].tx == f
    && forall j | i < j < |rs| :: !(Eligible(rs[j], max) && rs[j].tx == f)
  }

  /**
   * The channel map built by the rebuild loop: each eligible radio in turn
   * writes its id under its channel, so on a shared channel the last one wins.
   */
  function Load(rs: seq<Radio>, max: int): (m: map<int, RadioId>)
    ensures forall f :: f in m <==> exists i | 0 <= i < |rs| :: Eligible(rs[i], max) && rs[i].tx == f
    ensures forall f | f in m :: exists i :: LastClaimant(rs, max, f, i) && rs[i].id == m[f]
    decreases |rs|
  {
    if rs == [] then map[]
    else
      var init := rs[..|rs| - 1];
      var last := rs[|rs| - 1];
      var prev := Load(init, max);
      var m := if Eligible(last, max) then prev[last.tx := last.id] else prev;
      assert forall i | 0 <= i < |init| :: init[i] == rs[i];
      forall f | f in m
        ensures exists i :: LastClaimant(rs, max, f, i) && rs[i].id == m[f]
      {
        if Eligible(last, max) && last.tx == f {
          assert LastClaimant(rs, max, f, |rs| - 1);
        } else {
          var i :| LastClaimant(init, max, f, i) && init[i].id == prev[f];
          assert LastClaimant(rs, max, f, i);
        }
      }
      m
  }

  /**
   * clearAndLoad: the registry is rebuilt from scratch. Afterwards every held
   * channel lies in [1, ceiling] and is held by an enabled radio transmitting
   * on it, and every enabled radio with an in-range channel has that channel
   * registered: no stale entry survives and none is missing.
   */
  function ClearAndLoad(reg: Registry, rs: seq<Radio>): (reg': Registry)
    ensures reg'.maxFrequencies == reg.maxFrequencies
    ensures KeysInRange(reg')
    ensures forall f | f in reg'.active ::
      exists i | 0 <= i < |rs| :: rs[i].enabled && rs[i].tx == f && rs[i].id == reg'.active[f]
    ensures forall i | 0 <= i < |rs| && rs[i].enabled && 1 <= rs[i].tx <= reg.maxFrequencies ::
      rs[i].tx in reg'.active
  {
    var m := Load(rs, reg.maxFrequencies);
    forall f | f in m
      ensures exists i | 0 <= i < |rs| :: rs[i].enabled && rs[i].tx == f && rs[i].id == m[f]
    {
      var i :| LastClaimant(rs, reg.maxFrequencies, f, i) && rs[i].id == m[f];
    }
    Registry(reg.maxFrequencies, m)
  }

  /**
   * Exclusivity: once r1 has claimed f, a claim by any other radio fails and
   * changes nothing; a release by anyone but r1 changes nothing; and after
   * r1 releases, the other radio's claim succeeds.
   */
  lemma ClaimIsExclusive(reg: Registry, f: int, r1: RadioId, r2: RadioId)
    requires r1 != r2
    requires Claim(reg, f, r1).0
    ensures var held := Claim(reg, f, r1).1;
      && !Claim(held, f, r2).0
      && Claim(held, f, r2).1 == held
      && Release(held, f, r2) == held
      && Claim(Release(held, f, r1), f, r2).0
  {
  }

  /** A repeated claim by the same radio succeeds again and changes nothing. */
  lemma ClaimIsIdempotent(reg: Registry, f: int, id: RadioId)
    requires Claim(reg, f, id).0
    ensures Claim(Claim(reg, f, id).1, f, id) == (true, Claim(reg, f, id).1)
  {
    var held := Claim(reg, f, id).1;
    assert held.active[f := id] == held.active;
  }

  /** Release is a left inverse of a fresh claim: claiming a free channel then releasing it restores the registry. */
  lemma ReleaseUndoesFreshClaim(reg: Registry, f: int, id: RadioId)
    requires f !in reg.active
    requires Claim(reg, f, id).0
    ensures Release(Claim(reg, f, id).1, f, id) == reg
  {
    assert reg.active[f := id] - {f} == reg.active;
  }

  /** Two radios that look alike to the registry: same id, same on/off state, same transmit channel. */
  predicate SameClaim(a: Radio, b: Radio) {
    a.id == b.id && a.enabled == b.enabled && a.tx == b.tx
  }

  /** The rebuild reads nothing but ids, on/off states and transmit channels. */
  lemma {:induction false} LoadReadsOnlyClaims(rs1: seq<Radio>, rs2: seq<Radio>, max: int)
    requires |rs1| == |rs2|
    requires forall i | 0 <= i < |rs1| :: SameClaim(rs1[i], rs2[i])
    ensures Load(rs1, max) == Load(rs2, max)
    decreases |rs1|
  {
    if rs1 != [] {
      var n := |rs1| - 1;
      LoadReadsOnlyClaims(rs1[..n], rs2[..n], max);
      assert SameClaim(rs1[n], rs2[n]);
    }
  }
}

=== FILE: frequency_overview.dfy ===
/**
 * The active-frequency overview (gui/FrequencyOverviewGui.java): a TreeMap
 * from transmit channel to the enabled radio on it, listed 45 to a page with
 * the number of channels still available, and the arrow and close buttons.
 */
module FrequencyOverview {
  import opened Basics
  import opened Radios
  import opened RadioStore
  import Paging

  const ITEMS_PER_PAGE: int := 45
  const SLOT_CLOSE: int := 45
  const SLOT_PREV: int := 48
  const SLOT_NEXT: int := 50

  datatype Entry = Entry(freq: int, radio: Radio)

  ghost predicate KeysIncreasing(es: seq<Entry>) {
    forall i, j | 0 <= i < j < |es| :: es[i].freq < es[j].freq
  }

  /** Some enabled radio in `rs` transmits on f. */
  ghost predicate Transmits(rs: seq<Radio>, f: int) {
    exists i | 0 <= i < |rs| :: rs[i].enabled && rs[i].tx == f
  }

  /** `rs[i]` is the first enabled radio in `rs` transmitting on f. */
  ghost predicate FirstOn(rs: seq<Radio>, f: int, i: int) {
    && 0 <= i < |rs| && rs[i].enabled && rs[i].tx == f
    && forall j | 0 <= j < i :: !(rs[j].enabled && rs[j].tx == f)
  }

  /** The channels an entry list holds. */
  function Channels(es: seq<Entry>): set<int> {
    set e | e in es :: e.freq
  }

  /** TreeMap.merge with `(r1, r2) -> r1`: a new key goes in its sorted place; an existing one keeps its radio. */
  function PutIfAbsent(es: seq<Entry>, e: Entry): (out: seq<Entry>)
    ensures |out| <= |es| + 1
  {
    if es == [] then [e]
    else if e.freq < es[0].freq then [e] + es
    else if e.freq == es[0].freq then es
    else [es[0]] + PutIfAbsent(es[1..], e)
  }

  /** Every entry of an increasing list has a key at least its head's. */
  lemma HeadIsLeast(es: seq<Entry>)
    requires KeysIncreasing(es) && es != []
    ensures forall x | x in es :: x.freq >= es[0].freq
  {
    forall x | x in es ensures x.freq >= es[0].freq {
      var k :| 0 <= k < |es| && es[k] == x;
    }
  }

  /** The merge adds e and nothing else, and only when e's channel is new. */
  lemma {:induction false} PutIfAbsentMembers(es: seq<Entry>, e: Entry)
    requires KeysIncreasing(es)
    ensures e.freq in Channels(es) ==> PutIfAbsent(es, e) == es
    ensures e.freq !in Channels(es) ==> forall x :: x in PutIfAbsent(es, e) <==> x in es || x == e
  {
    if es == [] {
    } else if e.freq < es[0].freq {
      HeadIsLeast(es);
      assert e.freq !in Channels(es);
    } else if e.freq == es[0].freq {
      assert es[0] in es;
    } else {
      var tail := es[1..];
      PutIfAbsentMembers(tail, e);
      assert es == [es[0]] + tail;
      assert forall x :: x in es <==> x == es[0] || x in tail;
      assert e.freq in Channels(es) <==> e.freq in Channels(tail);
    }
  }

  lemma ChannelsCons(x: Entry, es: seq<Entry>)
    ensures Channels([x] + es) == {x.freq} + Channels(es)
  {
    assert forall y :: y in [x] + es <==> y == x || y in es;
  }

  /** Putting a smaller key in front of an increasing list keeps it increasing. */
  lemma ConsIncreasing(x: Entry, es: seq<Entry>)
    requires KeysIncreasing(es)
    requires forall y | y in es :: y.freq > x.freq
    ensures KeysIncreasing([x] + es)
  {
    var out := [x] + es;
    forall i, j | 0 <= i < j < |out| ensures out[i].freq < out[j].freq {
      if i == 0 {
        assert out[j] == es[j - 1];
      } else {
        assert out[i] == es[i - 1] && out[j] == es[j - 1];
      }
    }
  }

  /** The merge adds exactly e's channel. */
  lemma {:induction false} PutIfAbsentChannels(es: seq<Entry>, e: Entry)
    ensures Channels(PutIfAbsent(es, e)) == Channels(es) + {e.freq}
  {
    if es == [] {
    } else if e.freq < es[0].freq {
      ChannelsCons(e, es);
    } else if e.freq == es[0].freq {
      assert es[0] in es;
    } else {
      var tail := es[1..];
      PutIfAbsentChannels(tail, e);
      assert es == [es[0]] + tail;
      ChannelsCons(es[0], tail);
      ChannelsCons(es[0], PutIfAbsent(tail, e));
    }
  }

  /** The merge keeps the keys increasing. */
  lemma {:induction false} PutIfAbsentIncreasing(es: seq<Entry>, e: Entry)
    requires KeysIncreasing(es)
    ensures KeysIncreasing(PutIfAbsent(es, e))
  {
    if es == [] {
    } else if e.freq < es[0].freq {
      HeadIsLeast(es);
      ConsIncreasing(e, es);
    } else if e.freq == es[0].freq {
    } else {
      var tail := es[1..];
      PutIfAbsentIncreasing(tail, e);
      PutIfAbsentMembers(tail, e);
      var rest := PutIfAbsent(tail, e);
      forall x | x in rest ensures x.freq > es[0].freq {
        if x in tail {
          var k :| 0 <= k < |tail| && tail[k] == x;
          assert es[k + 1] == x;
        }
      }
      ConsIncreasing(es[0], rest);
    }
  }

  /** Appending one radio adds its channel when it is enabled and nothing else. */
  lemma TransmitsSnoc(init: seq<Radio>, last: Radio, f: int)
    ensures Transmits(init + [last], f) <==> Transmits(init, f) || (last.enabled && last.tx == f)
  {
    var rs := init + [last];
    if Transmits(init, f) {
      var i :| 0 <= i < |init| && init[i].enabled && init[i].tx == f;
      assert rs[i] == init[i];
    }
    if Transmits(rs, f) && !(last.enabled && last.tx == f) {
      var i :| 0 <= i < |rs| && rs[i].enabled && rs[i].tx == f;
      assert rs[i] == init[i];
    }
    if last.enabled && last.tx == f {
      assert rs[|init|] == last;
    }
  }

  /** A first holder in a prefix stays the first holder after an append; an appended radio on a new channel is its first holder. */
  lemma FirstOnSnoc(init: seq<Radio>, last: Radio, f: int, i: int)
    ensures FirstOn(init, f, i) ==> FirstOn(init + [last], f, i)
    ensures i == |init| && last.enabled && last.tx == f && !Transmits(init, f) ==> FirstOn(init + [last], f, i)
  {
    var rs := init + [last];
    assert forall j | 0 <= j < |init| :: rs[j] == init[j];
  }

  /**
   * The overview's channel map over the radios `rs`, taken in order: exactly
   * one entry per channel some enabled radio transmits on, in increasing
   * channel order, each holding the first such radio.
   */
  function ActiveFrequencies(rs: seq<Radio>): (es: seq<Entry>)
    ensures KeysIncreasing(es)
    ensures forall f :: f in Channels(es) <==> Transmits(rs, f)
    ensures forall x | x in es :: exists i :: FirstOn(rs, x.freq, i) && rs[i] == x.radio
    decreases |rs|
  {
    if rs == [] then []
    else
      var init := rs[..|rs| - 1];
      var last := rs[|rs| - 1];
      assert rs == init + [last];
      var prev := ActiveFrequencies(init);
      var es := if last.enabled then PutIfAbsent(prev, Entry(last.tx, last)) else prev;
      PutIfAbsentMembers(prev, Entry(last.tx, last));
      PutIfAbsentChannels(prev, Entry(last.tx, last));
      PutIfAbsentIncreasing(prev, Entry(last.tx, last));
      assert forall f :: f in Channels(es) <==> Transmits(rs, f) by {
        forall f ensures f in Channels(es) <==> Transmits(rs, f) {
          TransmitsSnoc(init, last, f);
        }
      }
      assert forall x | x in es :: exists i :: FirstOn(rs, x.freq, i) && rs[i] == x.radio by {
        forall x | x in es ensures exists i :: FirstOn(rs, x.freq, i) && rs[i] == x.radio {
          if x in prev {
            var i :| FirstOn(init, x.freq, i) && init[i] == x.radio;
            FirstOnSnoc(init, last, x.freq, i);
          } else {
            FirstOnSnoc(init, last, last.tx, |init|);
          }
        }
      }
      es
  }

  /** The overview of a store, over getAll's order. */
  function Overview(s: Store): (es: seq<Entry>)
    ensures KeysIncreasing(es)
    ensures forall x | x in es :: x.radio in s.radios.Values && x.radio.enabled && x.radio.tx == x.freq
    ensures forall r | r in s.radios.Values && r.enabled :: r.tx in Channels(es)
  {
    var all := GetAll(s);
    var es := ActiveFrequencies(all);
    assert forall x | x in es :: x.radio in s.radios.Values by {
      forall x | x in es ensures x.radio in s.radios.Values {
        var i :| FirstOn(all, x.freq, i) && all[i] == x.radio;
        assert all[i] in all;
      }
    }
    assert forall r | r in s.radios.Values && r.enabled :: r.tx in Channels(es) by {
      forall r | r in s.radios.Values && r.enabled ensures r.tx in Channels(es) {
        assert r in all;
        var i :| 0 <= i < |all| && all[i] == r;
        assert Transmits(all, r.tx);
      }
    }
    es
  }

  /** The statistics card's "Available" figure, computed from the overview's size. */
  function AvailableCount(maxFreq: int, es: seq<Entry>): int {
    maxFreq - |es|
  }

  /** The channels some enabled radio of the store transmits on. */
  ghost function EnabledChannels(s: Store): set<int> {
    set r | r in s.radios.Values && r.enabled :: r.tx
  }

  /** An increasing entry list has one entry per channel. */
  lemma {:induction false} IncreasingCount(es: seq<Entry>)
    requires KeysIncreasing(es)
    ensures |Channels(es)| == |es|
  {
    if es != [] {
      var tail := es[1..];
      TailIncreasing(es);
      IncreasingCount(tail);
      HeadNotInTail(es);
      assert es == [es[0]] + tail;
      ChannelsCons(es[0], tail);
      assert |{es[0].freq} + Channels(tail)| == 1 + |Channels(tail)|;
    }
  }

  lemma TailIncreasing(es: seq<Entry>)
    requires KeysIncreasing(es) && es != []
    ensures KeysIncreasing(es[1..])
  {
    var tail := es[1..];
    forall i, j | 0 <= i < j < |tail| ensures tail[i].freq < tail[j].freq {
      assert tail[i] == es[i + 1] && tail[j] == es[j + 1];
    }
  }

  lemma HeadNotInTail(es: seq<Entry>)
    requires KeysIncreasing(es) && es != []
    ensures es[0].freq !in Channels(es[1..])
  {
    var tail := es[1..];
    forall x | x in tail ensures x.freq != es[0].freq {
      var k :| 0 <= k < |tail| && tail[k] == x;
      assert es[k + 1] == x;
    }
  }

  /**
   * "Available" is the ceiling less the number of distinct channels the
   * store's enabled radios transmit on, however many radios share one.
   */
  lemma AvailableIsCeilingLessActive(s: Store, maxFreq: int)
    ensures AvailableCount(maxFreq, Overview(s)) == maxFreq - |EnabledChannels(s)|
  {
    var es := Overview(s);
    IncreasingCount(es);
    assert Channels(es) == EnabledChannels(s) by {
      forall f | f in Channels(es) ensures f in EnabledChannels(s) {
        var x :| x in es && x.freq == f;
      }
    }
  }

  /** The overview page actually shown for a requested page. */
  function ShownPage(n: int, page: int): (p: int)
    ensures 0 <= p < Paging.TotalPages(n, ITEMS_PER_PAGE)
    ensures p * ITEMS_PER_PAGE <= Max(n, 0)
  {
    Paging.ClampPage(page, Paging.TotalPages(n, ITEMS_PER_PAGE))
  }

  /**
   * The entries on a page: at most 45, and slot i holds entry
   * page * 45 + i; across the pages every entry is shown exactly once.
   */
  function PageEntries(es: seq<Entry>, page: int): (shown: seq<Entry>)
    ensures var p := ShownPage(|es|, page);
      && |shown| <= ITEMS_PER_PAGE
      && (forall i | 0 <= i < |shown| :: p * ITEMS_PER_PAGE + i < |es| && shown[i] == es[p * ITEMS_PER_PAGE + i])
      && (p < Paging.TotalPages(|es|, ITEMS_PER_PAGE) - 1 ==> |shown| == ITEMS_PER_PAGE)
  {
    var p := ShownPage(|es|, page);
    var start := p * ITEMS_PER_PAGE;
    var end := Min(start + ITEMS_PER_PAGE, |es|);
    es[start..end]
  }

  /** Every entry appears on the page (index / 45), and only there. */
  lemma EveryEntryOnOnePage(es: seq<Entry>, k: int)
    requires 0 <= k < |es|
    ensures var p := k / ITEMS_PER_PAGE;
      && 0 <= p < Paging.TotalPages(|es|, ITEMS_PER_PAGE)
      && ShownPage(|es|, p) == p
      && PageEntries(es, p)[k - p * ITEMS_PER_PAGE] == es[k]
  {
    var p := k / ITEMS_PER_PAGE;
    var t := Paging.TotalPages(|es|, ITEMS_PER_PAGE);
    assert p * ITEMS_PER_PAGE <= k < (p + 1) * ITEMS_PER_PAGE;
  }

  datatype OverviewClick = CloseOverview | BackToRadio | Reopen(page: int) | NoAction

  /**
   * onClick: when the radio the overview was opened from is gone the view
   * just closes; otherwise slot 45 goes back to the radio's controls and
   * forgets the viewer's page, slots 48 and 50 reopen the overview one page
   * back or forward (open clamps), and any other slot does nothing.
   */
  function Click(radioStored: bool, slot: int, currentPage: int): (a: OverviewClick)
    ensures !radioStored <==> a == CloseOverview
    ensures radioStored ==>
      && (slot == SLOT_CLOSE <==> a == BackToRadio)
      && (slot == SLOT_PREV ==> a == Reopen(currentPage - 1))
      && (slot == SLOT_NEXT ==> a == Reopen(currentPage + 1))
      && (slot !in {SLOT_CLOSE, SLOT_PREV, SLOT_NEXT} ==> a == NoAction)
  {
    if !radioStored then CloseOverview
    else if slot == SLOT_CLOSE then BackToRadio
    else if slot == SLOT_PREV then Reopen(currentPage - 1)
    else if slot == SLOT_NEXT then Reopen(currentPage + 1)
    else NoAction
  }

  /**
   * The viewer-page table after a click: going back drops the viewer,
   * navigation records the clamped page, anything else keeps the table.
   */
  function PagesAfterClick(pages: Paging.Pages, viewer: PlayerId, radioStored: bool, slot: int, n: int)
    : (pages': Paging.Pages)
    ensures radioStored && slot == SLOT_CLOSE ==> viewer !in pages'
    ensures radioStored && (slot == SLOT_PREV || slot == SLOT_NEXT) ==>
      && viewer in pages'
      && 0 <= pages'[viewer] < Paging.TotalPages(n, ITEMS_PER_PAGE)
      && (0 <= Paging.PageOf(pages, viewer) < Paging.TotalPages(n, ITEMS_PER_PAGE) ==>
            pages'[viewer] == ShownPage(n, Paging.PageOf(pages, viewer) + (if slot == SLOT_PREV then -1 else 1)))
    ensures !radioStored || slot !in {SLOT_CLOSE, SLOT_PREV, SLOT_NEXT} ==> pages' == pages
    ensures forall q | q != viewer :: (q in pages' <==> q in pages) && (q in pages ==> pages'[q] == pages[q])
  {
    match Click(radioStored, slot, Paging.PageOf(pages, viewer))
    case CloseOverview => pages
    case BackToRadio => pages - {viewer}
    case Reopen(p) => pages[viewer := ShownPage(n, p)]
    case NoAction => pages
  }

  /** On an inner page, "next" then "previous" comes back to the same page. */
  lemma NextThenPrevReturns(pages: Paging.Pages, viewer: PlayerId, n: int)
    requires 0 <= Paging.PageOf(pages, viewer) < Paging.TotalPages(n, ITEMS_PER_PAGE) - 1
    ensures var after := PagesAfterClick(pages, viewer, true, SLOT_NEXT, n);
      PagesAfterClick(after, viewer, true, SLOT_PREV, n)[viewer] == Paging.PageOf(pages, viewer)
  {
  }
}

=== FILE: operator_guard.dfy ===
/**
 * The once-a-second guard (tasks/OperatorGuardTask.java): for every enabled
 * radio it rescans the antenna and range, switches the radio off when the
 * antenna or range is gone, and otherwise drains fuel, switching the radio
 * off once the fuel is spent. The scheduler and the chat notices are not
 * modelled; one call of Tick is one run of the timer body.
 */
module OperatorGuard {
  import opened Basics
  import opened Worlds
  import opened Radios
  import opened RadioStore
  import opened FrequencyManager
  import opened RadioMath
  import opened Plugin

  /** The fuel one tick drains from a radio at final range x: the burn rate, at least 1. */
  function Drain(x: int): (d: int)
    ensures 1 <= d <= INT_MAX
    ensures x > 0 ==> d == BurnPerSecond(x)
    ensures x <= 0 ==> d == 1
  {
    Max(1, BurnPerSecond(x))
  }

  /** A radio whose rescan finds no antenna or no range. */
  predicate StructureGone(r: Radio) {
    r.antennaCount <= 0 || r.maxRangeBlocks <= 0
  }

  /**
   * The fuel a tick leaves: a fuelled radio loses Drain(x) seconds, floored
   * at zero (setFuelSeconds); an empty one is left as it is.
   */
  function DrainedFuel(fuel: int, x: int): (f: int)
    ensures fuel > 0 ==> 0 <= f < fuel && (f > 0 ==> f == fuel - Drain(x))
    ensures fuel > 0 && fuel - Drain(x) <= 0 ==> f == 0
    ensures fuel <= 0 ==> f == fuel
  {
    if fuel > 0 then Max(0, fuel - Drain(x)) else fuel
  }

  /** The radio as a tick that does not find the structure gone leaves it, before any disable. */
  function Drained(r: Radio, worlds: map<string, World>): (r': Radio)
    ensures r' == RecomputeAntennaAndRange(r, worlds).(fuelSeconds := DrainedFuel(r.fuelSeconds, r.finalRangeBlocks))
  {
    var r1 := RecomputeAntennaAndRange(r, worlds);
    r1.(fuelSeconds := DrainedFuel(r1.fuelSeconds, r1.finalRangeBlocks))
  }

  /**
   * One turn of the timer loop for radio `r`. An off radio is skipped. An on
   * radio is rescanned; if the structure is gone it is disabled for ADMIN
   * with its fuel untouched. Otherwise a fuelled radio loses Drain(final
   * range) seconds (floored at zero), and a radio left without fuel is
   * disabled for FUEL. At most one reason is reported, and no other radio
   * changes.
   */
  function TickRadio(s: State, worlds: map<string, World>, r: Radio): (res: (State, Option<DisableReason>))
    ensures !r.enabled ==> res == (s, None)
    ensures r.enabled && StructureGone(RecomputeAntennaAndRange(r, worlds)) ==>
      res.1 == Some(Admin) && Get(res.0.store, r.id) == Some(SwitchedOff(RecomputeAntennaAndRange(r, worlds)))
    ensures r.enabled && !StructureGone(RecomputeAntennaAndRange(r, worlds)) && Drained(r, worlds).fuelSeconds <= 0 ==>
      res.1 == Some(Fuel) && Get(res.0.store, r.id) == Some(SwitchedOff(Drained(r, worlds)))
    ensures r.enabled && !StructureGone(RecomputeAntennaAndRange(r, worlds)) && Drained(r, worlds).fuelSeconds > 0 ==>
      res.1 == None && Get(res.0.store, r.id) == Some(Drained(r, worlds))
    ensures forall k | k != r.id :: Get(res.0.store, k) == Get(s.store, k)
    ensures r.id in s.store.radios ==> res.0.store.order == s.store.order && res.0.store.radios.Keys == s.store.radios.Keys
    ensures res.0.freq.maxFrequencies == s.freq.maxFrequencies && res.0.mode == s.mode && res.0.config == s.config
    ensures res.1.Some? ==> Consistent(res.0)
    ensures Consistent(s) && Get(s.store, r.id) == Some(r) ==> Consistent(res.0)
  {
    if !r.enabled then (s, None)
    else
      var r1 := RecomputeAntennaAndRange(r, worlds);
      if StructureGone(r1) then (SaveThenDisable(s, r1), Some(Admin))
      else
        var r2 := Drained(r, worlds);
        if r2.fuelSeconds <= 0 then (SaveThenDisable(s, r2), Some(Fuel))
        else
          RewriteKeepsConsistent(s, r2);
          (s.(store := Save(s.store, r2)), None)
  }

  /**
   * The tick's write-back of the rescanned radio followed by
   * disableRadioIfEnabled on it: the radio ends up stored switched off and
   * nothing else in the store changes.
   */
  function SaveThenDisable(s: State, x: Radio): (s': State)
    ensures x.enabled ==> Get(s'.store, x.id) == Some(SwitchedOff(x)) && Consistent(s')
    ensures forall k | k != x.id :: Get(s'.store, k) == Get(s.store, k)
    ensures x.id in s.store.radios ==> s'.store.order == s.store.order && s'.store.radios.Keys == s.store.radios.Keys
    ensures s'.freq.maxFrequencies == s.freq.maxFrequencies && s'.mode == s.mode && s'.config == s.config
  {
    Disable(s.(store := Save(s.store, x)), x)
  }

  /**
   * Storing a radio that looks the same to the registry as the stored one
   * keeps a matching registry matching.
   */
  lemma RewriteKeepsConsistent(s: State, r': Radio)
    ensures Get(s.store, r'.id).Some? && SameClaim(Get(s.store, r'.id).value, r') && Consistent(s) ==>
      Consistent(s.(store := Save(s.store, r')))
  {
    if Get(s.store, r'.id).Some? && SameClaim(Get(s.store, r'.id).value, r') {
      RewriteKeepsLoad(s.store, r', s.freq.maxFrequencies);
    }
  }

  lemma RewriteKeepsLoad(st: Store, r': Radio, max: int)
    requires Get(st, r'.id).Some? && SameClaim(Get(st, r'.id).value, r')
    ensures Load(GetAll(Save(st, r')), max) == Load(GetAll(st), max)
  {
    var st' := Save(st, r');
    var a := GetAll(st);
    var b := GetAll(st');
    forall i | 0 <= i < |a| ensures SameClaim(a[i], b[i]) {
      assert a[i] == st.radios[st.order[i]];
    }
    LoadReadsOnlyClaims(a, b, max);
  }

  /* ---------- one run of the timer ---------- */

  /** A radio switched off during a run, and why. */
  datatype Shutoff = Shutoff(id: RadioId, reason: DisableReason)

  /**
   * What ticking the radios `ids` leaves alone: the same ids in the same
   * order, every radio that was off or is not listed untouched, no radio
   * switched on, and the ceiling, mode and configuration kept.
   */
  ghost predicate TickFrame(before: State, after: State, ids: seq<RadioId>) {
    && after.store.order == before.store.order
    && after.store.radios.Keys == before.store.radios.Keys
    && (forall k | k in before.store.radios && !(k in ids && before.store.radios[k].enabled) ::
          after.store.radios[k] == before.store.radios[k])
    && (forall k | k in before.store.radios && after.store.radios[k].enabled :: before.store.radios[k].enabled)
    && after.freq.maxFrequencies == before.freq.maxFrequencies
    && after.mode == before.mode && after.config == before.config
  }

  /** Every listed radio still on has a live structure and strictly less, but positive, fuel. */
  ghost predicate TickDrains(before: State, after: State, ids: seq<RadioId>)
    requires after.store.radios.Keys == before.store.radios.Keys
  {
    forall k | k in before.store.radios && k in ids && before.store.radios[k].enabled && after.store.radios[k].enabled ::
      && 0 < after.store.radios[k].fuelSeconds < before.store.radios[k].fuelSeconds
      && !StructureGone(after.store.radios[k])
  }

  /** `shutoffs` names exactly the listed radios that went from on to off. */
  ghost predicate ShutoffsExact(before: State, after: State, ids: seq<RadioId>, shutoffs: seq<Shutoff>)
    requires after.store.radios.Keys == before.store.radios.Keys
  {
    && (forall i | 0 <= i < |shutoffs| ::
          && shutoffs[i].id in ids && shutoffs[i].id in before.store.radios
          && before.store.radios[shutoffs[i].id].enabled && !after.store.radios[shutoffs[i].id].enabled)
    && (forall k | k in before.store.radios && k in ids && before.store.radios[k].enabled && !after.store.radios[k].enabled ::
          exists i | 0 <= i < |shutoffs| :: shutoffs[i].id == k)
  }

  /** The reported shut-offs of one tick of a stored radio. */
  function ShutoffsOf(id: RadioId, why: Option<DisableReason>): (out: seq<Shutoff>)
    ensures why.None? ==> out == []
    ensures why.Some? ==> out == [Shutoff(id, why.value)]
  {
    match why
    case None => []
    case Some(w) => [Shutoff(id, w)]
  }

  /**
   * What one tick makes of radio `r`, read on its own: an off radio is kept;
   * a rescanned radio whose structure is gone is switched off undrained; a
   * drained radio left without fuel is switched off; any other is drained.
   */
  function Ticked(r: Radio, worlds: map<string, World>): Radio {
    if !r.enabled then r
    else if StructureGone(RecomputeAntennaAndRange(r, worlds)) then SwitchedOff(RecomputeAntennaAndRange(r, worlds))
    else if Drained(r, worlds).fuelSeconds <= 0 then SwitchedOff(Drained(r, worlds))
    else Drained(r, worlds)
  }

  /** The reason one tick of `r` reports: ADMIN for a lost structure, FUEL for an empty tank, else none. */
  function TickReason(r: Radio, worlds: map<string, World>): Option<DisableReason> {
    if !r.enabled then None
    else if StructureGone(RecomputeAntennaAndRange(r, worlds)) then Some(Admin)
    else if Drained(r, worlds).fuelSeconds <= 0 then Some(Fuel)
    else None
  }

  /** The shut-offs a pass over `ids` reports, each radio judged at its value in `st`. */
  function TickShutoffs(st: Store, worlds: map<string, World>, ids: seq<RadioId>): seq<Shutoff> {
    if ids == [] then []
    else
      (if ids[0] in st.radios then ShutoffsOf(ids[0], TickReason(st.radios[ids[0]], worlds)) else [])
      + TickShutoffs(st, worlds, ids[1..])
  }

  /** TickRadio stores `Ticked` and reports `TickReason`: its effect on the radio depends on nothing but the radio. */
  lemma TickRadioIsTicked(s: State, worlds: map<string, World>, r: Radio)
    requires Get(s.store, r.id) == Some(r)
    ensures Get(TickRadio(s, worlds, r).0.store, r.id) == Some(Ticked(r, worlds))
    ensures TickRadio(s, worlds, r).1 == TickReason(r, worlds)
  {
  }

  /** Two stores that agree on the listed radios give the same reports. */
  lemma {:induction false} TickShutoffsAgree(st: Store, st': Store, worlds: map<string, World>, ids: seq<RadioId>)
    requires forall k | k in ids :: (k in st.radios <==> k in st'.radios)
    requires forall k | k in ids && k in st.radios :: st'.radios[k] == st.radios[k]
    ensures TickShutoffs(st', worlds, ids) == TickShutoffs(st, worlds, ids)
  {
    if ids != [] {
      assert forall k | k in ids[1..] :: k in ids;
      TickShutoffsAgree(st, st', worlds, ids[1..]);
    }
  }

  /**
   * Composing one step with the rest of a pass over distinct ids: each
   * listed radio ends as its own tick made it, and the reports are those
   * of the starting store.
   */
  lemma TickExactCompose(s: State, s1: State, s2: State, worlds: map<string, World>, ids: seq<RadioId>,
                         e1: seq<Shutoff>, e2: seq<Shutoff>)
    requires ids != [] && Distinct(ids)
    requires TickFrame(s, s1, [ids[0]]) && TickFrame(s1, s2, ids[1..])
    requires ids[0] in s.store.radios ==>
      s1.store.radios[ids[0]] == Ticked(s.store.radios[ids[0]], worlds)
      && e1 == ShutoffsOf(ids[0], TickReason(s.store.radios[ids[0]], worlds))
    requires ids[0] !in s.store.radios ==> e1 == []
    requires forall k | k in ids[1..] && k in s1.store.radios :: s2.store.radios[k] == Ticked(s1.store.radios[k], worlds)
    requires e2 == TickShutoffs(s1.store, worlds, ids[1..])
    ensures forall k | k in ids && k in s.store.radios :: s2.store.radios[k] == Ticked(s.store.radios[k], worlds)
    ensures e1 + e2 == TickShutoffs(s.store, worlds, ids)
  {
    var k0 := ids[0];
    assert k0 !in ids[1..] by {
      forall i | 0 <= i < |ids[1..]| ensures ids[1..][i] != k0 {
        assert ids[1..][i] == ids[i + 1];
      }
    }
    forall k | k in ids[1..] && k in s.store.radios ensures s1.store.radios[k] == s.store.radios[k] {
      assert k != k0;
    }
    TickShutoffsAgree(s.store, s1.store, worlds, ids[1..]);
  }

  /** What one tick of a stored radio leaves alone. */
  lemma TickRadioFrame(s: State, worlds: map<string, World>, r: Radio)
    requires Get(s.store, r.id) == Some(r)
    ensures TickFrame(s, TickRadio(s, worlds, r).0, [r.id])
  {
    var s1 := TickRadio(s, worlds, r).0;
    forall j | j in s.store.radios && j != r.id ensures s1.store.radios[j] == s.store.radios[j] {
      assert Get(s1.store, j) == Get(s.store, j);
    }
  }

  /** One tick of a stored radio that stays on drains it. */
  lemma TickRadioDrains(s: State, worlds: map<string, World>, r: Radio)
    requires Get(s.store, r.id) == Some(r)
    ensures TickFrame(s, TickRadio(s, worlds, r).0, [r.id])
    ensures TickDrains(s, TickRadio(s, worlds, r).0, [r.id])
    ensures ShutoffsExact(s, TickRadio(s, worlds, r).0, [r.id], ShutoffsOf(r.id, TickRadio(s, worlds, r).1))
  {
    TickRadioFrame(s, worlds, r);
    var res := TickRadio(s, worlds, r);
    TickRadioStaysOn(s, worlds, r, res);
    TickRadioSwitchesOff(s, worlds, r);
    assert Get(res.0.store, r.id) == Some(res.0.store.radios[r.id]);
    TickRadioReports(s, r, res.0, res.1);
  }

  lemma TickRadioStaysOn(s: State, worlds: map<string, World>, r: Radio, res: (State, Option<DisableReason>))
    requires Get(s.store, r.id) == Some(r) && res == TickRadio(s, worlds, r)
    requires res.0.store.radios.Keys == s.store.radios.Keys
    ensures TickDrains(s, res.0, [r.id])
  {
    if r.enabled {
      var r1 := RecomputeAntennaAndRange(r, worlds);
      if !StructureGone(r1) && Drained(r, worlds).fuelSeconds > 0 {
        assert res.0.store.radios[r.id] == Drained(r, worlds);
      }
    }
  }

  /** Reporting a radio exactly when it went from on to off is what ShutoffsExact asks of one radio. */
  lemma TickRadioReports(s: State, r: Radio, s': State, why: Option<DisableReason>)
    requires Get(s.store, r.id) == Some(r)
    requires s'.store.radios.Keys == s.store.radios.Keys
    requires why.Some? <==> r.enabled && !s'.store.radios[r.id].enabled
    ensures ShutoffsExact(s, s', [r.id], ShutoffsOf(r.id, why))
  {
    assert s.store.radios[r.id] == r;
    var out := ShutoffsOf(r.id, why);
    if why.Some? {
      assert |out| == 1 && out[0].id == r.id;
    }
  }

  /** A tick reports a reason exactly when it switches an on radio off. */
  lemma TickRadioSwitchesOff(s: State, worlds: map<string, World>, r: Radio)
    requires Get(s.store, r.id) == Some(r)
    ensures var res := TickRadio(s, worlds, r);
      Get(res.0.store, r.id).Some? &&
      (res.1.Some? <==> r.enabled && !Get(res.0.store, r.id).value.enabled)
  {
    var res := TickRadio(s, worlds, r);
    if r.enabled {
      var r1 := RecomputeAntennaAndRange(r, worlds);
      if StructureGone(r1) {
      } else if Drained(r, worlds).fuelSeconds <= 0 {
      } else {
        assert Get(res.0.store, r.id) == Some(Drained(r, worlds));
      }
    } else {
      assert res == (s, None);
    }
  }

  /** One turn of the loop for the stored radio `k`, read at its current value. */
  function TickStep(s: State, worlds: map<string, World>, k: RadioId): (res: (State, seq<Shutoff>))
    ensures TickFrame(s, res.0, [k])
    ensures TickDrains(s, res.0, [k])
    ensures ShutoffsExact(s, res.0, [k], res.1)
    ensures Consistent(s) ==> Consistent(res.0)
    ensures k !in s.store.radios ==> res == (s, [])
    ensures k in s.store.radios ==> res.0 == TickRadio(s, worlds, s.store.radios[k]).0
    ensures k in s.store.radios ==>
      && res.0.store.radios[k] == Ticked(s.store.radios[k], worlds)
      && res.1 == ShutoffsOf(k, TickReason(s.store.radios[k], worlds))
  {
    if k !in s.store.radios then (s, [])
    else
      var r := s.store.radios[k];
      var step := TickRadio(s, worlds, r);
      TickRadioDrains(s, worlds, r);
      TickRadioIsTicked(s, worlds, r);
      assert Get(step.0.store, k) == Some(step.0.store.radios[k]);
      (step.0, ShutoffsOf(k, step.1))
  }

  /**
   * The timer body: `for (Radio r : store.getAll())` ticks each listed radio
   * at its current value, collecting the radios it switches off.
   */
  function Tick(s: State, worlds: map<string, World>, ids: seq<RadioId>): (res: (State, seq<Shutoff>))
    ensures TickFrame(s, res.0, ids)
    ensures TickDrains(s, res.0, ids)
    ensures ShutoffsExact(s, res.0, ids, res.1)
    ensures Consistent(s) ==> Consistent(res.0)
    ensures Distinct(ids) ==>
      forall k | k in ids && k in s.store.radios :: res.0.store.radios[k] == Ticked(s.store.radios[k], worlds)
    ensures Distinct(ids) ==> res.1 == TickShutoffs(s.store, worlds, ids)
    decreases |ids|
  {
    if ids == [] then (s, [])
    else
      var first := TickStep(s, worlds, ids[0]);
      var rest := Tick(first.0, worlds, ids[1..]);
      TickFrameCompose(s, first.0, rest.0, ids);
      TickDrainsCompose(s, first.0, rest.0, ids);
      ShutoffsCompose(s, first.0, rest.0, ids, first.1, rest.1);
      assert Distinct(ids) ==> Distinct(ids[1..]) by {
        if Distinct(ids) {
          forall i, j | 0 <= i < j < |ids[1..]| ensures ids[1..][i] != ids[1..][j] {
            assert ids[1..][i] == ids[i + 1] && ids[1..][j] == ids[j + 1];
          }
        }
      }
      assert Distinct(ids) ==>
        && (forall k | k in ids && k in s.store.radios :: rest.0.store.radios[k] == Ticked(s.store.radios[k], worlds))
        && first.1 + rest.1 == TickShutoffs(s.store, worlds, ids) by {
        if Distinct(ids) {
          TickExactCompose(s, first.0, rest.0, worlds, ids, first.1, rest.1);
        }
      }
      (rest.0, first.1 + rest.1)
  }

  /**
   * The pass the timer runs, over the store's listing: every stored radio
   * ends as its own tick makes it, and the reports are exactly those ticks'
   * reasons in listing order.
   */
  lemma PassIsExact(s: State, worlds: map<string, World>)
    ensures var res := Tick(s, worlds, s.store.order);
      && (forall k | k in s.store.radios :: res.0.store.radios[k] == Ticked(s.store.radios[k], worlds))
      && res.1 == TickShutoffs(s.store, worlds, s.store.order)
  {
    assert Distinct(s.store.order);
  }

  lemma TickFrameCompose(s: State, s1: State, s2: State, ids: seq<RadioId>)
    requires ids != []
    requires TickFrame(s, s1, [ids[0]]) && TickFrame(s1, s2, ids[1..])
    ensures TickFrame(s, s2, ids)
  {
    assert forall j | j in ids[1..] :: j in ids;
  }

  lemma TickDrainsCompose(s: State, s1: State, s2: State, ids: seq<RadioId>)
    requires ids != []
    requires TickFrame(s, s1, [ids[0]]) && TickFrame(s1, s2, ids[1..])
    requires TickDrains(s, s1, [ids[0]]) && TickDrains(s1, s2, ids[1..])
    ensures TickDrains(s, s2, ids)
  {
    forall j | j in s.store.radios && j in ids && s.store.radios[j].enabled && s2.store.radios[j].enabled
      ensures 0 < s2.store.radios[j].fuelSeconds < s.store.radios[j].fuelSeconds
    {
      assert s1.store.radios[j].enabled;
      assert j != ids[0] ==> j in ids[1..];
    }
  }

  lemma ShutoffsCompose(s: State, s1: State, s2: State, ids: seq<RadioId>, e1: seq<Shutoff>, e2: seq<Shutoff>)
    requires ids != []
    requires TickFrame(s, s1, [ids[0]]) && TickFrame(s1, s2, ids[1..])
    requires ShutoffsExact(s, s1, [ids[0]], e1) && ShutoffsExact(s1, s2, ids[1..], e2)
    ensures ShutoffsExact(s, s2, ids, e1 + e2)
  {
    var k := ids[0];
    var e := e1 + e2;
    assert forall j | j in ids[1..] :: j in ids;
    forall i | 0 <= i < |e|
      ensures e[i].id in ids && e[i].id in s.store.radios
      ensures s.store.radios[e[i].id].enabled && !s2.store.radios[e[i].id].enabled
    {
      if i < |e1| {
        assert e[i] == e1[i];
      } else {
        assert e[i] == e2[i - |e1|];
      }
    }
    forall j | j in s.store.radios && j in ids && s.store.radios[j].enabled && !s2.store.radios[j].enabled
      ensures exists i | 0 <= i < |e| :: e[i].id == j
    {
      if j == k && !s1.store.radios[j].enabled {
        var i :| 0 <= i < |e1| && e1[i].id == j;
        assert e[i] == e1[i];
      } else {
        assert j in ids[1..];
        var i :| 0 <= i < |e2| && e2[i].id == j;
        assert e[|e1| + i] == e2[i];
      }
    }
  }
}

=== FILE: paging.dfy ===
/**
 * The page arithmetic the channel-button GUI (nine channels a page) and the
 * active-frequency overview (45 entries a page) share:
 * totalPages = max(1, ceil(n / perPage)) and page = max(0, min(page,
 * totalPages - 1)). Java computes the ceiling in double; for int operands
 * the quotient never rounds onto an integer, so the integer ceiling below is
 * the same number.
 */
module Paging {
  import opened Basics
  import opened Radios

  /** max(1, ceil(n / perPage)). */
  function TotalPages(n: int, perPage: int): (t: int)
    requires perPage > 0
    ensures t >= 1
    ensures n > 0 ==> (t - 1) * perPage < n <= t * perPage
    ensures n <= 0 ==> t == 1
  {
    if n <= 0 then 1 else (n + perPage - 1) / perPage
  }

  /** The page clamped into [0, total - 1]. */
  function ClampPage(page: int, total: int): (p: int)
    requires total >= 1
    ensures 0 <= p < total
    ensures 0 <= page < total ==> p == page
    ensures page < 0 ==> p == 0
    ensures page >= total ==> p == total - 1
  {
    Max(0, Min(page, total - 1))
  }

  /** The page each viewer last had open. */
  type Pages = map<PlayerId, int>

  /** playerPages.getOrDefault(viewer, 0). */
  function PageOf(pages: Pages, viewer: PlayerId): int {
    if viewer in pages then pages[viewer] else 0
  }

  /** The "previous page" arrow is shown on every page but the first. */
  predicate HasPrev(page: int) {
    page > 0
  }

  /** The "next page" arrow is shown on every page but the last. */
  predicate HasNext(page: int, total: int) {
    page < total - 1
  }

  /**
   * Going forward a page and then back returns to the page one started on,
   * unless one started on the last page (where forward stays put).
   */
  lemma NextThenPrev(page: int, total: int)
    requires total >= 1 && 0 <= page < total
    ensures HasNext(page, total) ==> ClampPage(ClampPage(page + 1, total) - 1, total) == page
    ensures !HasNext(page, total) ==> ClampPage(page + 1, total) == page
  {
  }

  /**
   * Each arrow is drawn exactly when following it moves: on page `page` the
   * previous arrow shows iff going back lands on page - 1, and the next
   * arrow shows iff going forward lands on page + 1 rather than staying.
   */
  lemma ArrowsShowWhenTheyMove(page: int, total: int)
    requires total >= 1 && 0 <= page < total
    ensures HasPrev(page) <==> ClampPage(page - 1, total) == page - 1
    ensures HasNext(page, total) <==> ClampPage(page + 1, total) == page + 1
    ensures !HasPrev(page) ==> ClampPage(page - 1, total) == page
    ensures !HasNext(page, total) ==> ClampPage(page + 1, total) == page
  {
  }
}

=== FILE: plugin.dfy ===
/**
 * The plugin's radio lifecycle (CivLabsRadiosPlugin.java): start-up and
 * shut-down, switching between the channel-button and slider modes,
 * enabling a radio onto a transmit channel, disabling it, the lock check the
 * GUIs use, and the `/radio` admin subcommands that change state.
 *
 * Java hands the store's own Radio object to these methods and mutates it;
 * here the state is a value and every change is written back to the store.
 */
module Plugin {
  import opened Basics
  import opened Radios
  import opened RadioStore
  import opened FrequencyManager
  import opened VoiceBridge
  import Text

  datatype RadioMode = Simple | Slider

  /** Why a radio was switched off; it only selects the message sent to the operator. */
  datatype DisableReason = Admin | Fuel | ServerStop | BlockBroken

  /**
   * The configuration keys the core reads, with their defaults:
   * dimensions.restrictToDimension, simpleFrequencies, maxFrequencies,
   * speakerRadius and voice.isolateOperatorInTxGroup.
   */
  datatype Config = Config(
    restrictToDimension: bool,
    simpleFrequencies: int,
    maxFrequencies: int,
    speakerRadius: int,
    isolateOperator: bool)

  const DefaultConfig: Config := Config(true, 9, 128, 30, true)

  /** The hard ceiling on slider-mode channels. */
  const SLIDER_CEILING: int := 1024

  /** The player operating a radio, with the environment name of the world they stand in. */
  datatype Operator = Operator(id: PlayerId, environment: string)

  datatype State = State(
    store: Store,
    freq: Registry,
    voice: Bridge,
    conns: Connections,
    mode: RadioMode,
    config: Config)

  /** The registry is exactly what a rebuild from the store produces. */
  ghost predicate Consistent(s: State) {
    s.freq.active == Load(GetAll(s.store), s.freq.maxFrequencies)
  }

  /** No two enabled radios transmit on the same channel. */
  ghost predicate ExclusiveTx(st: Store) {
    forall a, b | a in st.radios && b in st.radios && st.radios[a].enabled && st.radios[b].enabled
      && st.radios[a].tx == st.radios[b].tx :: a == b
  }

  /** Rebuild the registry from the store (freqManager.clearAndLoad(radioStore.getAll())). */
  function Reload(s: State): (s': State)
    ensures Consistent(s')
    ensures s' == s.(freq := s'.freq) && s'.freq.maxFrequencies == s.freq.maxFrequencies
  {
    s.(freq := ClearAndLoad(s.freq, GetAll(s.store)))
  }

  /**
   * getMaxFrequenciesForMode: the configured simple count in simple mode, and
   * the configured maximum capped at 1024 in slider mode.
   */
  function MaxFrequenciesForMode(mode: RadioMode, config: Config): (n: int)
    ensures mode == Simple ==> n == config.simpleFrequencies
    ensures mode == Slider ==> n <= SLIDER_CEILING
    ensures mode == Slider && config.maxFrequencies <= SLIDER_CEILING ==> n == config.maxFrequencies
    ensures mode == Slider && config.maxFrequencies > SLIDER_CEILING ==> n == SLIDER_CEILING
  {
    if mode == Simple then config.simpleFrequencies else Min(config.maxFrequencies, SLIDER_CEILING)
  }

  /**
   * onEnable: a registry sized for the configured mode, loaded from the
   * stored radios. The voice bridge starts with no speakers and no groups.
   */
  function OnEnable(store: Store, conns: Connections, mode: RadioMode, config: Config): (s: State)
    ensures Consistent(s)
    ensures s.freq.maxFrequencies == MaxFrequenciesForMode(mode, config)
    ensures s.store == store && s.voice == NewBridge()
  {
    Reload(State(store, NewRegistry(MaxFrequenciesForMode(mode, config)), NewBridge(), conns, mode, config))
  }

  /**
   * isFrequencyLockedFor(f, id): some enabled radio other than `id`
   * transmits on f.
   */
  function IsFrequencyLockedFor(st: Store, f: int, id: RadioId): (locked: bool)
    ensures locked <==> exists r | r in st.radios.Values :: r.enabled && r.tx == f && r.id != id
  {
    var all := GetAll(st);
    var first := FirstIndex(all, (x: Radio) => x.enabled && x.tx == f && x.id != id);
    assert first.None? ==> forall r | r in st.radios.Values :: !(r.enabled && r.tx == f && r.id != id) by {
      forall r | r in st.radios.Values && first.None? ensures !(r.enabled && r.tx == f && r.id != id) {
        assert r in all;
        var i :| 0 <= i < |all| && all[i] == r;
      }
    }
    first.Some?
  }

  /* ---------- voice-chat group membership ---------- */

  /**
   * bindOperator: with the voice server up and operator isolation on, a
   * connected operator is moved into the transmit group of the radio's
   * channel, when that group exists; otherwise nothing changes.
   */
  function BindOperator(b: Bridge, conns: Connections, isolate: bool, r: Radio, op: PlayerId): (c': Connections)
    ensures b.apiReady && isolate && op in conns && r.tx in b.txGroupIds ==>
      c' == conns[op := Some(b.txGroupIds[r.tx])]
    ensures !(b.apiReady && isolate && op in conns && r.tx in b.txGroupIds) ==> c' == conns
  {
    if b.apiReady && isolate && op in conns && r.tx in b.txGroupIds then conns[op := Some(b.txGroupIds[r.tx])]
    else conns
  }

  /** unbindOperator: with the voice server up, a connected operator leaves whatever group they are in. */
  function UnbindOperator(b: Bridge, conns: Connections, op: PlayerId): (c': Connections)
    ensures b.apiReady && op in conns ==> c' == conns[op := None]
    ensures !(b.apiReady && op in conns) ==> c' == conns
  {
    if b.apiReady && op in conns then conns[op := None] else conns
  }

  /** Unbinding undoes any binding: whatever binding did, the operator ends up in no group. */
  lemma UnbindAfterBind(b: Bridge, conns: Connections, isolate: bool, r: Radio, op: PlayerId)
    requires b.apiReady && op in conns
    ensures var c := UnbindOperator(b, BindOperator(b, conns, isolate, r, op), op);
      c[op] == None && forall p | p in conns && p != op :: p in c && c[p] == conns[p]
  {
  }

  /* ---------- disable ---------- */

  /** The radio as disableRadioIfEnabled leaves it: off and unoperated, channels kept. */
  function SwitchedOff(r: Radio): (r': Radio)
    ensures !r'.enabled && r'.operator == None
    ensures r'.id == r.id && r'.tx == r.tx && r'.rx == r.rx && r'.fuelSeconds == r.fuelSeconds
  {
    r.(enabled := false, operator := None)
  }

  /**
   * disableRadioIfEnabled: nothing happens to a radio that is off. Otherwise
   * it is stored switched off, its speaker is closed, its operator leaves the
   * transmit group, and the registry is rebuilt, so no channel is left
   * registered to it and every other radio keeps its place.
   */
  function Disable(s: State, r: Radio): (s': State)
    ensures !r.enabled ==> s' == s
    ensures r.enabled ==>
      && Get(s'.store, r.id) == Some(SwitchedOff(r))
      && (forall k | k != r.id :: Get(s'.store, k) == Get(s.store, k))
      && s'.store.radios.Keys == s.store.radios.Keys + {r.id}
      && r.id !in s'.voice.speakers
      && (forall f | f in s'.freq.active :: s'.freq.active[f] != r.id)
      && Consistent(s')
      && s'.conns == (if r.operator.Some? then UnbindOperator(s.voice, s.conns, r.operator.value) else s.conns)
    ensures s'.freq.maxFrequencies == s.freq.maxFrequencies && s'.mode == s.mode && s'.config == s.config
    ensures s'.voice.apiReady == s.voice.apiReady && s'.voice.txGroupIds == s.voice.txGroupIds
    ensures forall k | k != r.id :: (k in s'.voice.speakers <==> k in s.voice.speakers)
    ensures forall k | k != r.id && k in s.voice.speakers :: s'.voice.speakers[k] == s.voice.speakers[k]
    ensures r.id in s.store.radios ==> s'.store.order == s.store.order
  {
    if !r.enabled then s
    else
      var freq1 := if r.tx > 0 then Release(s.freq, r.tx, r.id) else s.freq;
      var conns1 := if r.operator.Some? then UnbindOperator(s.voice, s.conns, r.operator.value) else s.conns;
      var voice1 := RemoveSpeaker(s.voice, r.id);
      var store1 := Save(s.store, SwitchedOff(r));
      var s' := Reload(State(store1, freq1, voice1, conns1, s.mode, s.config));
      NothingRegisteredTo(s', r.id);
      s'
  }

  /** Switching a radio off never puts two enabled radios on one channel. */
  lemma DisableKeepsExclusive(s: State, r: Radio)
    requires ExclusiveTx(s.store)
    ensures ExclusiveTx(Disable(s, r).store)
  {
    var st := Disable(s, r).store;
    forall a, b | a in st.radios && b in st.radios && st.radios[a].enabled && st.radios[b].enabled
      && st.radios[a].tx == st.radios[b].tx
      ensures a == b
    {
      assert Get(st, a) == Get(s.store, a) && Get(st, b) == Get(s.store, b);
    }
  }

  /** After a rebuild, a radio stored switched off holds no channel. */
  lemma NothingRegisteredTo(s: State, id: RadioId)
    requires Consistent(s)
    requires Get(s.store, id).Some? && !Get(s.store, id).value.enabled
    ensures forall f | f in s.freq.active :: s.freq.active[f] != id
  {
    var all := GetAll(s.store);
    forall f | f in s.freq.active ensures s.freq.active[f] != id {
      var i :| LastClaimant(all, s.freq.maxFrequencies, f, i) && all[i].id == s.freq.active[f];
      assert all[i] == s.store.radios[s.store.order[i]];
    }
  }

  /* ---------- enable ---------- */

  /** Why enableRadio refused, in the order it checks. */
  datatype EnableRefusal = DimensionMismatch | OutOfRange | Locked | ClaimRefused

  /** The first check enableRadio fails, if any (canOperate always allows). */
  function EnableRefusalFor(s: State, r: Radio, op: Operator, txFreq: int): (why: Option<EnableRefusal>)
    ensures why == Some(DimensionMismatch) <==> s.config.restrictToDimension && r.dimension != op.environment
    ensures why.None? <==>
      && !(s.config.restrictToDimension && r.dimension != op.environment)
      && txFreq <= s.freq.maxFrequencies
      && !IsFrequencyLockedFor(s.store, txFreq, r.id)
      && Claim(s.freq, txFreq, r.id).0
  {
    if s.config.restrictToDimension && r.dimension != op.environment then Some(DimensionMismatch)
    else if txFreq > s.freq.maxFrequencies then Some(OutOfRange)
    else if IsFrequencyLockedFor(s.store, txFreq, r.id) then Some(Locked)
    else if !Claim(s.freq, txFreq, r.id).0 then Some(ClaimRefused)
    else None
  }

  /** The radio as a successful enableRadio stores it. */
  function SwitchedOn(r: Radio, op: Operator, txFreq: int): (r': Radio)
    ensures r'.enabled && r'.tx == txFreq && r'.operator == Some(op.id)
    ensures r'.id == r.id && r'.rx == r.rx && r'.fuelSeconds == r.fuelSeconds
  {
    r.(tx := txFreq, operator := Some(op.id), enabled := true)
  }

  /**
   * enableRadio(r, operator, txFreq): refused, with nothing changed, on a
   * dimension mismatch (when restricted), a channel above the ceiling, a
   * channel another enabled radio transmits on, or a refused claim.
   * Otherwise the radio is stored on, tuned to txFreq and operated by the
   * player, the registry is rebuilt and maps txFreq to it, and every other
   * radio is untouched.
   */
  function Enable(s: State, r: Radio, op: Operator, txFreq: int): (res: (bool, State))
    ensures res.0 <==> EnableRefusalFor(s, r, op, txFreq).None?
    ensures !res.0 ==> res.1 == s
    ensures res.0 ==>
      && Get(res.1.store, r.id) == Some(SwitchedOn(r, op, txFreq))
      && (forall k | k != r.id :: Get(res.1.store, k) == Get(s.store, k))
      && Consistent(res.1)
      && 1 <= txFreq <= res.1.freq.maxFrequencies
      && txFreq in res.1.freq.active && res.1.freq.active[txFreq] == r.id
      && res.1.conns == BindOperator(s.voice, s.conns, s.config.isolateOperator, SwitchedOn(r, op, txFreq), op.id)
    ensures res.1.freq.maxFrequencies == s.freq.maxFrequencies && res.1.mode == s.mode && res.1.config == s.config
    ensures res.1.voice == s.voice
  {
    if EnableRefusalFor(s, r, op, txFreq).Some? then (false, s)
    else
      var on := SwitchedOn(r, op, txFreq);
      var freq1 := Claim(s.freq, txFreq, r.id).1;
      var store1 := Save(s.store, on);
      var s1 := Reload(State(store1, freq1, s.voice, s.conns, s.mode, s.config));
      var s' := s1.(conns := BindOperator(s.voice, s.conns, s.config.isolateOperator, on, op.id));
      OnlyHolder(s.store, store1, on, s'.freq);
      (true, s')
  }

  /**
   * When `on` is the only enabled radio on its channel in the store, a
   * rebuilt registry maps that channel to it.
   */
  lemma OnlyHolder(before: Store, after: Store, on: Radio, reg: Registry)
    requires on.enabled && 1 <= on.tx <= reg.maxFrequencies
    requires Get(after, on.id) == Some(on)
    requires forall k | k != on.id :: Get(after, k) == Get(before, k)
    requires !IsFrequencyLockedFor(before, on.tx, on.id)
    requires reg.active == Load(GetAll(after), reg.maxFrequencies)
    ensures on.tx in reg.active && reg.active[on.tx] == on.id
  {
    var all := GetAll(after);
    var j :| 0 <= j < |all| && all[j] == on;
    assert Eligible(all[j], reg.maxFrequencies);
    LoadedHolder(after, reg.maxFrequencies, on.tx);
    forall k | k in after.radios && k != on.id ensures !(after.radios[k].enabled && after.radios[k].tx == on.tx) {
      assert Get(before, k) == Get(after, k);
      assert before.radios[k] in before.radios.Values;
    }
  }

  /** The radio a rebuilt registry names for a channel is stored, enabled, in range and on that channel. */
  lemma LoadedHolder(st: Store, max: int, f: int)
    requires f in Load(GetAll(st), max)
    ensures var h := Load(GetAll(st), max)[f];
      h in st.radios && Eligible(st.radios[h], max) && st.radios[h].tx == f
  {
    var all := GetAll(st);
    var m := Load(all, max);
    var i :| LastClaimant(all, max, f, i) && all[i].id == m[f];
    assert all[i] == st.radios[st.order[i]];
  }

  /** Enabling never puts two enabled radios on one channel. */
  lemma EnableKeepsExclusive(s: State, r: Radio, op: Operator, txFreq: int)
    requires ExclusiveTx(s.store)
    ensures ExclusiveTx(Enable(s, r, op, txFreq).1.store)
  {
    var res := Enable(s, r, op, txFreq);
    if res.0 {
      var st := res.1.store;
      forall a, b | a in st.radios && b in st.radios && st.radios[a].enabled && st.radios[b].enabled
        && st.radios[a].tx == st.radios[b].tx
        ensures a == b
      {
        var other := if a == r.id then b else a;
        if other != r.id {
          assert Get(st, other) == Get(s.store, other);
          assert s.store.radios[other] in s.store.radios.Values;
        }
        if a != r.id && b != r.id {
          assert Get(st, a) == Get(s.store, a) && Get(st, b) == Get(s.store, b);
        }
      }
    }
  }

  /**
   * The GUIs' lock check and the registry agree: when the registry was
   * rebuilt from a store with exclusive channels, a channel in range is
   * locked for a radio exactly when the registry has it in use by another.
   */
  lemma LockMatchesRegistry(s: State, f: int, id: RadioId)
    requires Consistent(s) && ExclusiveTx(s.store)
    requires 1 <= f <= s.freq.maxFrequencies
    ensures IsFrequencyLockedFor(s.store, f, id) <==> IsInUse(s.freq, f, id)
  {
    if IsFrequencyLockedFor(s.store, f, id) {
      LockedIsInUse(s, f, id);
    }
    if IsInUse(s.freq, f, id) {
      LoadedHolder(s.store, s.freq.maxFrequencies, f);
      var h := s.freq.active[f];
      assert s.store.radios[h] in s.store.radios.Values;
    }
  }

  lemma LockedIsInUse(s: State, f: int, id: RadioId)
    requires Consistent(s) && ExclusiveTx(s.store)
    requires 1 <= f <= s.freq.maxFrequencies
    requires IsFrequencyLockedFor(s.store, f, id)
    ensures IsInUse(s.freq, f, id)
  {
    var all := GetAll(s.store);
    var r :| r in s.store.radios.Values && r.enabled && r.tx == f && r.id != id;
    var j :| 0 <= j < |all| && all[j] == r;
    assert Eligible(all[j], s.freq.maxFrequencies);
    LoadedHolder(s.store, s.freq.maxFrequencies, f);
    var k := s.store.order[j];
    assert s.store.radios[k] == r && k == r.id;
  }

  /* ---------- bulk disable ---------- */

  /** A radio a bulk disable switches off: enabled and selected by `cond`. */
  predicate Hit(r: Radio, cond: Radio -> bool) {
    r.enabled && cond(r)
  }

  /**
   * `after` differs from `before` only in radios switched off: the same ids,
   * each radio either untouched or switched off.
   */
  ghost predicate OnlySwitchedOff(before: Store, after: Store) {
    && after.radios.Keys == before.radios.Keys
    && forall k | k in before.radios ::
      after.radios[k] == before.radios[k] || after.radios[k] == SwitchedOff(before.radios[k])
  }

  /** The radios of `st` listed in `ids` that a bulk disable with `cond` switches off. */
  ghost function HitsAmong(st: Store, ids: seq<RadioId>, cond: Radio -> bool): set<RadioId> {
    set k | k in st.radios && k in ids && Hit(st.radios[k], cond)
  }

  /** The enabled radios of `st` transmitting above channel n. */
  ghost function EnabledAbove(st: Store, n: int): set<RadioId> {
    set k | k in st.radios && st.radios[k].enabled && st.radios[k].tx > n
  }

  /** The enabled radios of `st` transmitting on channel f. */
  ghost function EnabledOn(st: Store, f: int): set<RadioId> {
    set k | k in st.radios && st.radios[k].enabled && st.radios[k].tx == f
  }

  /** The enabled radios of `st`. */
  ghost function EnabledIds(st: Store): set<RadioId> {
    set k | k in st.radios && st.radios[k].enabled
  }

  /** Over the whole listing, the hits are every stored radio the condition selects. */
  lemma HitsOfListing(st: Store, cond: Radio -> bool)
    ensures HitsAmong(st, st.order, cond) == set k | k in st.radios && Hit(st.radios[k], cond)
  {
  }

  /** Player `p` operates one of the radios `off`. */
  ghost predicate OperatesOneOf(st: Store, off: set<RadioId>, p: PlayerId) {
    exists k | k in off && k in st.radios :: st.radios[k].operator == Some(p)
  }

  /** Switching off the radios `off` closes exactly their speakers and keeps the group table. */
  ghost predicate SpeakersAfterSwitchOff(before: State, after: State, off: set<RadioId>) {
    && after.voice.speakers == before.voice.speakers - off
    && after.voice.apiReady == before.voice.apiReady && after.voice.txGroupIds == before.voice.txGroupIds
  }

  /**
   * Switching off the radios `off` unbinds their operators: with the voice
   * server up, a connected player who operated one of them leaves their
   * group; every other connection is kept.
   */
  ghost predicate ConnsAfterSwitchOff(before: State, after: State, off: set<RadioId>) {
    && after.conns.Keys == before.conns.Keys
    && forall p | p in before.conns ::
         after.conns[p] == (if before.voice.apiReady && OperatesOneOf(before.store, off, p) then None else before.conns[p])
  }

  /**
   * `after` is `before` with exactly the hits among `ids` disabled: those
   * are switched off and lose their speaker, every other radio is untouched,
   * no speaker is created or moved, and the registry ceiling, mode and
   * configuration stay as they were.
   */
  ghost predicate DisabledExactly(before: State, after: State, ids: seq<RadioId>, cond: Radio -> bool) {
    && after.store.order == before.store.order
    && OnlySwitchedOff(before.store, after.store)
    && (forall k | k in before.store.radios && !(k in ids && Hit(before.store.radios[k], cond)) ::
          after.store.radios[k] == before.store.radios[k])
    && (forall k | k in before.store.radios && k in ids && Hit(before.store.radios[k], cond) ::
          after.store.radios[k] == SwitchedOff(before.store.radios[k]) && k !in after.voice.speakers)
    && (forall k | k in after.voice.speakers ::
          k in before.voice.speakers && after.voice.speakers[k] == before.voice.speakers[k])
    && after.freq.maxFrequencies == before.freq.maxFrequencies
    && after.mode == before.mode && after.config == before.config
    && after.voice.apiReady == before.voice.apiReady && after.voice.txGroupIds == before.voice.txGroupIds
    && SpeakersAfterSwitchOff(before, after, HitsAmong(before.store, ids, cond))
    && ConnsAfterSwitchOff(before, after, HitsAmong(before.store, ids, cond))
  }

  /**
   * The loop `for (Radio r : radioStore.getAll()) if (r.isEnabled() && cond)
   * disableRadioIfEnabled(r, …)` over the ids `ids`, reading each radio's
   * current value: exactly the listed hits are disabled, and a registry that
   * matched the store still does.
   */
  function DisableWhere(s: State, ids: seq<RadioId>, cond: Radio -> bool): (s': State)
    ensures DisabledExactly(s, s', ids, cond)
    ensures Consistent(s) ==> Consistent(s')
    decreases |ids|
  {
    if ids == [] then s
    else
      var s1 := DisableStep(s, ids[0], cond);
      var s' := DisableWhere(s1, ids[1..], cond);
      DisabledExactlyCompose(s, s1, s', ids, cond);
      s'
  }

  /** One turn of that loop: radio `k` is disabled if it is a hit. */
  function DisableStep(s: State, k: RadioId, cond: Radio -> bool): (s1: State)
    ensures DisabledExactly(s, s1, [k], cond)
    ensures Consistent(s) ==> Consistent(s1)
  {
    if k in s.store.radios && Hit(s.store.radios[k], cond) then
      var s1 := Disable(s, s.store.radios[k]);
      assert forall j | j in s.store.radios && j != k :: Get(s1.store, j) == Get(s.store, j);
      DisableStepVoice(s, s1, k, cond);
      s1
    else
      assert HitsAmong(s.store, [k], cond) == {};
      s
  }

  /** The voice side of disabling the one hit `k`. */
  lemma DisableStepVoice(s: State, s1: State, k: RadioId, cond: Radio -> bool)
    requires k in s.store.radios && Hit(s.store.radios[k], cond)
    requires s1 == Disable(s, s.store.radios[k])
    ensures SpeakersAfterSwitchOff(s, s1, HitsAmong(s.store, [k], cond))
    ensures ConnsAfterSwitchOff(s, s1, HitsAmong(s.store, [k], cond))
  {
    var r := s.store.radios[k];
    assert HitsAmong(s.store, [k], cond) == {k};
    assert s1.voice.speakers == s.voice.speakers - {k};
    forall p | p in s.conns
      ensures s1.conns[p] == (if s.voice.apiReady && OperatesOneOf(s.store, {k}, p) then None else s.conns[p])
    {
      assert OperatesOneOf(s.store, {k}, p) <==> r.operator == Some(p);
    }
  }

  /** The radios a bulk disable switches off compose: the first step's hits, then the rest's. */
  lemma HitsCompose(s: State, s1: State, ids: seq<RadioId>, cond: Radio -> bool)
    requires ids != []
    requires DisabledExactly(s, s1, [ids[0]], cond)
    ensures HitsAmong(s.store, ids, cond) == HitsAmong(s.store, [ids[0]], cond) + HitsAmong(s1.store, ids[1..], cond)
    ensures forall j | j in HitsAmong(s1.store, ids[1..], cond) :: s1.store.radios[j] == s.store.radios[j]
  {
    var k := ids[0];
    forall j | j in HitsAmong(s1.store, ids[1..], cond) ensures s1.store.radios[j] == s.store.radios[j] && j in ids {
      assert j in ids[1..];
    }
    forall j | j in HitsAmong(s.store, ids, cond) && j != k ensures j in HitsAmong(s1.store, ids[1..], cond) {
      assert j in ids[1..];
    }
  }

  /** The voice sides of the first step and of the rest compose. */
  lemma VoiceCompose(s: State, s1: State, s2: State, ids: seq<RadioId>, cond: Radio -> bool)
    requires ids != []
    requires DisabledExactly(s, s1, [ids[0]], cond)
    requires DisabledExactly(s1, s2, ids[1..], cond)
    ensures SpeakersAfterSwitchOff(s, s2, HitsAmong(s.store, ids, cond))
    ensures ConnsAfterSwitchOff(s, s2, HitsAmong(s.store, ids, cond))
  {
    var h1 := HitsAmong(s.store, [ids[0]], cond);
    var h2 := HitsAmong(s1.store, ids[1..], cond);
    HitsCompose(s, s1, ids, cond);
    assert s2.voice.speakers == s.voice.speakers - (h1 + h2);
    forall p | p in s.conns
      ensures s2.conns[p] == (if s.voice.apiReady && OperatesOneOf(s.store, h1 + h2, p) then None else s.conns[p])
    {
      if OperatesOneOf(s1.store, h2, p) {
        var j :| j in h2 && j in s1.store.radios && s1.store.radios[j].operator == Some(p);
        assert s.store.radios[j].operator == Some(p);
      }
      if OperatesOneOf(s.store, h1 + h2, p) && !OperatesOneOf(s.store, h1, p) {
        var j :| j in h1 + h2 && j in s.store.radios && s.store.radios[j].operator == Some(p);
        assert j in h2 && s1.store.radios[j].operator == Some(p);
      }
    }
  }

  /** Disabling the hits among [ids[0]] and then among the rest disables the hits among `ids`. */
  lemma DisabledExactlyCompose(s: State, s1: State, s2: State, ids: seq<RadioId>, cond: Radio -> bool)
    requires ids != []
    requires DisabledExactly(s, s1, [ids[0]], cond)
    requires DisabledExactly(s1, s2, ids[1..], cond)
    ensures DisabledExactly(s, s2, ids, cond)
  {
    var k := ids[0];
    forall j | j in s.store.radios
      ensures s2.store.radios[j] == s.store.radios[j] || s2.store.radios[j] == SwitchedOff(s.store.radios[j])
    {
      assert SwitchedOff(SwitchedOff(s.store.radios[j])) == SwitchedOff(s.store.radios[j]);
    }
    forall j | j in s.store.radios && !(j in ids && Hit(s.store.radios[j], cond))
      ensures s2.store.radios[j] == s.store.radios[j]
    {
      assert j !in ids[1..] || !Hit(s1.store.radios[j], cond);
    }
    forall j | j in s.store.radios && j in ids && Hit(s.store.radios[j], cond)
      ensures s2.store.radios[j] == SwitchedOff(s.store.radios[j]) && j !in s2.voice.speakers
    {
      if j != k {
        assert j in ids[1..];
      }
    }
    VoiceCompose(s, s1, s2, ids, cond);
  }

  /** Switching radios off never puts two enabled radios on one channel. */
  lemma SwitchOffKeepsExclusive(before: Store, after: Store)
    requires ExclusiveTx(before) && OnlySwitchedOff(before, after)
    ensures ExclusiveTx(after)
  {
  }

  /**
   * Re-storing a radio that keeps its id, on/off state and transmit channel
   * (a fuel, range or listen-channel edit) keeps the channels exclusive.
   */
  lemma RewriteKeepsExclusive(st: Store, r': Radio)
    requires Get(st, r'.id).Some? && SameClaim(Get(st, r'.id).value, r')
    requires ExclusiveTx(st)
    ensures ExclusiveTx(Save(st, r'))
  {
    var st' := Save(st, r');
    forall a, b | a in st'.radios && b in st'.radios && st'.radios[a].enabled && st'.radios[b].enabled
      && st'.radios[a].tx == st'.radios[b].tx
      ensures a == b
    {
      assert Get(st', a).value.enabled == Get(st, a).value.enabled && Get(st', a).value.tx == Get(st, a).value.tx;
      assert Get(st', b).value.enabled == Get(st, b).value.enabled && Get(st', b).value.tx == Get(st, b).value.tx;
    }
  }

  /**
   * Retuning a stored radio to a channel no other enabled radio transmits
   * on keeps the channels exclusive, whether the radio is on or off.
   */
  lemma RetuneKeepsExclusive(st: Store, r: Radio, f: int)
    requires Get(st, r.id) == Some(r)
    requires !IsFrequencyLockedFor(st, f, r.id)
    requires ExclusiveTx(st)
    ensures ExclusiveTx(Save(st, r.(tx := f)))
  {
    var st' := Save(st, r.(tx := f));
    forall a, b | a in st'.radios && b in st'.radios && st'.radios[a].enabled && st'.radios[b].enabled
      && st'.radios[a].tx == st'.radios[b].tx
      ensures a == b
    {
      if a != r.id {
        assert Get(st', a) == Get(st, a);
        assert st.radios[a] in st.radios.Values;
      }
      if b != r.id {
        assert Get(st', b) == Get(st, b);
        assert st.radios[b] in st.radios.Values;
      }
    }
  }

  /* ---------- mode switch and shut-down ---------- */

  /**
   * The channel ceiling setRadioMode settles on: the requested count clamped
   * to [1, 1024] in slider mode, the configured simple count otherwise.
   */
  function ModeCeiling(config: Config, mode: RadioMode, requested: int): (n: int)
    ensures mode == Slider ==> 1 <= n <= SLIDER_CEILING
    ensures mode == Slider && 1 <= requested <= SLIDER_CEILING ==> n == requested
    ensures mode == Simple ==> n == config.simpleFrequencies
  {
    if mode == Slider then Min(Max(requested, 1), SLIDER_CEILING) else config.simpleFrequencies
  }

  /**
   * setRadioMode(mode, maxFreq): the mode is switched (slider mode also
   * stores the clamped ceiling as maxFrequencies), every enabled radio
   * transmitting above the new ceiling is disabled, and a fresh registry
   * with the new ceiling is loaded from the store. Afterwards no enabled
   * radio transmits above the ceiling, and nothing but those radios changed.
   */
  function SetRadioMode(s: State, mode: RadioMode, requested: int): (s': State)
    ensures var n := ModeCeiling(s.config, mode, requested);
      && s'.mode == mode
      && s'.freq.maxFrequencies == n
      && (mode == Slider ==> s'.config == s.config.(maxFrequencies := n))
      && (mode == Simple ==> s'.config == s.config)
      && s'.freq.maxFrequencies == MaxFrequenciesForMode(s'.mode, s'.config)
      && Consistent(s')
      && OnlySwitchedOff(s.store, s'.store) && s'.store.order == s.store.order
      && (forall k | k in s'.store.radios && s'.store.radios[k].enabled :: s'.store.radios[k].tx <= n)
      && (forall k | k in s.store.radios && !(s.store.radios[k].enabled && s.store.radios[k].tx > n) ::
            s'.store.radios[k] == s.store.radios[k])
      && (forall k | k in s.store.radios && s.store.radios[k].enabled && s.store.radios[k].tx > n ::
            s'.store.radios[k] == SwitchedOff(s.store.radios[k]))
      && SpeakersAfterSwitchOff(s, s', EnabledAbove(s.store, n))
      && ConnsAfterSwitchOff(s, s', EnabledAbove(s.store, n))
  {
    var n := ModeCeiling(s.config, mode, requested);
    var config := if mode == Slider then s.config.(maxFrequencies := n) else s.config;
    var cond := (x: Radio) => x.tx > n;
    var s0 := s.(mode := mode, config := config);
    var s1 := DisableWhere(s0, s.store.order, cond);
    HitsOfListing(s.store, cond);
    assert HitsAmong(s0.store, s.store.order, cond) == EnabledAbove(s.store, n);
    Reload(s1.(freq := NewRegistry(n)))
  }

  /**
   * onDisable: every speaker is closed and every enabled radio is disabled,
   * so afterwards no radio is enabled and, the registry being rebuilt from
   * a store with no enabled radio, no channel is held.
   */
  function OnDisable(s: State): (s': State)
    ensures forall k | k in s'.store.radios :: !s'.store.radios[k].enabled
    ensures s'.voice.speakers == map[]
    ensures OnlySwitchedOff(s.store, s'.store) && s'.store.order == s.store.order
    ensures s'.voice.apiReady == s.voice.apiReady && s'.voice.txGroupIds == s.voice.txGroupIds
    ensures ConnsAfterSwitchOff(s, s', EnabledIds(s.store))
    ensures Consistent(s) ==> s'.freq.active == map[]
  {
    var s1 := s.(voice := ShutdownAllSpeakers(s.voice));
    var every := (x: Radio) => true;
    var s' := DisableWhere(s1, s.store.order, every);
    assert s1.store == s.store && s1.freq == s.freq;
    ShutdownThenDisableConns(s, s1, s', every);
    AllHitAllOff(s1, s', every);
    assert s'.voice.speakers == map[] by {
      assert s1.voice.speakers == map[];
      assert forall k | k in s'.voice.speakers :: k in s1.voice.speakers;
    }
    NoneEnabledNothingHeld(s');
    s'
  }

  /** Closing the speakers first does not change which operators the following bulk disable unbinds. */
  lemma ShutdownThenDisableConns(s: State, s1: State, s': State, every: Radio -> bool)
    requires forall r :: every(r)
    requires s1 == s.(voice := ShutdownAllSpeakers(s.voice))
    requires ConnsAfterSwitchOff(s1, s', HitsAmong(s1.store, s.store.order, every))
    ensures ConnsAfterSwitchOff(s, s', EnabledIds(s.store))
  {
    HitsOfListing(s.store, every);
    assert HitsAmong(s1.store, s.store.order, every) == EnabledIds(s.store);
  }

  /** A bulk disable over every stored id whose condition holds everywhere leaves no radio enabled. */
  lemma AllHitAllOff(s: State, s': State, cond: Radio -> bool)
    requires forall r :: cond(r)
    requires DisabledExactly(s, s', s.store.order, cond)
    ensures forall k | k in s'.store.radios :: !s'.store.radios[k].enabled
  {
    forall k | k in s'.store.radios ensures !s'.store.radios[k].enabled {
      assert k in s.store.order;
      assert cond(s.store.radios[k]);
    }
  }

  /** A consistent registry over a store with no enabled radio is empty. */
  lemma NoneEnabledNothingHeld(s: State)
    requires forall k | k in s.store.radios :: !s.store.radios[k].enabled
    ensures Consistent(s) ==> s.freq.active == map[]
  {
    var all := GetAll(s.store);
    forall i | 0 <= i < |all| ensures !all[i].enabled {
      assert all[i] == s.store.radios[s.store.order[i]];
    }
  }

  /* ---------- the /radio command ---------- */

  datatype Subcommand = HelpCmd | GiveCmd | ListCmd | FreeCmd | ModeCmd | CoordsCmd | DebugCmd | ReloadCmd | UnknownCmd

  /** The subcommand names onCommand switches on, lower case. */
  const SUBCOMMAND_NAMES: seq<string> := ["help", "give", "list", "free", "mode", "coords", "debug", "reload"]

  /** The subcommand each of SUBCOMMAND_NAMES selects, position by position. */
  const SUBCOMMANDS: seq<Subcommand> := [HelpCmd, GiveCmd, ListCmd, FreeCmd, ModeCmd, CoordsCmd, DebugCmd, ReloadCmd]

  /**
   * onCommand's dispatch: no arguments or "help" in any case shows the help;
   * otherwise the first argument, lower-cased, selects the subcommand.
   */
  function SubcommandOf(args: seq<string>): (c: Subcommand)
    ensures args == [] ==> c == HelpCmd
    ensures args != [] && c != UnknownCmd ==> Text.Lower(args[0]) in SUBCOMMAND_NAMES
    ensures args != [] && c == UnknownCmd ==> Text.Lower(args[0]) !in SUBCOMMAND_NAMES
    ensures forall i | 0 <= i < |SUBCOMMAND_NAMES| ::
      args != [] && Text.Lower(args[0]) == SUBCOMMAND_NAMES[i] ==> c == SUBCOMMANDS[i]
  {
    assert Text.Lower("help") == "help";
    if args == [] || Text.EqualsIgnoreCase(args[0], "help") then HelpCmd
    else
      var sub := Text.Lower(args[0]);
      if sub == "give" then GiveCmd
      else if sub == "list" then ListCmd
      else if sub == "free" then FreeCmd
      else if sub == "mode" then ModeCmd
      else if sub == "coords" then CoordsCmd
      else if sub == "debug" then DebugCmd
      else if sub == "reload" then ReloadCmd
      else UnknownCmd
  }

  /** An enabled radio transmitting on f, the first in iteration order. */
  function HolderOf(st: Store, f: int): (h: Option<Radio>)
    ensures h.Some? ==> h.value in st.radios.Values && h.value.enabled && h.value.tx == f
    ensures h.None? ==> forall k | k in st.radios :: !(st.radios[k].enabled && st.radios[k].tx == f)
  {
    var all := GetAll(st);
    var first := FirstIndex(all, (x: Radio) => x.enabled && x.tx == f);
    assert first.None? ==> forall k | k in st.radios :: !(st.radios[k].enabled && st.radios[k].tx == f) by {
      forall k | k in st.radios && first.None? ensures !(st.radios[k].enabled && st.radios[k].tx == f) {
        var i :| 0 <= i < |st.order| && st.order[i] == k;
        assert all[i] == st.radios[k];
      }
    }
    match first
    case None => None
    case Some(i) => Some(all[i])
  }

  datatype FreeOutcome = FreeNoPermission | FreeUsage | InvalidFrequency | NoTransmitter(f: int) | Freed(f: int)

  /**
   * `/radio free <freq>`: without the admin permission, or without a channel
   * argument, or with one parseInt rejects, nothing changes. Otherwise every
   * enabled radio on that channel is disabled; the outcome reports whether
   * there was any. Afterwards no enabled radio transmits on it, and every
   * radio not on it is untouched.
   */
  function FreeCommand(s: State, hasPermission: bool, args: seq<string>): (res: (State, FreeOutcome))
    ensures res.1 == FreeNoPermission <==> !hasPermission
    ensures res.1 == FreeUsage <==> hasPermission && |args| < 2
    ensures res.1 == InvalidFrequency <==> hasPermission && |args| >= 2 && Text.ParseInt(args[1]).None?
    ensures (res.1.NoTransmitter? || res.1.Freed?) ==> |args| >= 2 && Text.ParseInt(args[1]) == Some(res.1.f)
    ensures res.1.NoTransmitter? ==> HolderOf(s.store, res.1.f).None?
    ensures res.1.Freed? ==> HolderOf(s.store, res.1.f).Some?
    ensures !res.1.Freed? ==> res.0 == s
    ensures res.1.Freed? ==>
      && (forall k | k in res.0.store.radios :: !(res.0.store.radios[k].enabled && res.0.store.radios[k].tx == res.1.f))
      && OnlySwitchedOff(s.store, res.0.store)
      && (forall k | k in s.store.radios && s.store.radios[k].tx != res.1.f :: res.0.store.radios[k] == s.store.radios[k])
      && (forall k | k in s.store.radios && s.store.radios[k].enabled && s.store.radios[k].tx == res.1.f ::
            res.0.store.radios[k] == SwitchedOff(s.store.radios[k]))
      && SpeakersAfterSwitchOff(s, res.0, EnabledOn(s.store, res.1.f))
      && ConnsAfterSwitchOff(s, res.0, EnabledOn(s.store, res.1.f))
      && res.0.freq.maxFrequencies == s.freq.maxFrequencies && res.0.mode == s.mode && res.0.config == s.config
      && (Consistent(s) ==> Consistent(res.0))
  {
    if !hasPermission then (s, FreeNoPermission)
    else if |args| < 2 then (s, FreeUsage)
    else
      match Text.ParseInt(args[1])
      case None => (s, InvalidFrequency)
      case Some(f) =>
        if HolderOf(s.store, f).None? then (s, NoTransmitter(f))
        else
          var cond := (x: Radio) => x.tx == f;
          var s' := DisableWhere(s, s.store.order, cond);
          NoHitLeft(s, s', cond);
          HitsOfListing(s.store, cond);
          assert HitsAmong(s.store, s.store.order, cond) == EnabledOn(s.store, f);
          (s', Freed(f))
  }

  /** After a bulk disable over every stored id, no hit is left enabled. */
  lemma NoHitLeft(s: State, s': State, cond: Radio -> bool)
    requires DisabledExactly(s, s', s.store.order, cond)
    ensures forall k | k in s'.store.radios :: !Hit(s'.store.radios[k], cond)
  {
    forall k | k in s'.store.radios ensures !Hit(s'.store.radios[k], cond) {
      assert k in s.store.order;
    }
  }

  /** RadioMode.valueOf of the upper-cased argument. */
  function ParseMode(arg: string): (m: Option<RadioMode>)
    ensures m == Some(Simple) <==> Text.EqualsIgnoreCase(arg, "simple")
    ensures m == Some(Slider) <==> Text.EqualsIgnoreCase(arg, "slider")
  {
    assert Text.Lower("simple") == "simple" && Text.Lower("slider") == "slider";
    if Text.EqualsIgnoreCase(arg, "simple") then Some(Simple)
    else if Text.EqualsIgnoreCase(arg, "slider") then Some(Slider)
    else None
  }

  /** The ceiling `/radio mode slider` asks for when no count is given. */
  const DEFAULT_SLIDER_REQUEST: int := 128

  datatype ModeOutcome = ModeNoPermission | ShowMode | InvalidMode | InvalidMaxFreq | MaxFreqOutOfRange | ModeChanged(mode: RadioMode)

  /**
   * `/radio mode <simple|slider> [maxFreq]`: nothing changes without the
   * admin permission, without a mode argument, with an unknown mode, or, in
   * slider mode, with a count parseInt rejects or outside [1, 1024]. Otherwise
   * the mode is switched as setRadioMode does, with the given count (128
   * when absent) as the slider ceiling.
   */
  function ModeCommand(s: State, hasPermission: bool, args: seq<string>): (res: (State, ModeOutcome))
    ensures res.1 == ModeNoPermission <==> !hasPermission
    ensures res.1 == ShowMode <==> hasPermission && |args| < 2
    ensures res.1 == InvalidMode <==> hasPermission && |args| >= 2 && ParseMode(args[1]).None?
    ensures res.1 == InvalidMaxFreq <==>
      hasPermission && |args| >= 3 && ParseMode(args[1]) == Some(Slider) && Text.ParseInt(args[2]).None?
    ensures res.1 == MaxFreqOutOfRange <==>
      && hasPermission && |args| >= 3 && ParseMode(args[1]) == Some(Slider) && Text.ParseInt(args[2]).Some?
      && !(1 <= Text.ParseInt(args[2]).value <= SLIDER_CEILING)
    ensures !res.1.ModeChanged? ==> res.0 == s
    ensures res.1.ModeChanged? ==>
      && |args| >= 2 && ParseMode(args[1]) == Some(res.1.mode)
      && res.0.mode == res.1.mode
      && (res.1.mode == Simple ==> res.0.freq.maxFrequencies == s.config.simpleFrequencies)
      && (res.1.mode == Slider && |args| >= 3 ==> Text.ParseInt(args[2]) == Some(res.0.freq.maxFrequencies))
      && (res.1.mode == Slider && |args| < 3 ==> res.0.freq.maxFrequencies == DEFAULT_SLIDER_REQUEST)
      && Consistent(res.0)
      && (forall k | k in res.0.store.radios && res.0.store.radios[k].enabled ::
            res.0.store.radios[k].tx <= res.0.freq.maxFrequencies)
      && (res.1.mode == Slider ==> res.0.config == s.config.(maxFrequencies := res.0.freq.maxFrequencies))
      && (res.1.mode == Simple ==> res.0.config == s.config)
      && OnlySwitchedOff(s.store, res.0.store) && res.0.store.order == s.store.order
      && (forall k | k in s.store.radios && !(s.store.radios[k].enabled && s.store.radios[k].tx > res.0.freq.maxFrequencies) ::
            res.0.store.radios[k] == s.store.radios[k])
      && (forall k | k in s.store.radios && s.store.radios[k].enabled && s.store.radios[k].tx > res.0.freq.maxFrequencies ::
            res.0.store.radios[k] == SwitchedOff(s.store.radios[k]))
      && SpeakersAfterSwitchOff(s, res.0, EnabledAbove(s.store, res.0.freq.maxFrequencies))
      && ConnsAfterSwitchOff(s, res.0, EnabledAbove(s.store, res.0.freq.maxFrequencies))
  {
    if !hasPermission then (s, ModeNoPermission)
    else if |args| < 2 then (s, ShowMode)
    else
      match ParseMode(args[1])
      case None => (s, InvalidMode)
      case Some(mode) =>
        if |args| >= 3 && mode == Slider then
          match Text.ParseInt(args[2])
          case None => (s, InvalidMaxFreq)
          case Some(n) =>
            if n < 1 || n > SLIDER_CEILING then (s, MaxFreqOutOfRange)
            else (SetRadioMode(s, mode, n), ModeChanged(mode))
        else (SetRadioMode(s, mode, DEFAULT_SLIDER_REQUEST), ModeChanged(mode))
  }

  /**
   * The value `/radio coords` and `/radio debug` leave a flag at: "on",
   * "off" and "toggle" (any case) set, clear and flip it; a missing or
   * other argument, or a missing permission, leaves it alone.
   */
  function SwitchCommand(current: bool, hasPermission: bool, args: seq<string>): (b: bool)
    ensures !hasPermission || |args| < 2 ==> b == current
    ensures hasPermission && |args| >= 2 ==>
      && (Text.Lower(args[1]) == "on" ==> b)
      && (Text.Lower(args[1]) == "off" ==> !b)
      && (Text.Lower(args[1]) == "toggle" ==> b == !current)
      && (Text.Lower(args[1]) !in ["on", "off", "toggle"] ==> b == current)
  {
    if !hasPermission || |args| < 2 then current
    else
      var arg := Text.Lower(args[1]);
      if arg == "on" then true
      else if arg == "off" then false
      else if arg == "toggle" then !current
      else current
  }

  /** Toggling twice restores the flag. */
  lemma ToggleTwiceRestores(current: bool, args: seq<string>)
    requires |args| >= 2 && Text.Lower(args[1]) == "toggle"
    ensures SwitchCommand(SwitchCommand(current, true, args), true, args) == current
  {
  }
}

=== FILE: radio.dfy ===
/**
 * The Radio record (model/Radio.java). The source also reads and writes
 * `antennaCount`, `maxRangeBlocks`, `rangeStep`, `finalRangeBlocks` and
 * `totalFuelAddedSeconds` without declaring them; they are plain fields here,
 * initialised like undeclared-initialiser Java ints (to 0).
 */
module Radios {
  import opened Basics
  import opened Worlds

  type RadioId = Uuid
  type PlayerId = Uuid

  datatype Radio = Radio(
    id: RadioId,
    world: Option<string>,
    x: int,
    y: int,
    z: int,
    dimension: string,
    owner: Option<PlayerId>,
    enabled: bool,
    tx: int,
    rx: int,
    operator: Option<PlayerId>,
    fuelSeconds: int,
    antennaCount: int,
    maxRangeBlocks: int,
    rangeStep: int,
    finalRangeBlocks: int,
    totalFuelAddedSeconds: int)

  /** Whether a placement location carries a world (the constructor's guard). */
  predicate HasWorld(loc: Option<Location>) {
    loc.Some? && loc.value.world.Some?
  }

  /** The placement constructor: a fresh radio is off, untuned, unoperated and unfuelled. */
  function NewRadio(id: RadioId, loc: Option<Location>, owner: Option<PlayerId>): (r: Radio)
    ensures r.id == id && r.owner == owner
    ensures !r.enabled && r.tx == 0 && r.rx == 0 && r.operator == None && r.fuelSeconds == 0
    ensures HasWorld(loc) ==>
      && r.world == Some(loc.value.world.value.name)
      && r.x == loc.value.x && r.y == loc.value.y && r.z == loc.value.z
      && r.dimension == loc.value.world.value.environment
    ensures !HasWorld(loc) ==> r.world == None && r.x == 0 && r.y == 0 && r.z == 0 && r.dimension == "NORMAL"
  {
    var base := Radio(id, None, 0, 0, 0, "NORMAL", owner, false, 0, 0, None, 0, 0, 0, 0, 0, 0);
    if HasWorld(loc) then
      var l := loc.value;
      base.(world := Some(l.world.value.name), x := l.x, y := l.y, z := l.z, dimension := l.world.value.environment)
    else
      base
  }

  /** setFuelSeconds: negative amounts are stored as zero; nothing but the fuel changes. */
  function SetFuelSeconds(r: Radio, v: int): (r': Radio)
    ensures r'.fuelSeconds >= 0
    ensures v >= 0 ==> r'.fuelSeconds == v
    ensures v < 0 ==> r'.fuelSeconds == 0
    ensures r' == r.(fuelSeconds := r'.fuelSeconds)
  {
    r.(fuelSeconds := Max(0, v))
  }

  /**
   * addFuelSeconds: a negative amount adds nothing, and the total is floored at
   * zero. Java's 32-bit overflow is not modelled (see README).
   */
  function AddFuelSeconds(r: Radio, add: int): (r': Radio)
    ensures r'.fuelSeconds >= 0
    ensures r.fuelSeconds >= 0 && add <= 0 ==> r' == r
    ensures r.fuelSeconds >= 0 && add >= 0 ==> r'.fuelSeconds == r.fuelSeconds + add
    ensures r' == r.(fuelSeconds := r'.fuelSeconds)
  {
    r.(fuelSeconds := Max(0, r.fuelSeconds + Max(0, add)))
  }

  /** hasFuel. */
  predicate HasFuel(r: Radio) {
    r.fuelSeconds > 0
  }

  /** The lifetime fuel counter (addTotalFuelAddedSeconds, not declared in the source): a plain sum. */
  function AddTotalFuelAddedSeconds(r: Radio, add: int): Radio {
    r.(totalFuelAddedSeconds := r.totalFuelAddedSeconds + add)
  }

  /**
   * getLocation: the radio's block position in its world, or nothing when the
   * world is not loaded. `worlds` stands for Bukkit.getWorld by name.
   */
  function GetLocation(r: Radio, worlds: map<string, World>): (loc: Option<Location>)
    ensures loc.Some? <==> r.world.Some? && r.world.value in worlds
    ensures loc.Some? ==> loc.value == Location(Some(worlds[r.world.value]), r.x, r.y, r.z)
  {
    if r.world.Some? && r.world.value in worlds then
      Some(Location(Some(worlds[r.world.value]), r.x, r.y, r.z))
    else
      None
  }

  /** Every fuel operation leaves the fuel non-negative, starting from any state. */
  lemma FuelNeverNegative(r: Radio, v: int)
    ensures SetFuelSeconds(r, v).fuelSeconds >= 0
    ensures AddFuelSeconds(r, v).fuelSeconds >= 0
    ensures HasFuel(SetFuelSeconds(r, v)) <==> v > 0
  {
  }
}

=== FILE: radio_gui.dfy ===
/**
 * The simple-mode control panel (gui/RadioGui.java): a 27-slot inventory
 * with one row of TX buttons and one row of RX buttons for the nine channels
 * of the current page, and a control row (page arrows, range step, fuel
 * slot, on/off toggle, stash slot, info card). Rendering, sounds and the
 * one-second status refresher are not modelled; what is modelled is what a
 * click or a drag does to the radio, the store, the registry and the
 * viewer's page.
 */
module RadioGui {
  import opened Basics
  import opened Worlds
  import opened Radios
  import opened RadioStore
  import opened FrequencyManager
  import opened VoiceBridge
  import opened RadioMath
  import opened Text
  import opened Plugin
  import OperatorGuard
  import Paging

  const CHANNELS_PER_PAGE: int := 9
  const SLOT_PREV: int := 19
  const SLOT_RANGE: int := 20
  const SLOT_FUEL: int := 21
  const SLOT_STASH: int := 23
  const SLOT_INFO: int := 24
  const SLOT_NEXT: int := 25
  const MIN_RANGE_STEP: int := 1
  const MAX_RANGE_STEP: int := 5
  const INGOT_SECONDS: int := 3
  const BLOCK_SECONDS: int := 27

  /* ---------- pages of channel buttons ---------- */

  function TotalPages(maxFreq: int): (t: int)
    ensures t >= 1
  {
    Paging.TotalPages(maxFreq, CHANNELS_PER_PAGE)
  }

  /** The first channel on a page. */
  function WindowStart(page: int): int {
    page * CHANNELS_PER_PAGE + 1
  }

  /** The last channel on a page: eight past the first, cut at the ceiling. */
  function WindowEnd(page: int, maxFreq: int): int {
    Min(WindowStart(page) + 8, maxFreq)
  }

  predicate InWindow(f: int, page: int, maxFreq: int) {
    WindowStart(page) <= f <= WindowEnd(page, maxFreq)
  }

  /**
   * Every page open can show holds at most nine channels, all of them in
   * 1..maxFreq, and none is empty while there is any channel at all.
   */
  lemma WindowBounds(page: int, maxFreq: int)
    requires 0 <= page < TotalPages(maxFreq)
    ensures WindowEnd(page, maxFreq) - WindowStart(page) + 1 <= CHANNELS_PER_PAGE
    ensures forall f | InWindow(f, page, maxFreq) :: 1 <= f <= maxFreq
    ensures maxFreq >= 1 ==> WindowStart(page) <= WindowEnd(page, maxFreq)
  {
  }

  /**
   * The windows partition the channels: channel f in 1..maxFreq is on page
   * (f - 1) / 9, which is a page open can show, and on no other page.
   */
  lemma WindowsPartition(f: int, maxFreq: int)
    requires 1 <= f <= maxFreq
    ensures 0 <= (f - 1) / CHANNELS_PER_PAGE < TotalPages(maxFreq)
    ensures InWindow(f, (f - 1) / CHANNELS_PER_PAGE, maxFreq)
    ensures forall p | InWindow(f, p, maxFreq) :: p == (f - 1) / CHANNELS_PER_PAGE
  {
    var q := (f - 1) / 9;
    assert q * 9 <= f - 1 < q * 9 + 9;
    forall p | InWindow(f, p, maxFreq) ensures p == q {
      assert p * 9 <= f - 1 < p * 9 + 9;
    }
  }

  /**
   * open(plugin, viewer, r, page): the page is clamped to the channel pages
   * and remembered for the viewer, and the radio's antenna scan and range
   * are refreshed and stored. The registry is not touched.
   */
  function Open(s: State, worlds: map<string, World>, pages: Paging.Pages, viewer: PlayerId, r: Radio, page: int)
    : (res: (State, Paging.Pages))
    ensures viewer in res.1 && 0 <= res.1[viewer] < TotalPages(s.freq.maxFrequencies)
    ensures 0 <= page < TotalPages(s.freq.maxFrequencies) ==> res.1[viewer] == page
    ensures page < 0 ==> res.1[viewer] == 0
    ensures page >= TotalPages(s.freq.maxFrequencies) ==> res.1[viewer] == TotalPages(s.freq.maxFrequencies) - 1
    ensures forall q | q != viewer :: (q in res.1 <==> q in pages) && (q in pages ==> res.1[q] == pages[q])
    ensures Get(res.0.store, r.id) == Some(RecomputeAntennaAndRange(r, worlds))
    ensures forall k | k != r.id :: Get(res.0.store, k) == Get(s.store, k)
    ensures res.0 == s.(store := res.0.store)
    ensures Get(s.store, r.id) == Some(r) && Consistent(s) ==> Consistent(res.0)
    ensures Get(s.store, r.id) == Some(r) && ExclusiveTx(s.store) ==> ExclusiveTx(res.0.store)
  {
    var p := Paging.ClampPage(page, TotalPages(s.freq.maxFrequencies));
    var r' := RecomputeAntennaAndRange(r, worlds);
    OperatorGuard.RewriteKeepsConsistent(s, r');
    assert Get(s.store, r.id) == Some(r) ==> SameClaim(Get(s.store, r'.id).value, r');
    assert Get(s.store, r.id) == Some(r) && ExclusiveTx(s.store) ==> ExclusiveTx(Save(s.store, r')) by {
      if Get(s.store, r.id) == Some(r) && ExclusiveTx(s.store) {
        RewriteKeepsExclusive(s.store, r');
      }
    }
    (s.(store := Save(s.store, r')), pages[viewer := p])
  }

  /* ---------- range step ---------- */

  datatype ClickKind = LeftClick | RightClick | OtherClick

  /**
   * The range selector: a left click raises the step by one up to 5, a
   * right click lowers it by one down to 1, any other click keeps it.
   */
  function RangeStepAfter(step: int, kind: ClickKind): (step': int)
    ensures kind == OtherClick ==> step' == step
    ensures kind == LeftClick ==> (step < MAX_RANGE_STEP ==> step' == step + 1) && (step >= MAX_RANGE_STEP ==> step' == MAX_RANGE_STEP)
    ensures kind == RightClick ==> (step > MIN_RANGE_STEP ==> step' == step - 1) && (step <= MIN_RANGE_STEP ==> step' == MIN_RANGE_STEP)
  {
    match kind
    case LeftClick => Min(MAX_RANGE_STEP, step + 1)
    case RightClick => Max(MIN_RANGE_STEP, step - 1)
    case OtherClick => step
  }

  /**
   * From any step in 0..5 (0 is a new radio's), a left or right click lands
   * in 1..5, and one in 1..5 stays there whatever the click.
   */
  lemma RangeStepStaysInBounds(step: int, kind: ClickKind)
    requires 0 <= step <= MAX_RANGE_STEP
    ensures kind != OtherClick ==> MIN_RANGE_STEP <= RangeStepAfter(step, kind) <= MAX_RANGE_STEP
    ensures step >= MIN_RANGE_STEP ==> MIN_RANGE_STEP <= RangeStepAfter(step, kind) <= MAX_RANGE_STEP
  {
  }

  /** Away from the ends of the scale, a left click and a right click undo each other. */
  lemma RangeStepClicksUndo(step: int)
    ensures MIN_RANGE_STEP <= step < MAX_RANGE_STEP ==> RangeStepAfter(RangeStepAfter(step, LeftClick), RightClick) == step
    ensures MIN_RANGE_STEP < step <= MAX_RANGE_STEP ==> RangeStepAfter(RangeStepAfter(step, RightClick), LeftClick) == step
  {
  }

  /* ---------- fuel ---------- */

  /**
   * The fuel a stack of copper buys: 3 seconds an ingot, 27 seconds a
   * block; any other material buys nothing.
   */
  function CopperSeconds(m: Material, amount: int): (secs: Option<int>)
    ensures secs.Some? <==> m == CopperIngot || m == CopperBlock
    ensures m == CopperIngot ==> secs == Some(INGOT_SECONDS * amount)
    ensures m == CopperBlock ==> secs == Some(BLOCK_SECONDS * amount)
  {
    if m == CopperIngot then Some(INGOT_SECONDS * amount)
    else if m == CopperBlock then Some(BLOCK_SECONDS * amount)
    else None
  }

  /** A copper block is worth exactly the nine ingots it is crafted from. */
  lemma BlockIsNineIngots(n: int)
    ensures CopperSeconds(CopperBlock, n) == CopperSeconds(CopperIngot, 9 * n)
  {
  }

  /**
   * addFuelSeconds followed by addTotalFuelAddedSeconds: the tank and the
   * lifetime counter both grow by the seconds bought, and nothing the
   * registry reads changes.
   */
  function Refuel(r: Radio, secs: int): (r': Radio)
    ensures r.fuelSeconds >= 0 && secs >= 0 ==> r'.fuelSeconds == r.fuelSeconds + secs
    ensures r'.fuelSeconds >= 0
    ensures r'.totalFuelAddedSeconds == r.totalFuelAddedSeconds + secs
    ensures r' == r.(fuelSeconds := r'.fuelSeconds, totalFuelAddedSeconds := r'.totalFuelAddedSeconds)
    ensures SameClaim(r, r')
  {
    AddTotalFuelAddedSeconds(AddFuelSeconds(r, secs), secs)
  }

  /** Storing a refuelled radio keeps the registry matching and the channels exclusive. */
  lemma RefuelKeepsInvariants(s: State, r: Radio, secs: int)
    requires Get(s.store, r.id) == Some(r)
    ensures Consistent(s) ==> Consistent(s.(store := Save(s.store, Refuel(r, secs))))
    ensures ExclusiveTx(s.store) ==> ExclusiveTx(Save(s.store, Refuel(r, secs)))
  {
    RewriteKeepsInvariants(s, Refuel(r, secs));
  }

  /** Storing a stored radio with the same on/off state and channels keeps both invariants. */
  lemma RewriteKeepsInvariants(s: State, r': Radio)
    requires Get(s.store, r'.id).Some? && SameClaim(Get(s.store, r'.id).value, r')
    ensures Consistent(s) ==> Consistent(s.(store := Save(s.store, r')))
    ensures ExclusiveTx(s.store) ==> ExclusiveTx(Save(s.store, r'))
  {
    OperatorGuard.RewriteKeepsConsistent(s, r');
    if ExclusiveTx(s.store) {
      RewriteKeepsExclusive(s.store, r');
    }
  }

  /* ---------- drags ---------- */

  datatype DragOutcome =
    | DragIgnored
    | DragCancelled
    | DragFuelled(secs: int, cursorLeft: int)
    | DragStashed(placed: int, cursorLeft: int)

  /**
   * handleDrag over the dragged-to raw slots, the stack on the cursor and
   * the number of items the drag would put in the slot (0 when none): a
   * drag that stays in the player's inventory is left alone; any other is
   * cancelled, except a one-slot drag of copper onto the fuel slot, which
   * turns the items placed into fuel, and a one-slot drag of a real item
   * onto the stash slot, which moves the items placed there. Either way the
   * cursor keeps what was not placed.
   */
  function HandleDrag(s: State, r: Radio, rawSlots: set<int>, topSize: int, cursor: Material, cursorAmount: int, placed: int)
    : (res: (State, DragOutcome))
    ensures (forall x | x in rawSlots :: x >= topSize) <==> res.1 == DragIgnored
    ensures res.1.DragFuelled? <==>
      && rawSlots == {SLOT_FUEL} && SLOT_FUEL < topSize
      && CopperSeconds(cursor, placed).Some? && placed > 0
    ensures res.1.DragFuelled? ==>
      && res.1 == DragFuelled(CopperSeconds(cursor, placed).value, Max(0, cursorAmount - placed))
      && res.0 == s.(store := Save(s.store, Refuel(r, res.1.secs)))
    ensures res.1.DragStashed? <==>
      && rawSlots == {SLOT_STASH} && SLOT_STASH < topSize
      && cursor != Air && cursor != LimeStainedGlassPane && placed > 0
    ensures res.1.DragStashed? ==> res.1 == DragStashed(placed, Max(0, cursorAmount - placed))
    ensures !res.1.DragFuelled? ==> res.0 == s
  {
    if forall x | x in rawSlots :: x >= topSize then (s, DragIgnored)
    else if |rawSlots| != 1 then
      (s, DragCancelled)
    else
      if rawSlots == {SLOT_FUEL} then
        match CopperSeconds(cursor, placed)
        case None => (s, DragCancelled)
        case Some(secs) =>
          if placed <= 0 then (s, DragCancelled)
          else (s.(store := Save(s.store, Refuel(r, secs))), DragFuelled(secs, Max(0, cursorAmount - placed)))
      else if rawSlots == {SLOT_STASH} then
        if cursor == Air || cursor == LimeStainedGlassPane || placed <= 0 then (s, DragCancelled)
        else (s, DragStashed(placed, Max(0, cursorAmount - placed)))
      else (s, DragCancelled)
  }

  /** A drag touching the panel over more than one slot is always cancelled and changes nothing. */
  lemma MultiSlotDragCancelled(s: State, r: Radio, rawSlots: set<int>, topSize: int, cursor: Material, cursorAmount: int, placed: int)
    requires exists x | x in rawSlots :: x < topSize
    requires |rawSlots| != 1
    ensures HandleDrag(s, r, rawSlots, topSize, cursor, cursorAmount, placed) == (s, DragCancelled)
  {
  }

  /* ---------- clicks ---------- */

  /**
   * A click: the clicked item's display name (None when the slot is
   * empty, "" when the item has no name), the raw slot, the size of the
   * panel, the mouse button, and the stack on the cursor.
   */
  datatype ClickEvent = ClickEvent(
    item: Option<string>,
    raw: int,
    topSize: int,
    kind: ClickKind,
    cursor: Material,
    cursorAmount: int)

  datatype ClickOutcome =
    | Ignored
    | Navigated
    | RangeStepSet(step: int)
    | Rescanned
    | FuelPickup
    | Fuelled(secs: int)
    | FuelRefused
    | StashTouched
    | BadChannel
    | TxLocked(f: int)
    | TxSet(f: int)
    | RxSet(f: int)
    | EnableTried(ok: bool)
    | Switched
    | Closed

  /** The channel named on a "TX n" or "RX n" button, as Integer.parseInt reads it (None: it throws). */
  function ButtonChannel(name: string): (f: Option<int>)
    requires |name| >= 3
    ensures f.Some? ==> InInt32(f.value)
  {
    ParseInt(name[3..])
  }

  /** The buttons open draws, "TX n" and "RX n", name back exactly their channel. */
  lemma ButtonNamesRoundTrip(n: int)
    requires InInt32(n)
    ensures ButtonChannel("TX " + IntToString(n)) == Some(n)
    ensures ButtonChannel("RX " + IntToString(n)) == Some(n)
  {
    assert ("TX " + IntToString(n))[3..] == IntToString(n);
    assert ("RX " + IntToString(n))[3..] == IntToString(n);
    ParseIntRoundTrip(n);
  }

  /**
   * The TX button: refused, with nothing changed, when another enabled
   * radio transmits on f; otherwise the radio is retuned to f and stored,
   * and the registry is rebuilt from the store (see the findings in
   * README: the code as written leaves the registry stale here; that
   * version is `TxClickAsWritten`).
   */
  function TxClick(s: State, r: Radio, f: int): (res: (State, bool))
    requires Get(s.store, r.id) == Some(r)
    ensures res.1 <==> !IsFrequencyLockedFor(s.store, f, r.id)
    ensures !res.1 ==> res.0 == s
    ensures res.1 ==>
      && Get(res.0.store, r.id) == Some(r.(tx := f))
      && (forall k | k != r.id :: Get(res.0.store, k) == Get(s.store, k))
      && Consistent(res.0)
      && res.0 == s.(store := res.0.store, freq := res.0.freq)
      && res.0.freq.maxFrequencies == s.freq.maxFrequencies
    ensures ExclusiveTx(s.store) ==> ExclusiveTx(res.0.store)
  {
    if IsFrequencyLockedFor(s.store, f, r.id) then (s, false)
    else
      assert ExclusiveTx(s.store) ==> ExclusiveTx(Save(s.store, r.(tx := f))) by {
        if ExclusiveTx(s.store) {
          RetuneKeepsExclusive(s.store, r, f);
        }
      }
      (Reload(s.(store := Save(s.store, r.(tx := f)))), true)
  }

  /**
   * The TX button as the code writes it: the same lock check and retune,
   * but the registry is left as it was.
   */
  function TxClickAsWritten(s: State, r: Radio, f: int): (res: (State, bool))
    requires Get(s.store, r.id) == Some(r)
    ensures res.1 <==> !IsFrequencyLockedFor(s.store, f, r.id)
    ensures !res.1 ==> res.0 == s
    ensures res.1 ==> res.0 == s.(store := Save(s.store, r.(tx := f)))
  {
    if IsFrequencyLockedFor(s.store, f, r.id) then (s, false)
    else (s.(store := Save(s.store, r.(tx := f))), true)
  }

  /** An enabled radio holding channel g in a matching registry is its registered holder. */
  lemma HolderIsRegistered(s: State, r: Radio)
    requires Consistent(s) && ExclusiveTx(s.store)
    requires Get(s.store, r.id) == Some(r) && r.enabled && 1 <= r.tx <= s.freq.maxFrequencies
    ensures r.tx in s.freq.active && s.freq.active[r.tx] == r.id
  {
    assert !IsFrequencyLockedFor(s.store, r.tx, r.id);
    OnlyHolder(s.store, s.store, r, s.freq);
  }

  /**
   * After an exclusive radio leaves channel g with the TX button, no
   * enabled radio transmits on g.
   */
  lemma ChannelLeftEmpty(s: State, r: Radio, f: int)
    requires ExclusiveTx(s.store)
    requires Get(s.store, r.id) == Some(r) && r.enabled && f != r.tx
    ensures forall x | x in Save(s.store, r.(tx := f)).radios.Values :: !(x.enabled && x.tx == r.tx)
  {
    var st' := Save(s.store, r.(tx := f));
    forall x | x in st'.radios.Values ensures !(x.enabled && x.tx == r.tx) {
      var k :| k in st'.radios && st'.radios[k] == x;
      assert Get(st', k) == Some(x);
      if k != r.id {
        assert Get(s.store, k) == Some(x);
        assert s.store.radios[r.id] == r;
        assert x.enabled && x.tx == r.tx ==> k == r.id;
      }
    }
  }

  /**
   * What the stale registry does: after an enabled radio is retuned from g
   * to another free channel with the TX button, the registry still gives g
   * to it, so any other radio that tries to go on air on g is refused by
   * the claim although no enabled radio transmits on g any more.
   */
  lemma StaleClaimBlocksFreeChannel(s: State, r: Radio, f: int, b: Radio, op: Operator)
    requires Consistent(s) && ExclusiveTx(s.store)
    requires Get(s.store, r.id) == Some(r) && r.enabled && 1 <= r.tx <= s.freq.maxFrequencies
    requires f != r.tx && !IsFrequencyLockedFor(s.store, f, r.id)
    requires b.id != r.id
    requires !s.config.restrictToDimension || b.dimension == op.environment
    ensures var s' := TxClickAsWritten(s, r, f).0;
      && !IsFrequencyLockedFor(s'.store, r.tx, b.id)
      && EnableRefusalFor(s', b, op, r.tx) == Some(ClaimRefused)
  {
    HolderIsRegistered(s, r);
    ChannelLeftEmpty(s, r, f);
  }

  /** The TX button as the code writes it leaves a registry that no longer matches the store. */
  lemma TxClickAsWrittenBreaksConsistent(s: State, r: Radio, f: int)
    requires Consistent(s) && ExclusiveTx(s.store)
    requires Get(s.store, r.id) == Some(r) && r.enabled && 1 <= r.tx <= s.freq.maxFrequencies
    requires f != r.tx && !IsFrequencyLockedFor(s.store, f, r.id)
    ensures !Consistent(TxClickAsWritten(s, r, f).0)
  {
    var g := r.tx;
    HolderIsRegistered(s, r);
    ChannelLeftEmpty(s, r, f);
    var s' := TxClickAsWritten(s, r, f).0;
    var all := GetAll(s'.store);
    forall i | 0 <= i < |all| ensures !(Eligible(all[i], s'.freq.maxFrequencies) && all[i].tx == g) {
      assert all[i] in all;
    }
    assert g !in Load(all, s'.freq.maxFrequencies);
    assert g in s'.freq.active;
  }

  /** The RX button: the radio listens on f, and loses its speaker when f is below 1. */
  function RxClick(s: State, r: Radio, f: int): (s': State)
    requires Get(s.store, r.id) == Some(r)
    ensures Get(s'.store, r.id) == Some(r.(rx := f))
    ensures forall k | k != r.id :: Get(s'.store, k) == Get(s.store, k)
    ensures s'.voice == UpdateSpeakerFor(s.voice, r.(rx := f))
    ensures s' == s.(store := s'.store, voice := s'.voice)
    ensures Consistent(s) ==> Consistent(s')
    ensures ExclusiveTx(s.store) ==> ExclusiveTx(s'.store)
  {
    var r' := r.(rx := f);
    RewriteKeepsInvariants(s, r');
    s.(store := Save(s.store, r'), voice := UpdateSpeakerFor(s.voice, r'))
  }

  /** The control-row slots handled before the named buttons. */
  predicate IsControlSlot(raw: int) {
    raw in {SLOT_PREV, SLOT_NEXT, SLOT_RANGE, SLOT_INFO, SLOT_FUEL, SLOT_STASH}
  }

  /**
   * A click on a control-row slot of the panel: the arrows reopen the
   * previous or next page; the range selector steps the range; the info
   * card rescans the antenna; the fuel slot turns a copper stack on the
   * cursor into fuel (an empty cursor picks up, anything else is refused);
   * the stash slot is left to the game.
   */
  function ControlClick(s: State, worlds: map<string, World>, pages: Paging.Pages, viewer: PlayerId, r: Radio, ev: ClickEvent)
    : (res: (State, Paging.Pages, ClickOutcome))
    requires Get(s.store, r.id) == Some(r)
    requires IsControlSlot(ev.raw)
    ensures ev.raw == SLOT_PREV || ev.raw == SLOT_NEXT ==>
      var o := Open(s, worlds, pages, viewer, r, Paging.PageOf(pages, viewer) + (if ev.raw == SLOT_PREV then -1 else 1));
      res == (o.0, o.1, Navigated)
    ensures ev.raw == SLOT_RANGE ==>
      var step := RangeStepAfter(r.rangeStep, ev.kind);
      res == (s.(store := Save(s.store, r.(rangeStep := step))), pages, RangeStepSet(step))
    ensures ev.raw == SLOT_INFO ==> res == (s.(store := Save(s.store, RecomputeAntennaAndRange(r, worlds))), pages, Rescanned)
    ensures ev.raw == SLOT_FUEL ==>
      && (ev.cursor == Air ==> res == (s, pages, FuelPickup))
      && (ev.cursor != Air && CopperSeconds(ev.cursor, ev.cursorAmount).None? ==> res == (s, pages, FuelRefused))
      && (CopperSeconds(ev.cursor, ev.cursorAmount).Some? ==>
            var secs := CopperSeconds(ev.cursor, ev.cursorAmount).value;
            res == (s.(store := Save(s.store, Refuel(r, secs))), pages, Fuelled(secs)))
    ensures ev.raw == SLOT_STASH ==> res == (s, pages, StashTouched)
    ensures Consistent(s) ==> Consistent(res.0)
    ensures ExclusiveTx(s.store) ==> ExclusiveTx(res.0.store)
    ensures res.0.freq == s.freq && res.0.mode == s.mode && res.0.config == s.config
  {
    var current := Paging.PageOf(pages, viewer);
    if ev.raw == SLOT_PREV || ev.raw == SLOT_NEXT then
      var o := Open(s, worlds, pages, viewer, r, current + (if ev.raw == SLOT_PREV then -1 else 1));
      (o.0, o.1, Navigated)
    else if ev.raw == SLOT_RANGE then
      var step := RangeStepAfter(r.rangeStep, ev.kind);
      var r' := r.(rangeStep := step);
      RewriteKeepsInvariants(s, r');
      (s.(store := Save(s.store, r')), pages, RangeStepSet(step))
    else if ev.raw == SLOT_INFO then
      var r' := RecomputeAntennaAndRange(r, worlds);
      RewriteKeepsInvariants(s, r');
      (s.(store := Save(s.store, r')), pages, Rescanned)
    else if ev.raw == SLOT_FUEL then
      if ev.cursor == Air then (s, pages, FuelPickup)
      else
        match CopperSeconds(ev.cursor, ev.cursorAmount)
        case None => (s, pages, FuelRefused)
        case Some(secs) =>
          RefuelKeepsInvariants(s, r, secs);
          (s.(store := Save(s.store, Refuel(r, secs))), pages, Fuelled(secs))
    else (s, pages, StashTouched)
  }

  /**
   * A "TX f" button: refused with nothing changed when locked; otherwise the
   * corrected retune followed by a reopen of the viewer's page.
   */
  function TxButton(s: State, worlds: map<string, World>, pages: Paging.Pages, viewer: PlayerId, r: Radio, f: int)
    : (res: (State, Paging.Pages, ClickOutcome))
    requires Get(s.store, r.id) == Some(r)
    ensures res.2 == TxLocked(f) <==> IsFrequencyLockedFor(s.store, f, r.id)
    ensures res.2 == TxLocked(f) ==> res.0 == s && res.1 == pages
    ensures res.2 != TxLocked(f) ==>
      && res.2 == TxSet(f)
      && Get(res.0.store, r.id) == Some(RecomputeAntennaAndRange(r.(tx := f), worlds))
      && (forall k | k != r.id :: Get(res.0.store, k) == Get(s.store, k))
      && Consistent(res.0)
      && res.1 == Open(TxClick(s, r, f).0, worlds, pages, viewer, r.(tx := f), Paging.PageOf(pages, viewer)).1
      && res.0 == s.(store := res.0.store, freq := res.0.freq)
    ensures ExclusiveTx(s.store) ==> ExclusiveTx(res.0.store)
    ensures res.0.freq.maxFrequencies == s.freq.maxFrequencies && res.0.mode == s.mode && res.0.config == s.config
  {
    var t := TxClick(s, r, f);
    if !t.1 then (s, pages, TxLocked(f))
    else
      var o := Open(t.0, worlds, pages, viewer, r.(tx := f), Paging.PageOf(pages, viewer));
      (o.0, o.1, TxSet(f))
  }

  /** An "RX f" button: the listen channel is set, the speaker updated, and the viewer's page reopened. */
  function RxButton(s: State, worlds: map<string, World>, pages: Paging.Pages, viewer: PlayerId, r: Radio, f: int)
    : (res: (State, Paging.Pages, ClickOutcome))
    requires Get(s.store, r.id) == Some(r)
    ensures res.2 == RxSet(f)
    ensures Get(res.0.store, r.id) == Some(RecomputeAntennaAndRange(r.(rx := f), worlds))
    ensures forall k | k != r.id :: Get(res.0.store, k) == Get(s.store, k)
    ensures res.0.voice == UpdateSpeakerFor(s.voice, r.(rx := f))
    ensures res.0 == s.(store := res.0.store, voice := res.0.voice)
    ensures res.0.freq == s.freq
    ensures Consistent(s) ==> Consistent(res.0)
    ensures ExclusiveTx(s.store) ==> ExclusiveTx(res.0.store)
    ensures res.0.mode == s.mode && res.0.config == s.config
  {
    var s1 := RxClick(s, r, f);
    var o := Open(s1, worlds, pages, viewer, r.(rx := f), Paging.PageOf(pages, viewer));
    (o.0, o.1, RxSet(f))
  }

  /** The on/off buttons: "Enable" tries to go on air on the radio's own channel when it is above 0; "Disable" switches off. */
  function ToggleButton(s: State, pages: Paging.Pages, op: Operator, r: Radio, enable: bool)
    : (res: (State, Paging.Pages, ClickOutcome))
    requires Get(s.store, r.id) == Some(r)
    ensures enable && r.tx > 0 ==> res == (Enable(s, r, op, r.tx).1, pages, EnableTried(Enable(s, r, op, r.tx).0))
    ensures enable && r.tx <= 0 ==> res == (s, pages, Ignored)
    ensures !enable ==> res == (Disable(s, r), pages, Switched)
    ensures Consistent(s) ==> Consistent(res.0)
    ensures ExclusiveTx(s.store) ==> ExclusiveTx(res.0.store)
    ensures res.0.freq.maxFrequencies == s.freq.maxFrequencies && res.0.mode == s.mode && res.0.config == s.config
  {
    if enable then
      if r.tx > 0 then
        var e := Enable(s, r, op, r.tx);
        assert ExclusiveTx(s.store) ==> ExclusiveTx(e.1.store) by {
          if ExclusiveTx(s.store) {
            EnableKeepsExclusive(s, r, op, r.tx);
          }
        }
        (e.1, pages, EnableTried(e.0))
      else (s, pages, Ignored)
    else
      assert ExclusiveTx(s.store) ==> ExclusiveTx(Disable(s, r).store) by {
        if ExclusiveTx(s.store) {
          DisableKeepsExclusive(s, r);
        }
      }
      (Disable(s, r), pages, Switched)
  }

  /** The toggle and close buttons' names are not read as channel buttons. */
  lemma ToggleNamesAreNotChannels()
    ensures !StartsWith("Enable", "TX ") && !StartsWith("Enable", "RX ")
    ensures !StartsWith("Disable", "TX ") && !StartsWith("Disable", "RX ")
    ensures !StartsWith("Close", "TX ") && !StartsWith("Close", "RX ")
  {
    assert "Enable"[..3][0] == 'E' && "TX "[0] == 'T' && "RX "[0] == 'R';
    assert "Disable"[..3][0] == 'D' && "Close"[..3][0] == 'C';
  }

  /**
   * A click on a named button, by the name: "TX n" and "RX n" go to their
   * buttons (a number Integer.parseInt rejects throws, which changes
   * nothing), "Enable" and "Disable" to the toggle, "Close" closes, and any
   * other name does nothing.
   */
  function NamedClick(s: State, worlds: map<string, World>, pages: Paging.Pages, op: Operator, r: Radio, name: string)
    : (res: (State, Paging.Pages, ClickOutcome))
    requires Get(s.store, r.id) == Some(r)
    ensures StartsWith(name, "TX ") ==>
      (ButtonChannel(name).None? ==> res == (s, pages, BadChannel)) &&
      (ButtonChannel(name).Some? ==> res == TxButton(s, worlds, pages, op.id, r, ButtonChannel(name).value))
    ensures !StartsWith(name, "TX ") && StartsWith(name, "RX ") ==>
      (ButtonChannel(name).None? ==> res == (s, pages, BadChannel)) &&
      (ButtonChannel(name).Some? ==> res == RxButton(s, worlds, pages, op.id, r, ButtonChannel(name).value))
    ensures name == "Enable" ==> res == ToggleButton(s, pages, op, r, true)
    ensures name == "Disable" ==> res == ToggleButton(s, pages, op, r, false)
    ensures name == "Close" ==> res == (s, pages, Closed)
    ensures !StartsWith(name, "TX ") && !StartsWith(name, "RX ") && name !in ["Enable", "Disable", "Close"] ==>
      res == (s, pages, Ignored)
    ensures Consistent(s) ==> Consistent(res.0)
    ensures ExclusiveTx(s.store) ==> ExclusiveTx(res.0.store)
    ensures res.0.freq.maxFrequencies == s.freq.maxFrequencies && res.0.mode == s.mode && res.0.config == s.config
  {
    ToggleNamesAreNotChannels();
    if StartsWith(name, "TX ") then
      match ButtonChannel(name)
      case None => (s, pages, BadChannel)
      case Some(f) => TxButton(s, worlds, pages, op.id, r, f)
    else if StartsWith(name, "RX ") then
      match ButtonChannel(name)
      case None => (s, pages, BadChannel)
      case Some(f) => RxButton(s, worlds, pages, op.id, r, f)
    else if name == "Enable" then ToggleButton(s, pages, op, r, true)
    else if name == "Disable" then ToggleButton(s, pages, op, r, false)
    else if name == "Close" then (s, pages, Closed)
    else (s, pages, Ignored)
  }

  /**
   * handleClick on the panel of radio r (as stored) by player op, with the
   * corrected TX button: an empty slot does nothing, a control-row slot of
   * the panel is handled by `ControlClick`, and everything else by the
   * clicked item's name. Every click keeps the registry matching the store
   * and the channels exclusive.
   */
  function HandleClick(s: State, worlds: map<string, World>, pages: Paging.Pages, op: Operator, r: Radio, ev: ClickEvent)
    : (res: (State, Paging.Pages, ClickOutcome))
    requires Get(s.store, r.id) == Some(r)
    ensures ev.item.None? ==> res == (s, pages, Ignored)
    ensures ev.item.Some? && 0 <= ev.raw < ev.topSize && IsControlSlot(ev.raw) ==>
      res == ControlClick(s, worlds, pages, op.id, r, ev)
    ensures ev.item.Some? && !(0 <= ev.raw < ev.topSize && IsControlSlot(ev.raw)) ==>
      res == NamedClick(s, worlds, pages, op, r, ev.item.value)
    ensures Consistent(s) ==> Consistent(res.0)
    ensures ExclusiveTx(s.store) ==> ExclusiveTx(res.0.store)
    ensures res.0.freq.maxFrequencies == s.freq.maxFrequencies && res.0.mode == s.mode && res.0.config == s.config
  {
    if ev.item.None? then (s, pages, Ignored)
    else if 0 <= ev.raw < ev.topSize && IsControlSlot(ev.raw) then ControlClick(s, worlds, pages, op.id, r, ev)
    else NamedClick(s, worlds, pages, op, r, ev.item.value)
  }
}

=== FILE: radio_math.dfy ===
/**
 * Range and fuel-burn arithmetic (util/RadioMath.java), in exact integers.
 *
 * The range formula floor(sqrt(30000*a) + 4.687*b - 200), clamped at 0, is
 * computed as (isqrt(30000 * 1000^2 * a) + 4687*b - 200000) div 1000 with
 * floor division: scaling by 1000 turns 4.687 into an integer and
 * floor((y + Q) / 1000) == floor((floor(y) + Q) / 1000) for integral Q.
 *
 * The burn ceil(1.002^x - 1) is ceil(501^x / 500^x) - 1, and, like the
 * source's (int) cast of a huge double, saturates at Integer.MAX_VALUE.
 */
module RadioMath {
  import opened Basics
  import opened Worlds
  import opened Radios
  import AntennaUtil

  /** 30000 scaled by 1000^2, so that isqrt of it times `a` is 1000*sqrt(30000*a) rounded down. */
  const SQRT_SCALE: int := 30_000_000_000

  /* ---------- integer square root ---------- */

  lemma SquareMono(p: int, q: int)
    requires 0 <= p <= q
    ensures p * p <= q * q
  {
    assert p * p <= p * q by { MulLeMono(p, p, q); }
    assert p * q <= q * q by { MulLeMono(q, p, q); }
  }

  lemma MulLeMono(c: int, p: int, q: int)
    requires 0 <= c && p <= q
    ensures c * p <= c * q
  {
    assert c * q - c * p == c * (q - p);
  }

  /** The floor of the square root of `n`. */
  function Isqrt(n: nat): (r: nat)
    ensures r * r <= n < (r + 1) * (r + 1)
  {
    if n < 2 then n
    else
      var r0 := Isqrt(n / 4);
      IsqrtStep(n, r0);
      var half := 2 * r0;
      if (half + 1) * (half + 1) <= n then half + 1 else half
  }

  /** Doubling the root of n/4 brackets the root of n. */
  lemma IsqrtStep(n: nat, r0: nat)
    requires r0 * r0 <= n / 4 < (r0 + 1) * (r0 + 1)
    ensures (2 * r0) * (2 * r0) <= n < (2 * r0 + 2) * (2 * r0 + 2)
  {
    var k := n / 4;
    var lo, hi := r0 * r0, (r0 + 1) * (r0 + 1);
    assert (2 * r0) * (2 * r0) == 4 * lo by { Scale4(r0); }
    assert (2 * r0 + 2) * (2 * r0 + 2) == 4 * hi by { Scale4(r0 + 1); }
    assert n < 4 * k + 4;
  }

  lemma Scale4(x: int)
    ensures (2 * x) * (2 * x) == 4 * (x * x)
  {
  }

  /** The square root is monotone. */
  lemma IsqrtMono(m: nat, n: nat)
    requires m <= n
    ensures Isqrt(m) <= Isqrt(n)
  {
    var p: int, q: int := Isqrt(m), Isqrt(n);
    if q < p {
      SquareMono(q + 1, p);
    }
  }

  /* ---------- range ---------- */

  /** The formula before the clamp at 0. */
  function RawRange(a: nat, b: int): int {
    (Isqrt(SQRT_SCALE * a) + 4687 * b - 200_000) / 1000
  }

  /** The stored maximum range for `a` antennas at altitude `b`. */
  function MaxRange(a: nat, b: int): nat {
    Max(0, RawRange(a, b))
  }

  /**
   * `t / 1000 <= sqrt(30000 * a)`, decided exactly in integers:
   * t <= sqrt(SQRT_SCALE * a).
   */
  predicate AtMostScaledRoot(t: int, a: nat) {
    t <= 0 || t * t <= SQRT_SCALE * a
  }

  /**
   * The computed value is floor(sqrt(30000*a) + 4.687*b - 200): the greatest v
   * with v <= sqrt(30000*a) + (4687*b - 200000)/1000.
   */
  lemma {:induction false} RawRangeIsFloorOfFormula(a: nat, b: int)
    ensures AtMostScaledRoot(1000 * RawRange(a, b) - (4687 * b - 200_000), a)
    ensures !AtMostScaledRoot(1000 * (RawRange(a, b) + 1) - (4687 * b - 200_000), a)
  {
    var n := SQRT_SCALE * a;
    var i := Isqrt(n);
    var q := 4687 * b - 200_000;
    var v := RawRange(a, b);
    assert 1000 * v <= i + q < 1000 * v + 1000;
    var t1 := 1000 * v - q;
    var t2 := 1000 * (v + 1) - q;
    assert t1 <= i;
    if t1 > 0 {
      SquareMono(t1, i);
    }
    assert t2 >= i + 1;
    SquareMono(i + 1, t2);
  }

  /** With the antenna count fixed, more altitude never lowers the range. */
  lemma MaxRangeMonotoneInAltitude(a: nat, b1: int, b2: int)
    requires b1 <= b2
    ensures MaxRange(a, b1) <= MaxRange(a, b2)
  {
    var i := Isqrt(SQRT_SCALE * a);
    DivMono(i + 4687 * b1 - 200_000, i + 4687 * b2 - 200_000);
  }

  /** With the altitude fixed, more antennas never lower the range. */
  lemma MaxRangeMonotoneInAntennas(a1: nat, a2: nat, b: int)
    requires a1 <= a2
    ensures MaxRange(a1, b) <= MaxRange(a2, b)
  {
    MulLeMono(SQRT_SCALE, a1, a2);
    IsqrtMono(SQRT_SCALE * a1, SQRT_SCALE * a2);
    DivMono(Isqrt(SQRT_SCALE * a1) + 4687 * b - 200_000, Isqrt(SQRT_SCALE * a2) + 4687 * b - 200_000);
  }

  lemma DivMono(p: int, q: int)
    requires p <= q
    ensures p / 1000 <= q / 1000
  {
  }

  /** No antennas at altitude 0 gives no range (sqrt(0) + 0 - 200 < 0 clamps to 0). */
  lemma NoAntennaAtSeaFloorHasNoRange()
    ensures MaxRange(0, 0) == 0
  {
    assert Isqrt(0) == 0;
  }

  /**
   * recomputeAntennaAndRange: the antenna count is exactly the rod scan at the
   * radio's location (0 when the world is not loaded), the altitude is the
   * location's y or else the stored y, and the range is the clamped formula.
   * Nothing else changes.
   */
  function RecomputeAntennaAndRange(r: Radio, worlds: map<string, World>): (r': Radio)
    ensures r'.antennaCount == AntennaUtil.CountVerticalRodsAbove(GetLocation(r, worlds))
    ensures GetLocation(r, worlds).None? ==> r'.antennaCount == 0
    ensures r'.maxRangeBlocks >= 0
    ensures r'.maxRangeBlocks == MaxRange(r'.antennaCount, r.y)
    ensures r' == r.(antennaCount := r'.antennaCount, maxRangeBlocks := r'.maxRangeBlocks)
  {
    var loc := GetLocation(r, worlds);
    var a := AntennaUtil.CountVerticalRodsAbove(loc);
    var b := if loc.Some? then loc.value.y else r.y;
    r.(antennaCount := a, maxRangeBlocks := MaxRange(a, b))
  }

  /* ---------- fuel burn ---------- */

  function Pow(base: nat, e: nat): (p: nat)
    ensures base >= 1 ==> p >= 1
  {
    if e == 0 then 1 else base * Pow(base, e - 1)
  }

  /** The least c with n <= c * d. */
  function CeilDiv(n: nat, d: nat): (c: nat)
    requires d > 0
    ensures n <= c * d < n + d
  {
    (n + d - 1) / d
  }

  /**
   * burnPerSecond: fuel-seconds drained per second at final range x, that is
   * ceil(1.002^x - 1) for x > 0 (saturated at Integer.MAX_VALUE), and 0 for
   * x <= 0.
   */
  function BurnPerSecond(x: int): (burn: int)
    ensures x <= 0 ==> burn == 0
    ensures x > 0 ==> 1 <= burn <= INT_MAX
    ensures x > 0 && burn < INT_MAX ==>
      && burn * Pow(500, x) >= Pow(501, x) - Pow(500, x)
      && (burn - 1) * Pow(500, x) < Pow(501, x) - Pow(500, x)
    ensures x > 0 && burn == INT_MAX ==> (INT_MAX - 1) * Pow(500, x) < Pow(501, x) - Pow(500, x)
  {
    if x <= 0 then 0
    else
      PowGrows(x);
      var c := CeilDiv(Pow(501, x), Pow(500, x));
      SaturatedCeiling(Pow(501, x), Pow(500, x), c);
      Min(c - 1, INT_MAX)
  }

  /** A ceiling quotient c of n by d with c - 1 >= INT_MAX means INT_MAX * d < n. */
  lemma SaturatedCeiling(n: nat, d: nat, c: nat)
    requires d > 0 && c * d < n + d
    ensures c - 1 >= INT_MAX ==> INT_MAX * d < n
  {
    if c - 1 >= INT_MAX {
      MulLeMono(d, INT_MAX, c - 1);
      assert d * (c - 1) == c * d - d;
    }
  }

  /** 501^e > 500^e for e >= 1. */
  lemma {:induction false} PowGrows(e: nat)
    requires e >= 1
    ensures Pow(501, e) > Pow(500, e)
  {
    if e > 1 {
      PowGrows(e - 1);
      MulLeMono(500, Pow(500, e - 1), Pow(501, e - 1));
    }
  }

  /** 501^x / 500^x never shrinks as x grows: 501^x * 500^y <= 501^y * 500^x. */
  lemma {:induction false} RatioGrows(x: nat, y: nat)
    requires x <= y
    ensures Pow(501, x) * Pow(500, y) <= Pow(501, y) * Pow(500, x)
  {
    if x < y {
      RatioGrows(x, y - 1);
      var p, q, u, v := Pow(501, x), Pow(500, y - 1), Pow(501, y - 1), Pow(500, x);
      assert Pow(500, y) == 500 * q && Pow(501, y) == 501 * u;
      RatioStep(p, q, u, v);
    }
  }

  /** p * q <= u * v gives p * (500 * q) <= (501 * u) * v. */
  lemma RatioStep(p: nat, q: nat, u: nat, v: nat)
    requires p * q <= u * v
    ensures p * (500 * q) <= (501 * u) * v
  {
    assert p * (500 * q) == 500 * (p * q);
    assert (501 * u) * v == 501 * (u * v);
    MulLeMono(500, p * q, u * v);
  }

  lemma CeilDivMono(n1: nat, d1: nat, n2: nat, d2: nat)
    requires d1 > 0 && d2 > 0
    requires n1 * d2 <= n2 * d1
    ensures CeilDiv(n1, d1) <= CeilDiv(n2, d2)
  {
    var c1, c2 := CeilDiv(n1, d1), CeilDiv(n2, d2);
    MulLeMono(d1, n2, c2 * d2);
    assert n1 * d2 <= (c2 * d1) * d2;
    if c2 * d1 < n1 {
      MulLeMono(d2, c2 * d1 + 1, n1);
      assert false;
    }
    if c2 < c1 {
      MulLeMono(d1, c2, c1 - 1);
      assert false;
    }
  }

  /** The burn never decreases as the final range grows. */
  lemma BurnMonotone(x: int, y: int)
    requires x <= y
    ensures BurnPerSecond(x) <= BurnPerSecond(y)
  {
    if x > 0 {
      RatioGrows(x, y);
      CeilDivMono(Pow(501, x), Pow(500, x), Pow(501, y), Pow(500, y));
    }
  }

  /**
   * The burn is flat near zero: every range from 1 to 2 burns exactly one
   * fuel-second per second, so the burn is not strictly increasing.
   */
  lemma BurnFlatNearZero()
    ensures BurnPerSecond(1) == 1 && BurnPerSecond(2) == 1
  {
    assert Pow(501, 1) == 501 && Pow(500, 1) == 500;
    assert Pow(501, 2) == 251001 && Pow(500, 2) == 250000;
  }
}

=== FILE: slider_gui.dfy ===
/**
 * The slider-mode tuner (gui/SliderGui.java): a 54-slot inventory whose
 * first row steps the transmit channel by -10, -1, +1, +10, whose third row
 * does the same for the listen channel, and whose bottom rows hold the
 * overview, on/off, type-a-channel and close buttons. The slider bar
 * drawing is left out; what is modelled is what each button does.
 */
module SliderGui {
  import opened Basics
  import opened Radios
  import opened RadioStore
  import opened FrequencyManager
  import opened VoiceBridge
  import opened Plugin
  import RadioGui

  /** What a slot of the tuner does. */
  datatype Button =
    | TxStepper(delta: int)
    | RxStepper(delta: int)
    | OverviewButton
    | ToggleButton
    | TypeTx
    | TypeRx
    | CloseButton
    | NoButton

  /** The slot layout of handleClick. */
  function ButtonAt(slot: int): (b: Button)
    ensures b.TxStepper? || b.RxStepper? ==> b.delta in {-10, -1, 1, 10}
    ensures b.TxStepper? <==> slot in {0, 1, 7, 8}
    ensures b.RxStepper? <==> slot in {18, 19, 25, 26}
    ensures b == NoButton <==> slot !in {0, 1, 7, 8, 18, 19, 25, 26, 37, 40, 44, 45, 53}
  {
    if slot == 0 then TxStepper(-10)
    else if slot == 1 then TxStepper(-1)
    else if slot == 7 then TxStepper(1)
    else if slot == 8 then TxStepper(10)
    else if slot == 18 then RxStepper(-10)
    else if slot == 19 then RxStepper(-1)
    else if slot == 25 then RxStepper(1)
    else if slot == 26 then RxStepper(10)
    else if slot == 37 then OverviewButton
    else if slot == 40 then ToggleButton
    else if slot == 44 then TypeTx
    else if slot == 45 then TypeRx
    else if slot == 53 then CloseButton
    else NoButton
  }

  /**
   * A stepper: down steps stop at channel 1, up steps stop at the ceiling;
   * inside those bounds the channel moves by exactly the step.
   */
  function Step(f: int, delta: int, maxFreq: int): (f': int)
    ensures delta < 0 ==> f' >= 1 && (f + delta >= 1 ==> f' == f + delta) && (f + delta < 1 ==> f' == 1)
    ensures delta >= 0 ==> f' <= maxFreq && (f + delta <= maxFreq ==> f' == f + delta) && (f + delta > maxFreq ==> f' == maxFreq)
  {
    if delta < 0 then Max(1, f + delta) else Min(maxFreq, f + delta)
  }

  /** From a channel in 1..maxFreq, every stepper lands in 1..maxFreq. */
  lemma StepStaysInRange(f: int, delta: int, maxFreq: int)
    requires 1 <= f <= maxFreq
    requires delta in {-10, -1, 1, 10}
    ensures 1 <= Step(f, delta, maxFreq) <= maxFreq
  {
  }

  /** Away from the bounds, stepping up and then down by the same amount (or down then up) comes back. */
  lemma StepsUndo(f: int, d: int, maxFreq: int)
    requires d > 0
    ensures 1 <= f && f + d <= maxFreq ==> Step(Step(f, d, maxFreq), -d, maxFreq) == f
    ensures f - d >= 1 && f <= maxFreq ==> Step(Step(f, -d, maxFreq), d, maxFreq) == f
  {
  }

  /**
   * A transmit stepper as the code writes it: the radio is retuned and
   * stored with no lock check and no registry rebuild, whether it is on
   * air or not.
   */
  function TxStepAsWritten(s: State, r: Radio, delta: int): (s': State)
    ensures Get(s'.store, r.id) == Some(r.(tx := Step(r.tx, delta, s.freq.maxFrequencies)))
    ensures forall k | k != r.id :: Get(s'.store, k) == Get(s.store, k)
    ensures s' == s.(store := s'.store)
  {
    s.(store := Save(s.store, r.(tx := Step(r.tx, delta, s.freq.maxFrequencies))))
  }

  /**
   * What the missing lock check allows: with one radio on air on f and
   * another on air on f + 1, the first one's +1 button puts both on f + 1.
   */
  lemma StepperBreaksExclusive(s: State, r: Radio, b: Radio)
    requires Get(s.store, r.id) == Some(r) && Get(s.store, b.id) == Some(b)
    requires r.enabled && b.enabled && b.tx == r.tx + 1 && b.tx <= s.freq.maxFrequencies
    ensures !ExclusiveTx(TxStepAsWritten(s, r, 1).store)
  {
    var st' := TxStepAsWritten(s, r, 1).store;
    assert st'.radios[r.id].enabled && st'.radios[r.id].tx == b.tx;
    assert b.id != r.id;
    assert st'.radios[b.id] == b;
  }

  /**
   * A transmit stepper, corrected to go through the same lock check and
   * registry rebuild as the TX button of the simple panel: refused when
   * another enabled radio transmits on the new channel.
   */
  function TxStep(s: State, r: Radio, delta: int): (res: (State, bool))
    requires Get(s.store, r.id) == Some(r)
    ensures var f := Step(r.tx, delta, s.freq.maxFrequencies);
      && (res.1 <==> !IsFrequencyLockedFor(s.store, f, r.id))
      && (!res.1 ==> res.0 == s)
      && (res.1 ==> Get(res.0.store, r.id) == Some(r.(tx := f)) && Consistent(res.0))
    ensures forall k | k != r.id :: Get(res.0.store, k) == Get(s.store, k)
    ensures res.0 == s.(store := res.0.store, freq := res.0.freq)
    ensures ExclusiveTx(s.store) ==> ExclusiveTx(res.0.store)
    ensures res.0.freq.maxFrequencies == s.freq.maxFrequencies && res.0.mode == s.mode && res.0.config == s.config
  {
    RadioGui.TxClick(s, r, Step(r.tx, delta, s.freq.maxFrequencies))
  }

  /** A listen stepper: the radio listens on the stepped channel and its speaker is updated. */
  function RxStep(s: State, r: Radio, delta: int): (s': State)
    requires Get(s.store, r.id) == Some(r)
    ensures Get(s'.store, r.id) == Some(r.(rx := Step(r.rx, delta, s.freq.maxFrequencies)))
    ensures forall k | k != r.id :: Get(s'.store, k) == Get(s.store, k)
    ensures s'.freq == s.freq && s'.mode == s.mode && s'.config == s.config
    ensures s'.voice == UpdateSpeakerFor(s.voice, r.(rx := Step(r.rx, delta, s.freq.maxFrequencies)))
    ensures s' == s.(store := s'.store, voice := s'.voice)
    ensures Consistent(s) ==> Consistent(s')
    ensures ExclusiveTx(s.store) ==> ExclusiveTx(s'.store)
  {
    RadioGui.RxClick(s, r, Step(r.rx, delta, s.freq.maxFrequencies))
  }

  datatype SliderOutcome =
    | Ignored
    | Retuned(ok: bool)
    | Relistened
    | OverviewOpened
    | SwitchedOff
    | EnableTried(ok: bool)
    | NoChannelYet
    | TypeChannel(isTx: bool)
    | Closed
    | Redrawn

  /**
   * handleClick on the tuner of radio r (as stored) by player op, with the
   * corrected transmit steppers: a click on an empty or plain item does
   * nothing; the steppers retune or relisten; the toggle switches an
   * enabled radio off, and otherwise goes on air on the radio's own channel
   * when it is at least 1 and refuses when it is not; the overview, type-a-
   * channel and close buttons leave the tuner; any other slot just redraws.
   */
  function HandleClick(s: State, op: Operator, r: Radio, hasItemMeta: bool, slot: int): (res: (State, SliderOutcome))
    requires Get(s.store, r.id) == Some(r)
    ensures !hasItemMeta ==> res == (s, Ignored)
    ensures hasItemMeta && ButtonAt(slot).TxStepper? ==>
      res == (TxStep(s, r, ButtonAt(slot).delta).0, Retuned(TxStep(s, r, ButtonAt(slot).delta).1))
    ensures hasItemMeta && ButtonAt(slot).RxStepper? ==> res == (RxStep(s, r, ButtonAt(slot).delta), Relistened)
    ensures hasItemMeta && ButtonAt(slot) == ToggleButton ==>
      && (r.enabled ==> res == (Disable(s, r), SwitchedOff))
      && (!r.enabled && r.tx >= 1 ==> res == (Enable(s, r, op, r.tx).1, EnableTried(Enable(s, r, op, r.tx).0)))
      && (!r.enabled && r.tx < 1 ==> res == (s, NoChannelYet))
    ensures hasItemMeta && ButtonAt(slot) in {OverviewButton, TypeTx, TypeRx, CloseButton, NoButton} ==> res.0 == s
    ensures hasItemMeta && ButtonAt(slot) == TypeTx ==> res.1 == TypeChannel(true)
    ensures hasItemMeta && ButtonAt(slot) == TypeRx ==> res.1 == TypeChannel(false)
    ensures Consistent(s) ==> Consistent(res.0)
    ensures ExclusiveTx(s.store) ==> ExclusiveTx(res.0.store)
    ensures res.0.freq.maxFrequencies == s.freq.maxFrequencies && res.0.mode == s.mode && res.0.config == s.config
  {
    if !hasItemMeta then (s, Ignored)
    else
      match ButtonAt(slot)
      case TxStepper(d) =>
        var t := TxStep(s, r, d);
        (t.0, Retuned(t.1))
      case RxStepper(d) => (RxStep(s, r, d), Relistened)
      case OverviewButton => (s, OverviewOpened)
      case ToggleButton =>
        if r.enabled then
          assert ExclusiveTx(s.store) ==> ExclusiveTx(Disable(s, r).store) by {
            if ExclusiveTx(s.store) {
              DisableKeepsExclusive(s, r);
            }
          }
          (Disable(s, r), SwitchedOff)
        else if r.tx >= 1 then
          var e := Enable(s, r, op, r.tx);
          assert ExclusiveTx(s.store) ==> ExclusiveTx(e.1.store) by {
            if ExclusiveTx(s.store) {
              EnableKeepsExclusive(s, r, op, r.tx);
            }
          }
          (e.1, EnableTried(e.0))
        else (s, NoChannelYet)
      case TypeTx => (s, TypeChannel(true))
      case TypeRx => (s, TypeChannel(false))
      case CloseButton => (s, Closed)
      case NoButton => (s, Redrawn)
  }
}

=== FILE: store.dfy ===
/**
 * The in-memory radio store (store/RadioStore.java) without its YAML
 * persistence. Java keeps a HashMap whose iteration order is unspecified; the
 * model makes that order explicit as `order`, a duplicate-free list of the
 * stored ids, so that every "first match" the callers rely on is well defined.
 */
module RadioStore {
  import opened Basics
  import opened Radios

  datatype StoreRep = StoreRep(radios: map<RadioId, Radio>, order: seq<RadioId>)

  /** Distinct ids, listed exactly when stored, each keying the radio that carries it. */
  ghost predicate WellFormed(s: StoreRep) {
    && (forall k :: k in s.radios <==> k in s.order)
    && Distinct(s.order)
    && (forall k | k in s.radios :: s.radios[k].id == k)
  }

  ghost predicate Distinct<T>(q: seq<T>) {
    forall i, j | 0 <= i < j < |q| :: q[i] != q[j]
  }

  type Store = s: StoreRep | WellFormed(s) witness StoreRep(map[], [])

  function Empty(): Store {
    StoreRep(map[], [])
  }

  /** `q` with every occurrence of `k` removed, order kept. */
  function Without(q: seq<RadioId>, k: RadioId): (q': seq<RadioId>)
    ensures forall x :: x in q' <==> x in q && x != k
    ensures Distinct(q) ==> Distinct(q')
  {
    if q == [] then []
    else if q[0] == k then Without(q[1..], k)
    else
      var rest := Without(q[1..], k);
      assert forall i | 0 <= i < |rest| :: rest[i] in q[1..];
      [q[0]] + rest
  }

  /** get: the radio stored under `id`, if any. */
  function Get(s: Store, id: RadioId): (r: Option<Radio>)
    ensures r.Some? <==> id in s.radios
    ensures r.Some? ==> r.value.id == id
  {
    if id in s.radios then Some(s.radios[id]) else None
  }

  /**
   * create and save (both a `put` keyed by the radio's id): afterwards `get`
   * returns `r`, every other id is untouched, and a known id keeps its place
   * and the store its size.
   */
  function Save(s: Store, r: Radio): (s': Store)
    ensures Get(s', r.id) == Some(r)
    ensures forall k | k != r.id :: Get(s', k) == Get(s, k)
    ensures s'.radios.Keys == s.radios.Keys + {r.id}
    ensures r.id in s.radios ==> s'.order == s.order && |s'.radios| == |s.radios|
    ensures r.id !in s.radios ==> s'.order == s.order + [r.id] && |s'.radios| == |s.radios| + 1
  {
    if r.id in s.radios then
      StoreRep(s.radios[r.id := r], s.order)
    else
      StoreRep(s.radios[r.id := r], s.order + [r.id])
  }

  /** delete: `id` is gone and every other entry is untouched. */
  function Delete(s: Store, id: RadioId): (s': Store)
    ensures Get(s', id) == None
    ensures forall k | k != id :: Get(s', k) == Get(s, k)
  {
    StoreRep(s.radios - {id}, Without(s.order, id))
  }

  /** getAll: exactly the stored radios, one per id, in the store's iteration order. */
  function GetAll(s: Store): (all: seq<Radio>)
    ensures |all| == |s.order|
    ensures forall i | 0 <= i < |all| :: all[i] == s.radios[s.order[i]]
    ensures forall x :: x in all <==> x in s.radios.Values
  {
    var all := seq(|s.order|, i requires 0 <= i < |s.order| => s.radios[s.order[i]]);
    forall x | x in s.radios.Values
      ensures x in all
    {
      var k :| k in s.radios && s.radios[k] == x;
      var i :| 0 <= i < |s.order| && s.order[i] == k;
      assert all[i] == x;
    }
    all
  }

  /** The number of radios getAll lists equals the number stored. */
  lemma {:induction false} GetAllSize(s: Store)
    ensures |GetAll(s)| == |s.radios|
  {
    DistinctCard(s.order);
    assert Elements(s.order) == s.radios.Keys;
  }

  lemma {:induction false} DistinctCard(q: seq<RadioId>)
    requires Distinct(q)
    ensures |Elements(q)| == |q|
  {
    if q != [] {
      var rest := q[1..];
      assert Distinct(rest) by {
        forall i, j | 0 <= i < j < |rest| ensures rest[i] != rest[j] {
          assert rest[i] == q[i + 1] && rest[j] == q[j + 1];
        }
      }
      DistinctCard(rest);
      assert q[0] !in Elements(rest) by {
        forall i | 0 <= i < |rest| ensures rest[i] != q[0] {
          assert rest[i] == q[i + 1];
        }
      }
      assert Elements(q) == Elements(rest) + {q[0]} by {
        forall k ensures k in Elements(q) <==> k in Elements(rest) + {q[0]} {
          assert k in q <==> k == q[0] || k in rest by { assert q == [q[0]] + rest; }
        }
      }
    }
  }

  /** The set of ids listed in `q`. */
  function Elements(q: seq<RadioId>): set<RadioId> {
    set k | k in q
  }

  /** The radios of `rs` whose listen frequency is `f`, order kept. */
  function FilterListening(rs: seq<Radio>, f: int): (out: seq<Radio>)
    ensures forall x :: x in out <==> x in rs && x.rx == f
    ensures |out| <= |rs|
  {
    if rs == [] then []
    else if rs[0].rx == f then [rs[0]] + FilterListening(rs[1..], f)
    else FilterListening(rs[1..], f)
  }

  /** listenersOn: every stored radio tuned to listen on `f`, enabled or not. */
  function ListenersOn(s: Store, f: int): (out: seq<Radio>)
    ensures forall x :: x in out <==> x in s.radios.Values && x.rx == f
  {
    FilterListening(GetAll(s), f)
  }

  /** The index of the first element of `rs` satisfying `p` (a stream's findFirst). */
  function FirstIndex(rs: seq<Radio>, p: Radio -> bool): (r: Option<nat>)
    ensures r.Some? ==> r.value < |rs| && p(rs[r.value]) && forall j | 0 <= j < r.value :: !p(rs[j])
    ensures r.None? ==> forall j | 0 <= j < |rs| :: !p(rs[j])
  {
    if rs == [] then None
    else if p(rs[0]) then Some(0)
    else
      match FirstIndex(rs[1..], p)
      case None => None
      case Some(i) => Some(i + 1)
  }

  /**
   * byOperator: nothing for a missing operator id; otherwise the first radio in
   * iteration order operated by that player, and nothing iff there is none.
   */
  function ByOperator(s: Store, op: Option<PlayerId>): (r: Option<Radio>)
    ensures op.None? ==> r.None?
    ensures op.Some? && r.None? ==> forall x | x in s.radios.Values :: x.operator != op
    ensures r.Some? ==> op.Some? && r.value in s.radios.Values && r.value.operator == op
    ensures r.Some? ==> exists i | 0 <= i < |s.order| ::
      && GetAll(s)[i] == r.value
      && forall j | 0 <= j < i :: GetAll(s)[j].operator != op
  {
    if op.None? then None
    else
      var all := GetAll(s);
      match FirstIndex(all, (x: Radio) => x.operator == op)
      case None => None
      case Some(i) => Some(all[i])
  }
}

=== FILE: tab_completer.dfy ===
/**
 * Tab completion for `/radio` (command/RadioTabCompleter.java): the
 * suggestions for the argument being typed are the fixed or store-derived
 * options whose lower-cased text starts with the lower-cased typed text,
 * sorted as strings.
 */
module TabCompleter {
  import opened Basics
  import opened Radios
  import opened RadioStore
  import opened Text
  import Plugin

  /** An option survives the typed text when nothing is typed or it starts with it, ignoring case. */
  predicate Keeps(option: string, typed: string) {
    typed == [] || StartsWith(Lower(option), Lower(typed))
  }

  /** The options that survive, in their original order. */
  function Filter(options: seq<string>, typed: string): (out: seq<string>)
    ensures forall x :: x in out <==> x in options && Keeps(x, typed)
    ensures forall x :: multiset(out)[x] == if Keeps(x, typed) then multiset(options)[x] else 0
    ensures |out| <= |options|
  {
    if options == [] then []
    else
      var rest := Filter(options[1..], typed);
      assert options == [options[0]] + options[1..];
      if Keeps(options[0], typed) then [options[0]] + rest else rest
  }

  /**
   * prefix: the surviving options, sorted. Exactly the matching options
   * appear, each as often as in the input, in ascending string order.
   */
  function Prefix(options: seq<string>, typed: string): (out: seq<string>)
    ensures Sorted(out)
    ensures forall x :: x in out <==> x in options && Keeps(x, typed)
    ensures forall x :: multiset(out)[x] == if Keeps(x, typed) then multiset(options)[x] else 0
  {
    var out := Sort(Filter(options, typed));
    assert forall x :: x in out <==> x in multiset(out);
    out
  }

  /** The enabled radios' transmit channels of at least 1, each once, in iteration order. */
  function Occupied(all: seq<Radio>): (fs: seq<int>)
    ensures forall f :: f in fs <==> exists r | r in all :: r.enabled && r.tx >= 1 && r.tx == f
    ensures forall i, j | 0 <= i < j < |fs| :: fs[i] != fs[j]
  {
    if all == [] then []
    else
      var init := Occupied(all[..|all| - 1]);
      var r := all[|all| - 1];
      assert all == all[..|all| - 1] + [r];
      if r.enabled && r.tx >= 1 && r.tx !in init then init + [r.tx] else init
  }

  /** The printed channels. */
  function Printed(fs: seq<int>): (xs: seq<string>)
    ensures |xs| == |fs| && forall i | 0 <= i < |fs| :: xs[i] == IntToString(fs[i])
  {
    if fs == [] then [] else [IntToString(fs[0])] + Printed(fs[1..])
  }

  /** The placeholder offered for `/radio free` when no channel is occupied. */
  const FREQ_PLACEHOLDER: string := "<freq>"

  /** The options for `/radio free`: the occupied channels, or the placeholder when there is none. */
  function FreeOptions(st: Store): (opts: seq<string>)
    ensures forall x :: x in opts <==>
      (exists k | k in st.radios :: st.radios[k].enabled && st.radios[k].tx >= 1 && x == IntToString(st.radios[k].tx))
      || (x == FREQ_PLACEHOLDER && forall k | k in st.radios :: !(st.radios[k].enabled && st.radios[k].tx >= 1))
  {
    var fs := Occupied(GetAll(st));
    OccupiedIsStored(st);
    PrintedMembers(fs);
    if fs == [] then
      assert forall k | k in st.radios :: !(st.radios[k].enabled && st.radios[k].tx >= 1) by {
        forall k | k in st.radios ensures !(st.radios[k].enabled && st.radios[k].tx >= 1) {
          assert st.radios[k].tx !in fs;
        }
      }
      [FREQ_PLACEHOLDER]
    else
      assert fs[0] in fs;
      Printed(fs)
  }

  /** The occupied channels of getAll are the channels of the store's enabled radios above 0. */
  lemma OccupiedIsStored(st: Store)
    ensures forall f :: f in Occupied(GetAll(st)) <==>
      exists k | k in st.radios :: st.radios[k].enabled && st.radios[k].tx >= 1 && st.radios[k].tx == f
  {
    var all := GetAll(st);
    var fs := Occupied(all);
    forall f | f in fs ensures exists k | k in st.radios :: st.radios[k].enabled && st.radios[k].tx >= 1 && st.radios[k].tx == f {
      var r :| r in all && r.enabled && r.tx >= 1 && r.tx == f;
      var i :| 0 <= i < |all| && all[i] == r;
      assert st.radios[st.order[i]] == r;
    }
    forall f, k | k in st.radios && st.radios[k].enabled && st.radios[k].tx >= 1 && st.radios[k].tx == f ensures f in fs {
      var i :| 0 <= i < |st.order| && st.order[i] == k;
      assert all[i] in all;
    }
  }

  /** A printed string is one channel's decimal form, and every channel's is printed. */
  lemma PrintedMembers(fs: seq<int>)
    ensures forall x :: x in Printed(fs) <==> exists f | f in fs :: x == IntToString(f)
  {
    var opts := Printed(fs);
    forall x | x in opts ensures exists f | f in fs :: x == IntToString(f) {
      var i :| 0 <= i < |opts| && opts[i] == x;
      assert fs[i] in fs;
    }
    forall x, f | f in fs && x == IntToString(f) ensures x in opts {
      var i :| 0 <= i < |fs| && fs[i] == f;
      assert opts[i] == x;
    }
  }


  const MODE_NAMES: seq<string> := ["simple", "slider"]
  const SLIDER_COUNTS: seq<string> := ["128", "256", "512", "1024"]
  const SWITCH_VALUES: seq<string> := ["on", "off", "toggle"]

  /** What the argument being typed completes against: a list of options and the typed text, or nothing. */
  datatype Completion = NoCompletion | Complete(options: seq<string>, typed: string)

  /**
   * onTabComplete's dispatch for command `command` with the arguments typed
   * so far (the last one possibly empty). Anything but `radio` gets
   * nothing. The first argument completes against the subcommand names; the
   * second against the mode names after `mode`, on/off/toggle after
   * `coords` and `debug`, and the free-channel options after `free`; the
   * third against the slider counts after `mode slider`; every other
   * position gets nothing.
   */
  function CompletionFor(st: Store, command: string, args: seq<string>): (c: Completion)
    ensures !EqualsIgnoreCase(command, "radio") ==> c == NoCompletion
    ensures EqualsIgnoreCase(command, "radio") && |args| <= 1 ==>
      c == Complete(Plugin.SUBCOMMAND_NAMES, if args == [] then "" else args[0])
    ensures EqualsIgnoreCase(command, "radio") && |args| == 2 && Lower(args[0]) == "mode" ==>
      c == Complete(MODE_NAMES, args[1])
    ensures EqualsIgnoreCase(command, "radio") && |args| == 3 && Lower(args[0]) == "mode" && EqualsIgnoreCase("slider", args[1]) ==>
      c == Complete(SLIDER_COUNTS, args[2])
    ensures EqualsIgnoreCase(command, "radio") && |args| == 2 && Lower(args[0]) in ["coords", "debug"] ==>
      c == Complete(SWITCH_VALUES, args[1])
    ensures EqualsIgnoreCase(command, "radio") && |args| == 2 && Lower(args[0]) == "free" ==>
      c == Complete(FreeOptions(st), args[1])
    ensures |args| >= 2 && Lower(args[0]) !in ["mode", "coords", "debug", "free"] ==> c == NoCompletion
    ensures |args| == 3 && !(Lower(args[0]) == "mode" && EqualsIgnoreCase("slider", args[1])) ==> c == NoCompletion
    ensures |args| >= 4 ==> c == NoCompletion
  {
    if !EqualsIgnoreCase(command, "radio") then NoCompletion
    else if |args| <= 1 then Complete(Plugin.SUBCOMMAND_NAMES, if args == [] then "" else args[0])
    else
      var sub := Lower(args[0]);
      if sub == "mode" then
        if |args| == 2 then Complete(MODE_NAMES, args[1])
        else if |args| == 3 && EqualsIgnoreCase("slider", args[1]) then Complete(SLIDER_COUNTS, args[2])
        else NoCompletion
      else if sub == "coords" || sub == "debug" then
        if |args| == 2 then Complete(SWITCH_VALUES, args[1]) else NoCompletion
      else if sub == "free" then
        if |args| == 2 then Complete(FreeOptions(st), args[1]) else NoCompletion
      else NoCompletion
  }

  /**
   * onTabComplete: the options of the position being typed that the typed
   * text keeps, sorted; nothing where there is nothing to complete.
   */
  function OnTabComplete(st: Store, command: string, args: seq<string>): (out: seq<string>)
    ensures Sorted(out)
    ensures CompletionFor(st, command, args).NoCompletion? ==> out == []
    ensures CompletionFor(st, command, args).Complete? ==>
      var c := CompletionFor(st, command, args);
      forall x :: x in out <==> x in c.options && Keeps(x, c.typed)
  {
    match CompletionFor(st, command, args)
    case NoCompletion => []
    case Complete(options, typed) => Prefix(options, typed)
  }

  /* ---------- what the suggestions are good for ---------- */

  /** The head of a sorted list is at or below everything in it. */
  lemma HeadIsLeast(a: seq<string>, x: string)
    requires Sorted(a) && x in a
    ensures StrLe(a[0], x)
  {
    var i :| 0 <= i < |a| && a[i] == x;
    if i == 0 {
      StrLeTotal(x, x);
    }
  }

  lemma SameTails(a: seq<string>, b: seq<string>)
    requires a != [] && b != [] && a[0] == b[0] && multiset(a) == multiset(b)
    ensures multiset(a[1..]) == multiset(b[1..])
  {
    assert a == [a[0]] + a[1..];
    assert b == [b[0]] + b[1..];
    var A, B := multiset(a[1..]), multiset(b[1..]);
    assert multiset(a) == multiset{a[0]} + A;
    assert multiset(b) == multiset{a[0]} + B;
    assert A == multiset(a) - multiset{a[0]};
    assert B == multiset(b) - multiset{a[0]};
  }

  /** Two sorted lists holding the same strings the same number of times are the same list. */
  lemma {:induction false} SortedUnique(a: seq<string>, b: seq<string>)
    requires Sorted(a) && Sorted(b) && multiset(a) == multiset(b)
    ensures a == b
    decreases |a|
  {
    assert |a| == |multiset(a)| == |multiset(b)| == |b|;
    if a != [] {
      assert a[0] in multiset(b) && b[0] in multiset(a);
      HeadIsLeast(b, a[0]);
      HeadIsLeast(a, b[0]);
      StrLeAntisym(a[0], b[0]);
      assert a == [a[0]] + a[1..] && b == [b[0]] + b[1..];
      SameTails(a, b);
      SortedUnique(a[1..], b[1..]);
    }
  }

  /**
   * The order the options are collected in does not matter: the same
   * options in any order complete to the same list. (The source collects
   * the occupied channels in ascending numeric order; the model collects
   * them in iteration order.)
   */
  lemma PrefixIgnoresOptionOrder(a: seq<string>, b: seq<string>, typed: string)
    requires multiset(a) == multiset(b)
    ensures Prefix(a, typed) == Prefix(b, typed)
  {
    var pa, pb := Prefix(a, typed), Prefix(b, typed);
    assert multiset(pa) == multiset(pb) by {
      forall x ensures multiset(pa)[x] == multiset(pb)[x] {
      }
    }
    SortedUnique(pa, pb);
  }

  /** No ASCII capital letter appears. */
  predicate NoCapitals(x: string) {
    forall i | 0 <= i < |x| :: !('A' <= x[i] <= 'Z')
  }

  lemma LowerKeepsLowercase(x: string)
    requires NoCapitals(x)
    ensures Lower(x) == x
  {
  }

  /** The subcommand names are written in lower case. */
  lemma SubcommandNamesAreLowercase()
    ensures forall x | x in Plugin.SUBCOMMAND_NAMES :: NoCapitals(x)
  {
    assert NoCapitals("help") && NoCapitals("give") && NoCapitals("list") && NoCapitals("free");
    assert NoCapitals("mode") && NoCapitals("coords") && NoCapitals("debug") && NoCapitals("reload");
  }

  lemma NameIsRecognised(x: string)
    requires x in Plugin.SUBCOMMAND_NAMES
    ensures Plugin.SubcommandOf([x]) != Plugin.UnknownCmd
  {
    SubcommandNamesAreLowercase();
    LowerKeepsLowercase(x);
    assert [x][0] == x;
  }

  /** Every subcommand suggested for the first argument is one `/radio` dispatches on. */
  lemma SuggestedSubcommandsAreRecognised(st: Store, command: string, args: seq<string>)
    requires EqualsIgnoreCase(command, "radio") && |args| <= 1
    ensures forall x | x in OnTabComplete(st, command, args) :: Plugin.SubcommandOf([x]) != Plugin.UnknownCmd
  {
    forall x | x in OnTabComplete(st, command, args) ensures Plugin.SubcommandOf([x]) != Plugin.UnknownCmd {
      NameIsRecognised(x);
    }
  }

  /** "128", "256", "512" and "1024" read as those ints. */
  lemma CountsParse()
    ensures forall x | x in SLIDER_COUNTS :: ParseInt(x).Some? && 1 <= ParseInt(x).value <= Plugin.SLIDER_CEILING
  {
    assert "12"[..1] == "1" && DigitsValue("1") == 1;
    assert DigitsValue("12") == 12;
    assert "128"[..2] == "12";
    assert DigitsValue("128") == 128;
    assert "25"[..1] == "2" && DigitsValue("2") == 2;
    assert DigitsValue("25") == 25;
    assert "256"[..2] == "25";
    assert DigitsValue("256") == 256;
    assert "51"[..1] == "5" && DigitsValue("5") == 5;
    assert DigitsValue("51") == 51;
    assert "512"[..2] == "51";
    assert DigitsValue("512") == 512;
    assert "10"[..1] == "1";
    assert DigitsValue("10") == 10;
    assert "102"[..2] == "10";
    assert DigitsValue("102") == 102;
    assert "1024"[..3] == "102";
    assert DigitsValue("1024") == 1024;
  }

  /** An admin's `mode slider <count>` with one of the suggested counts switches to exactly that many channels. */
  lemma CountAccepted(s: Plugin.State, args: seq<string>)
    requires |args| == 3 && Plugin.ParseMode(args[1]) == Some(Plugin.Slider) && args[2] in SLIDER_COUNTS
    ensures ParseInt(args[2]).Some?
    ensures Plugin.ModeCommand(s, true, args).1 == Plugin.ModeChanged(Plugin.Slider)
    ensures Plugin.ModeCommand(s, true, args).0.freq.maxFrequencies == ParseInt(args[2]).value
  {
    CountsParse();
  }

  /**
   * Every slider count suggested after `mode slider` is one `/radio mode`
   * accepts: an admin running it switches to slider mode with exactly that
   * many channels.
   */
  lemma SuggestedCountsAreAccepted(s: Plugin.State, command: string, args: seq<string>, x: string)
    requires EqualsIgnoreCase(command, "radio") && |args| == 3
    requires Lower(args[0]) == "mode" && EqualsIgnoreCase("slider", args[1])
    requires x in OnTabComplete(s.store, command, args)
    ensures ParseInt(x).Some?
    ensures Plugin.ModeCommand(s, true, [args[0], args[1], x]).1 == Plugin.ModeChanged(Plugin.Slider)
    ensures Plugin.ModeCommand(s, true, [args[0], args[1], x]).0.freq.maxFrequencies == ParseInt(x).value
  {
    assert Plugin.ParseMode(args[1]) == Some(Plugin.Slider);
    assert CompletionFor(s.store, command, args) == Complete(SLIDER_COUNTS, args[2]);
    CountAccepted(s, [args[0], args[1], x]);
  }

  /** The digits and sign of a printed int: never the placeholder. */
  lemma PrintedIsNotPlaceholder(n: int)
    ensures IntToString(n) != FREQ_PLACEHOLDER
  {
    assert FREQ_PLACEHOLDER[0] == '<';
  }

  /** Freeing the printed channel of an enabled radio frees a holder. */
  lemma FreeingHeldChannel(s: Plugin.State, sub: string, k: RadioId)
    requires k in s.store.radios && s.store.radios[k].enabled && s.store.radios[k].tx >= 1
    requires InInt32(s.store.radios[k].tx)
    ensures ParseInt(IntToString(s.store.radios[k].tx)) == Some(s.store.radios[k].tx)
    ensures Plugin.FreeCommand(s, true, [sub, IntToString(s.store.radios[k].tx)]).1 == Plugin.Freed(s.store.radios[k].tx)
  {
    var f := s.store.radios[k].tx;
    ParseIntRoundTrip(f);
    assert [sub, IntToString(f)][1] == IntToString(f);
    assert Plugin.HolderOf(s.store, f).Some?;
  }

  /**
   * `/radio free` suggests exactly the held channels: with nothing typed,
   * every channel an enabled radio transmits on is offered; every channel
   * offered is held, and an admin freeing it frees a holder; the
   * placeholder is offered only when nothing is held.
   */
  lemma FreeSuggestsHeldChannels(s: Plugin.State, command: string, args: seq<string>)
    requires EqualsIgnoreCase(command, "radio") && |args| == 2 && Lower(args[0]) == "free"
    requires forall k | k in s.store.radios :: InInt32(s.store.radios[k].tx)
    ensures args[1] == "" ==>
      forall k | k in s.store.radios && s.store.radios[k].enabled && s.store.radios[k].tx >= 1 ::
        IntToString(s.store.radios[k].tx) in OnTabComplete(s.store, command, args)
    ensures forall x | x in OnTabComplete(s.store, command, args) && x != FREQ_PLACEHOLDER ::
      && ParseInt(x).Some? && ParseInt(x).value >= 1
      && Plugin.FreeCommand(s, true, [args[0], x]).1 == Plugin.Freed(ParseInt(x).value)
    ensures FREQ_PLACEHOLDER in OnTabComplete(s.store, command, args) ==>
      forall k | k in s.store.radios :: !(s.store.radios[k].enabled && s.store.radios[k].tx >= 1)
  {
    assert CompletionFor(s.store, command, args) == Complete(FreeOptions(s.store), args[1]);
    var out := OnTabComplete(s.store, command, args);
    forall x | x in out && x != FREQ_PLACEHOLDER
      ensures ParseInt(x).Some? && ParseInt(x).value >= 1
      ensures Plugin.FreeCommand(s, true, [args[0], x]).1 == Plugin.Freed(ParseInt(x).value)
    {
      var k :| k in s.store.radios && s.store.radios[k].enabled && s.store.radios[k].tx >= 1
        && x == IntToString(s.store.radios[k].tx);
      FreeingHeldChannel(s, args[0], k);
    }
    if FREQ_PLACEHOLDER in out {
      forall k | k in s.store.radios ensures !(s.store.radios[k].enabled && s.store.radios[k].tx >= 1) {
        PrintedIsNotPlaceholder(s.store.radios[k].tx);
      }
    }
  }
}

=== FILE: text.dfy ===
/**
 * The java.lang.String and Integer behaviour the command, chat-input and
 * tab-completion logic depends on: trim, case-insensitive comparison,
 * startsWith, Integer.parseInt, String.valueOf(int), compareTo and
 * Collections.sort. Case folding and digits are ASCII only (see README).
 */
module Text {
  import opened Basics

  /* ---------- trim ---------- */

  /** String.trim strips every char whose code is at most U+0020. */
  predicate IsTrimmable(c: char) {
    c <= ' '
  }

  ghost predicate AllTrimmable(s: string) {
    forall k | 0 <= k < |s| :: IsTrimmable(s[k])
  }

  function DropLeading(s: string): (t: string)
    ensures |t| <= |s| && t == s[|s| - |t|..]
    ensures AllTrimmable(s[..|s| - |t|])
    ensures t != [] ==> !IsTrimmable(t[0])
  {
    if s != [] && IsTrimmable(s[0]) then
      var t := DropLeading(s[1..]);
      assert s[..|s| - |t|] == [s[0]] + s[1..][..|s| - 1 - |t|];
      t
    else s
  }

  function DropTrailing(s: string): (t: string)
    ensures |t| <= |s| && t == s[..|t|]
    ensures AllTrimmable(s[|t|..])
    ensures t != [] ==> !IsTrimmable(t[|t| - 1])
  {
    if s != [] && IsTrimmable(s[|s| - 1]) then
      var t := DropTrailing(s[..|s| - 1]);
      assert s[|t|..] == s[..|s| - 1][|t|..] + [s[|s| - 1]];
      t
    else s
  }

  /**
   * String.trim: the slice of `s` left after dropping trimmable chars at both
   * ends; empty exactly when `s` is blank.
   */
  function Trim(s: string): (t: string)
    ensures exists i, j | 0 <= i <= j <= |s| :: t == s[i..j] && AllTrimmable(s[..i]) && AllTrimmable(s[j..])
    ensures t == [] <==> AllTrimmable(s)
    ensures t != [] ==> !IsTrimmable(t[0]) && !IsTrimmable(t[|t| - 1])
  {
    var u := DropLeading(s);
    var t := DropTrailing(u);
    TrimShape(s, u, t);
    t
  }

  /** Stripping the front of `s` to `u` and then the back of `u` to `t` leaves the trimmed middle. */
  lemma TrimShape(s: string, u: string, t: string)
    requires |u| <= |s| && u == s[|s| - |u|..] && AllTrimmable(s[..|s| - |u|])
    requires u != [] ==> !IsTrimmable(u[0])
    requires |t| <= |u| && t == u[..|t|] && AllTrimmable(u[|t|..])
    requires t != [] ==> !IsTrimmable(t[|t| - 1])
    ensures exists i, j | 0 <= i <= j <= |s| :: t == s[i..j] && AllTrimmable(s[..i]) && AllTrimmable(s[j..])
    ensures t == [] <==> AllTrimmable(s)
    ensures t != [] ==> !IsTrimmable(t[0]) && !IsTrimmable(t[|t| - 1])
  {
    var i := |s| - |u|;
    var j := i + |t|;
    assert t == s[i..j];
    assert s[j..] == u[|t|..];
    if t == [] {
      assert u[|t|..] == u;
      assert s == s[..i];
    } else {
      assert t[0] == u[0];
      assert !IsTrimmable(s[i]);
    }
  }

  /* ---------- case ---------- */

  /** Character.toLowerCase restricted to ASCII letters. */
  function AsciiLower(c: char): char {
    if 'A' <= c <= 'Z' then (c as int + 32) as char else c
  }

  /** toLowerCase(Locale.ROOT), ASCII only. */
  function Lower(s: string): (t: string)
    ensures |t| == |s| && forall i | 0 <= i < |s| :: t[i] == AsciiLower(s[i])
  {
    seq(|s|, i requires 0 <= i < |s| => AsciiLower(s[i]))
  }

  /** equalsIgnoreCase. */
  predicate EqualsIgnoreCase(a: string, b: string) {
    Lower(a) == Lower(b)
  }

  /** startsWith. */
  predicate StartsWith(s: string, prefix: string) {
    |prefix| <= |s| && s[..|prefix|] == prefix
  }

  /* ---------- integers ---------- */

  predicate IsDigit(c: char) {
    '0' <= c <= '9'
  }

  predicate AllDigits(s: string) {
    forall k | 0 <= k < |s| :: IsDigit(s[k])
  }

  function DigitChar(d: nat): char
    requires d < 10
  {
    ('0' as int + d) as char
  }

  /** The value of a string of decimal digits, read most significant first. */
  function DigitsValue(s: string): (v: nat)
    requires AllDigits(s)
  {
    if s == [] then 0 else DigitsValue(s[..|s| - 1]) * 10 + (s[|s| - 1] as int - '0' as int)
  }

  /** String.valueOf of a non-negative int: its decimal digits, no leading zero. */
  function NatToString(n: nat): (s: string)
    ensures s != [] && AllDigits(s)
    ensures DigitsValue(s) == n
    ensures s[0] == '0' ==> n == 0
  {
    if n < 10 then [DigitChar(n)]
    else
      var s := NatToString(n / 10) + [DigitChar(n % 10)];
      assert s[..|s| - 1] == NatToString(n / 10);
      s
  }

  /** String.valueOf(int). */
  function IntToString(n: int): string {
    if n < 0 then "-" + NatToString(-n) else NatToString(n)
  }

  /** The radix-10 syntax parseInt accepts: an optional sign followed by one or more digits. */
  predicate IsNumeral(s: string) {
    s != [] && (AllDigits(s) || (|s| >= 2 && (s[0] == '-' || s[0] == '+') && AllDigits(s[1..])))
  }

  /** The value a numeral denotes, before any range check. */
  function NumeralValue(s: string): int
    requires IsNumeral(s)
  {
    if AllDigits(s) then DigitsValue(s)
    else if s[0] == '-' then -(DigitsValue(s[1..]) as int)
    else DigitsValue(s[1..])
  }

  /**
   * Integer.parseInt in radix 10: an optional sign, then one or more digits,
   * with a value that fits in an int; anything else is a NumberFormatException
   * (None).
   */
  function ParseInt(s: string): (r: Option<int>)
    ensures r.Some? ==> InInt32(r.value)
    ensures r.Some? ==> s != [] && (IsDigit(s[0]) || ((s[0] == '-' || s[0] == '+') && |s| >= 2))
    ensures r.Some? ==> AllDigits(s[1..])
    ensures AllDigits(s) && s != [] && InInt32(DigitsValue(s)) ==> r == Some(DigitsValue(s))
    ensures s == [] || !(IsDigit(s[0]) || s[0] == '-' || s[0] == '+') ==> r.None?
    ensures |s| >= 2 && (s[0] == '-' || s[0] == '+') && AllDigits(s[1..])
            && InInt32(if s[0] == '-' then -(DigitsValue(s[1..]) as int) else DigitsValue(s[1..])) ==>
      r == Some(if s[0] == '-' then -(DigitsValue(s[1..]) as int) else DigitsValue(s[1..]))
    ensures r.Some? <==> IsNumeral(s) && InInt32(NumeralValue(s))
    ensures r.Some? ==> r.value == NumeralValue(s)
  {
    if s == [] then None
    else if s[0] == '-' || s[0] == '+' then
      if |s| == 1 || !AllDigits(s[1..]) then None
      else
        var v: int := if s[0] == '-' then 0 - (DigitsValue(s[1..]) as int) else DigitsValue(s[1..]);
        if InInt32(v) then Some(v) else None
    else if !AllDigits(s) then None
    else
      var v := DigitsValue(s);
      if InInt32(v) then Some(v) else None
  }

  /** parseInt reads back every int that valueOf prints. */
  lemma ParseIntRoundTrip(n: int)
    requires InInt32(n)
    ensures ParseInt(IntToString(n)) == Some(n)
  {
    if n < 0 {
      var s := IntToString(n);
      assert s[1..] == NatToString(-n);
    }
  }

  /* ---------- ordering and sorting ---------- */

  /** String.compareTo(a, b) <= 0: lexicographic by char code, a proper prefix first. */
  predicate StrLe(a: string, b: string)
    decreases |a|
  {
    if a == [] then true
    else if b == [] then false
    else if a[0] != b[0] then a[0] < b[0]
    else StrLe(a[1..], b[1..])
  }

  lemma {:induction false} StrLeTotal(a: string, b: string)
    ensures StrLe(a, b) || StrLe(b, a)
    decreases |a|
  {
    if a != [] && b != [] && a[0] == b[0] {
      StrLeTotal(a[1..], b[1..]);
    }
  }

  lemma {:induction false} StrLeTrans(a: string, b: string, c: string)
    requires StrLe(a, b) && StrLe(b, c)
    ensures StrLe(a, c)
    decreases |a|
  {
    if a != [] && b != [] && c != [] && a[0] == b[0] && b[0] == c[0] {
      StrLeTrans(a[1..], b[1..], c[1..]);
    }
  }

  lemma {:induction false} StrLeAntisym(a: string, b: string)
    requires StrLe(a, b) && StrLe(b, a)
    ensures a == b
    decreases |a|
  {
    if a != [] && b != [] {
      StrLeAntisym(a[1..], b[1..]);
      assert a == [a[0]] + a[1..] && b == [b[0]] + b[1..];
    }
  }

  ghost predicate Sorted(s: seq<string>) {
    forall i, j | 0 <= i < j < |s| :: StrLe(s[i], s[j])
  }

  lemma BelowHeadBelowAll(x: string, s: seq<string>)
    requires Sorted(s) && s != [] && StrLe(x, s[0])
    ensures forall j | 0 <= j < |s| :: StrLe(x, s[j])
  {
    forall j | 0 < j < |s| ensures StrLe(x, s[j]) {
      StrLeTrans(x, s[0], s[j]);
    }
  }

  lemma HeadBelowInserted(h: string, x: string, rest: seq<string>, tail: seq<string>)
    requires Sorted([h] + rest) && StrLe(h, x)
    requires multiset(tail) == multiset(rest) + multiset{x}
    ensures forall j | 0 <= j < |tail| :: StrLe(h, tail[j])
  {
    forall j | 0 <= j < |tail| ensures StrLe(h, tail[j]) {
      assert tail[j] in multiset(tail);
      if tail[j] != x {
        assert tail[j] in rest;
        var k :| 0 <= k < |rest| && rest[k] == tail[j];
        assert ([h] + rest)[0] == h && ([h] + rest)[k + 1] == rest[k];
      }
    }
  }

  /** Insert `x` into a sorted list, keeping it sorted. */
  function Insert(x: string, s: seq<string>): (r: seq<string>)
    requires Sorted(s)
    ensures Sorted(r)
    ensures multiset(r) == multiset(s) + multiset{x}
  {
    if s == [] then [x]
    else if StrLe(x, s[0]) then
      BelowHeadBelowAll(x, s);
      [x] + s
    else
      StrLeTotal(x, s[0]);
      var tail := Insert(x, s[1..]);
      assert s == [s[0]] + s[1..];
      HeadBelowInserted(s[0], x, s[1..], tail);
      [s[0]] + tail
  }

  /** Collections.sort on strings: a sorted permutation of the input. */
  function Sort(s: seq<string>): (r: seq<string>)
    ensures Sorted(r)
    ensures multiset(r) == multiset(s)
    ensures |r| == |s|
  {
    if s == [] then []
    else
      assert s == [s[0]] + s[1..];
      Insert(s[0], Sort(s[1..]))
  }
}

=== FILE: voice_bridge.dfy ===
/**
 * The voice routing layer (voice/VoiceBridge.java) with the voice-chat library
 * abstracted away: a speaker is the place and audible radius it was created
 * with, keyed by the receiving radio's id, and a delivered frame is the id of
 * the radio whose speaker plays it. No distance-based delay, loss or noise is
 * applied: the source forwards every frame unchanged.
 */
module VoiceBridge {
  import opened Basics
  import opened Worlds
  import opened Radios
  import opened RadioStore

  type GroupId = Uuid

  /** Where a speaker was opened, and its audible radius. */
  datatype SpeakerSpot = SpeakerSpot(at: Location, radius: int)

  /**
   * `apiReady` is whether the voice server has started; `txGroupIds` maps
   * each transmit channel to its voice group; `speakers` holds at most one
   * speaker per receiving radio.
   */
  datatype Bridge = Bridge(apiReady: bool, txGroupIds: map<int, GroupId>, speakers: map<RadioId, SpeakerSpot>)

  function NewBridge(): Bridge {
    Bridge(false, map[], map[])
  }

  /** The group-table loop from channel `f` up to `maxFreq`. */
  function GroupsFrom(m: map<int, GroupId>, f: int, maxFreq: int, mint: int -> GroupId): (m': map<int, GroupId>)
    ensures forall g | f <= g <= maxFreq :: g in m' && m'[g] == mint(g)
    ensures forall g | !(f <= g <= maxFreq) :: (g in m' <==> g in m) && (g in m ==> m'[g] == m[g])
    decreases maxFreq - f
  {
    if f > maxFreq then m else GroupsFrom(m[f := mint(f)], f + 1, maxFreq, mint)
  }

  /**
   * onServerStarted: the voice server becomes available and every channel in
   * 1..maxFreq gets the group the library issues for it (`mint`); entries
   * outside that range from an earlier start are kept, not cleared.
   */
  function OnServerStarted(b: Bridge, maxFreq: int, mint: int -> GroupId): (b': Bridge)
    ensures b'.apiReady && b'.speakers == b.speakers
    ensures forall f | 1 <= f <= maxFreq :: f in b'.txGroupIds && b'.txGroupIds[f] == mint(f)
    ensures forall f | !(1 <= f <= maxFreq) ::
      (f in b'.txGroupIds <==> f in b.txGroupIds) && (f in b.txGroupIds ==> b'.txGroupIds[f] == b.txGroupIds[f])
  {
    Bridge(true, GroupsFrom(b.txGroupIds, 1, maxFreq, mint), b.speakers)
  }

  /** Some radio in `ls` with id `id` has a resolvable location. */
  ghost predicate Reachable(ls: seq<Radio>, worlds: map<string, World>, id: RadioId) {
    exists l | l in ls :: l.id == id && GetLocation(l, worlds).Some?
  }

  /**
   * The delivery loop over the listeners: a listener whose location cannot be
   * resolved is skipped; every other one gets its speaker (created at its
   * location if it has none, reused otherwise) and the frame.
   */
  function Deliver(b: Bridge, ls: seq<Radio>, worlds: map<string, World>, radius: int): (res: (Bridge, seq<RadioId>))
    ensures res.0.apiReady == b.apiReady && res.0.txGroupIds == b.txGroupIds
    ensures forall id :: id in res.1 <==> Reachable(ls, worlds, id)
    ensures |res.1| <= |ls|
    ensures res.0.speakers.Keys == b.speakers.Keys + (set id | id in res.1)
    ensures forall id | id in b.speakers :: res.0.speakers[id] == b.speakers[id]
    ensures forall id | id in res.0.speakers && id !in b.speakers ::
      exists l | l in ls :: l.id == id && GetLocation(l, worlds) == Some(res.0.speakers[id].at)
                          && res.0.speakers[id].radius == radius
    decreases |ls|
  {
    if ls == [] then (b, [])
    else
      var l := ls[0];
      var loc := GetLocation(l, worlds);
      if loc.None? then
        var res := Deliver(b, ls[1..], worlds, radius);
        assert forall id :: Reachable(ls[1..], worlds, id) <==> Reachable(ls, worlds, id);
        res
      else
        var b1 := if l.id in b.speakers then b else b.(speakers := b.speakers[l.id := SpeakerSpot(loc.value, radius)]);
        var res := Deliver(b1, ls[1..], worlds, radius);
        assert forall id :: Reachable(ls, worlds, id) <==> id == l.id || Reachable(ls[1..], worlds, id);
        (res.0, [l.id] + res.1)
  }

  /** The enabled radio a talking player operates, as the packet handler picks it: the first in iteration order. */
  function TransmitterOf(s: Store, talker: PlayerId): (tx: Option<Radio>)
    ensures tx.Some? ==> tx.value in s.radios.Values && tx.value.enabled && tx.value.operator == Some(talker)
    ensures tx.None? ==> forall r | r in s.radios.Values :: !(r.enabled && r.operator == Some(talker))
  {
    var all := GetAll(s);
    match FirstIndex(all, (r: Radio) => r.operator == Some(talker) && r.enabled)
    case None => None
    case Some(i) => Some(all[i])
  }

  /**
   * onMicPacket: a frame from `talker` (None when the packet has no sender
   * connection) goes nowhere unless the voice server is up, the talker
   * operates an enabled radio, and that radio's transmit channel is at
   * least 1. Otherwise it goes to exactly the radios listening on that
   * channel whose location resolves, enabled or not, the transmitter itself
   * included when it listens on its own channel.
   */
  function OnMicPacket(b: Bridge, s: Store, worlds: map<string, World>, talker: Option<PlayerId>, radius: int)
    : (res: (Bridge, seq<RadioId>))
    ensures !b.apiReady || talker.None? ==> res == (b, [])
    ensures talker.Some? && TransmitterOf(s, talker.value).None? ==> res == (b, [])
    ensures talker.Some? && TransmitterOf(s, talker.value).Some? && TransmitterOf(s, talker.value).value.tx < 1
      ==> res == (b, [])
    ensures res.0.apiReady == b.apiReady && res.0.txGroupIds == b.txGroupIds
    ensures forall id | id in b.speakers :: id in res.0.speakers && res.0.speakers[id] == b.speakers[id]
    ensures b.apiReady && talker.Some? && TransmitterOf(s, talker.value).Some?
            && TransmitterOf(s, talker.value).value.tx >= 1 ==>
      forall id :: id in res.1 <==> Reachable(ListenersOn(s, TransmitterOf(s, talker.value).value.tx), worlds, id)
    ensures forall id | id in res.1 :: id in res.0.speakers
  {
    if !b.apiReady || talker.None? then (b, [])
    else
      match TransmitterOf(s, talker.value)
      case None => (b, [])
      case Some(tx) =>
        if tx.tx < 1 then (b, [])
        else Deliver(b, ListenersOn(s, tx.tx), worlds, radius)
  }

  /** updateSpeakerFor: a radio that stopped listening (channel below 1) loses its speaker; otherwise nothing changes. */
  function UpdateSpeakerFor(b: Bridge, r: Radio): (b': Bridge)
    ensures r.rx < 1 ==> r.id !in b'.speakers && b'.speakers == b.speakers - {r.id}
    ensures r.rx >= 1 ==> b' == b
    ensures b'.apiReady == b.apiReady && b'.txGroupIds == b.txGroupIds
  {
    if r.rx < 1 then RemoveSpeaker(b, r.id) else b
  }

  /** removeSpeaker: that radio's speaker is closed and dropped; every other speaker stays as it was. */
  function RemoveSpeaker(b: Bridge, id: RadioId): (b': Bridge)
    ensures id !in b'.speakers
    ensures forall k | k != id :: (k in b'.speakers <==> k in b.speakers)
    ensures forall k | k != id && k in b.speakers :: b'.speakers[k] == b.speakers[k]
    ensures b'.apiReady == b.apiReady && b'.txGroupIds == b.txGroupIds
  {
    b.(speakers := b.speakers - {id})
  }

  /** The voice server's connected players, each with the group they are in (None: no group). */
  type Connections = map<PlayerId, Option<GroupId>>

  /** shutdownAllSpeakers: every speaker is closed; the group table is kept. */
  function ShutdownAllSpeakers(b: Bridge): (b': Bridge)
    ensures forall id :: id !in b'.speakers
    ensures b'.apiReady == b.apiReady && b'.txGroupIds == b.txGroupIds
  {
    b.(speakers := map[])
  }

  /** A second frame right after the first creates no speaker and moves none: speakers are reused, never replaced. */
  lemma SpeakersAreReused(b: Bridge, s: Store, worlds: map<string, World>, talker: Option<PlayerId>, radius: int)
    ensures var b1 := OnMicPacket(b, s, worlds, talker, radius).0;
      OnMicPacket(b1, s, worlds, talker, radius).0 == b1
  {
    var b1 := OnMicPacket(b, s, worlds, talker, radius).0;
    var res2 := OnMicPacket(b1, s, worlds, talker, radius);
    assert res2.0.speakers.Keys == b1.speakers.Keys;
    assert res2.0.speakers == b1.speakers;
  }
}

=== FILE: worlds.dfy ===
/**
 * The slice of the game world the radios read: block materials by position,
 * loaded worlds by name, and locations. Everything here is an input to the
 * model; nothing in the core changes it.
 */
module Worlds {
  import opened Basics

  /**
   * The block and item materials the core distinguishes (the two glass panes
   * are the GUI's slot placeholders); every other material is `OtherMaterial`.
   */
  datatype Material =
    | LightningRod | CopperIngot | CopperBlock | Air
    | OrangeStainedGlassPane | LimeStainedGlassPane | OtherMaterial

  datatype Pos = Pos(x: int, y: int, z: int)

  /**
   * A loaded world: its name, its environment name ("NORMAL", "NETHER",
   * "THE_END", ...), the non-air blocks, and the build-height ceiling above
   * which every block reads as air.
   */
  datatype World = World(name: string, environment: string, blocks: map<Pos, Material>, maxHeight: int)

  /** org.bukkit.Location: a world (which may be missing) and block coordinates. */
  datatype Location = Location(world: Option<World>, x: int, y: int, z: int)

  /** World.getBlockAt(x, y, z).getType(). */
  function BlockAt(w: World, x: int, y: int, z: int): Material {
    if y > w.maxHeight || Pos(x, y, z) !in w.blocks then Air else w.blocks[Pos(x, y, z)]
  }
}
